=== FILE: README.md ===
# OfficeKing activity scanner — a Dafny model

OfficeKing scans a folder of student documents (Word, PDF, spreadsheets) for roster
entries (student ids and names) and class keywords. It records every hit in a
per-student bucket and writes the results into an Excel report that has one sheet per
grouping. This project models the pure core of that pipeline and proves its
properties:

- **Occurrence search** (`Search`). `find_occurrences` / `find_all_indices` perform a
  leftmost, greedy, non-overlapping substring search. The snippet window is
  `get_text_context`.
- **Roster directory** (`Roster`). It builds the variant lookup (first writer wins),
  the search candidates (names plus their forms without "·") and the inverse id→name
  map (last writer wins).
- **Match aggregation** (`Aggregator`, `DocumentScanner`, `LegacyScanner`):
  - the id pass and the name pass produce *hits*;
  - each hit is routed to a bucket key (`sid:<id>` or `name:<name>`);
  - the buckets are folded and then finalised into rows;
  - the class-tag rows follow the bucket rows;
  - the older `scanner.py` scanner adds one placeholder row when nothing matched.
- **Report aggregation** (`Report`). The pandas code is restated as folds over row
  sequences:
  - filter the student hits and fill in missing names;
  - group by (id, name, activity), then group again per person;
  - take the class hits;
  - reorder the detail columns and stably sort the detail sheet.
- **Worker-count selection and result collection** (`Concurrency`, `ParallelReader`):
  - the environment override, the cap and the candidate set;
  - an argmax with a strict `>`, where the benchmark scores are an input;
  - the per-file result;
  - the completion fold, where completion order is an arbitrary permutation;
  - the `parallel_pdf_reader.py` driver and its summary counts.
- **PDF fallback chains**. Each library call is an abstract outcome (text, exception
  or unavailable).
  - `PdfReader`: the PyMuPDF + PaddleOCR reader with its failure registry and its
    engine singleton.
  - `PdfCascade`: the pdfplumber → PyMuPDF → ocrmypdf → pytesseract cascade, with the
    temporary-file life cycle.
- **Small helpers**:
  - `IndexTool` (`index.py`): the token search, the sorted de-duplicated file list and
    the copy-collision naming loop;
  - `Cli` (`activity_scanner/cli.py`): class tags, scan paths, archive-relative paths
    and the per-file loop of `run_cli`;
  - `Dispatch`: the extension dispatch of both extractor packages.

**Support modules:**

- `Strings` (Python's `strip`, `split`, `splitlines`, `join`, `str(n)`);
- `Paths` (`os.path` and `pathlib` name functions);
- `Dicts` (insertion-ordered dictionaries as sequences of entries with distinct keys);
- `Seqs` (filters, de-duplication, flat maps);
- `Sorting` (stable insertion sort and code-point order);
- `Wrappers` (`Option`).

**How the Python is represented:**

- Strings are `seq<char>`.
- A Python dict is a `Dict<K, V>`, so insertion order, `setdefault` and overwriting are
  all explicit.
- A Python set that is iterated is either sorted where the source sorts it, or given
  as an explicit ordering parameter where the source depends on hash order.
- Everything the program reads from outside becomes a parameter: the file system,
  libraries, the clock, the environment and exceptions.

## Model

| member | source | states |
|---|---|---|
| Search.Find | activity_scanner/document_scanner.py:61 | `text.find(tok, start)` reports -1 only when no occurrence starts at or after `start`, else a true occurrence at or after `start` |
| Search.FindFirst | activity_scanner/document_scanner.py:61 | the reported index is the leftmost occurrence at or after `start` |
| Search.FindNone | activity_scanner/document_scanner.py:61-63 | with no occurrence at or after `start` the search reports -1 |
| Search.Contains | index.py:148 | `tok in text` holds exactly when some index is an occurrence of `tok` |
| Search.Occurrences | activity_scanner/document_scanner.py:53-66 | an empty token gives no indices; otherwise every index is a true occurrence, each starts after the previous one ends, and no reachable occurrence is skipped |
| Search.OccurrencesFromGreedy | activity_scanner/document_scanner.py:58-66 | the search loop resumed at each match's end yields a greedy scan: true occurrences, non-overlapping, none skipped |
| Search.GreedyScanFacts | activity_scanner/document_scanner.py:58-66 | a greedy scan's indices are strictly increasing, non-overlapping occurrences |
| Search.GreedyScanComplete | activity_scanner/document_scanner.py:58-66 | every occurrence at or after the start begins inside some reported span, so an occurrence is passed over only when it overlaps a reported one |
| Search.GreedyScanUnique | activity_scanner/document_scanner.py:53-66 | there is only one list with the greedy-scan property, so the loop's result is determined by it |
| LegacyScanner.FindAllIndices | scanner.py:46-57 | the `while True` loop of `find_all_indices` returns exactly the greedy occurrence list, each entry a true occurrence |
| Search.Context | activity_scanner/document_scanner.py:69-74 | the snippet is the window from `max(0, i - span)` to `min(len, i + length + span)` with newlines as spaces; it contains no newline and is at most `length + 2 span` long |
| Search.ContextShowsToken | scanner.py:60-63 | the snippet of a hit contains the matched token, newlines flattened, at offset `i - start` |
| Roster.Dotless | activity_scanner/roster_store.py:17 | the form without "·" contains no "·"; it differs from the name exactly when the name has one |
| Roster.VariantLookupKeys | activity_scanner/roster_store.py:11-19 | the lookup keys are the roster names plus the form without "·" of every name that has a "·" |
| Roster.VariantLookupFirstWriter | activity_scanner/roster_store.py:14-18 | `setdefault` semantics: a key maps to the id of the earliest roster entry that introduces it |
| Roster.VariantLookupAbsent | activity_scanner/roster_store.py:11-19 | a key is missing from the lookup exactly when no roster entry introduces it |
| Roster.NameFindsOwnId | activity_scanner/roster_store.py:14-18 | a roster name finds its own id unless an earlier dotted name strips to it, in which case the earlier entry's id shadows it |
| Roster.SearchCandidates | activity_scanner/roster_store.py:22-32 | the candidates are all roster names in map order, then exactly the forms without "·" that are not roster names; no extra contains "·" |
| Roster.InvertIdsKeys | activity_scanner/roster_store.py:46 | the inverse map lists each id once, at its first appearance in the roster |
| Roster.InvertIdsLastWriter | activity_scanner/roster_store.py:46 | on a shared id, the name of the last roster entry carrying it wins |
| Roster.InvertIdsAbsent | activity_scanner/roster_store.py:46 | an id is missing from the inverse exactly when no roster entry carries it |
| Roster.FromMapping | activity_scanner/roster_store.py:44-52 | the directory keeps the map unchanged, its ids are the roster ids without duplicates, and every roster name and id can be looked up |
| Roster.Directory.FindStudentId | activity_scanner/roster_store.py:58-59 | the lookup gives `None` exactly when the name is not a key of the variant lookup |
| Roster.Directory.ResolveName | activity_scanner/roster_store.py:67-68 | the lookup gives `None` exactly when the id is not a key of the inverse map |
| Aggregator.KeyStringInjective | activity_scanner/document_scanner.py:140 | the "sid:"/"name:" key strings are injective, so keying buckets by a datatype loses nothing |
| Aggregator.Apply | activity_scanner/document_scanner.py:141-174 | recording a hit adds 1 to the count; an id hit sets the id and the roster name, and a name hit keeps an id or a name that is already set |
| Aggregator.FoldHitsGet | activity_scanner/document_scanner.py:120-174 | a bucket exists exactly when some hit carries its key, and it holds exactly the hits routed to that key, in order |
| Aggregator.FoldHitsKeys | activity_scanner/document_scanner.py:120-135 | buckets are created only by a first hit, in the order the keys first appear |
| Aggregator.BucketCount | activity_scanner/document_scanner.py:144 | a bucket's count is the number of hits routed to it |
| Aggregator.BucketValues | activity_scanner/document_scanner.py:142-149 | a bucket's values and snippets are those of its hits, without duplicates and in first-appearance order |
| Aggregator.BucketKinds | activity_scanner/document_scanner.py:141 | a bucket's kinds are exactly the kinds of its hits |
| Aggregator.BucketId | activity_scanner/document_scanner.py:145-168 | a bucket whose hits were routed consistently carries the id of its key |
| Aggregator.NameHitsKeep | activity_scanner/document_scanner.py:167-170 | the name pass never overwrites an id or a name that is already set |
| Aggregator.IdHitsSet | activity_scanner/document_scanner.py:145-146 | after a run of id hits, the bucket holds the id and roster name of the last one |
| Aggregator.NameOnlyBucketName | activity_scanner/document_scanner.py:169-170 | a bucket reached only by name hits takes the first hit's display name |
| DocumentScanner.DeriveActivityTitle | activity_scanner/document_scanner.py:77-94 | the title is the base (first non-blank line when it holds an activity keyword, else the file stem, both cut to 80 characters); "（parent）" is appended exactly when the parent is non-empty, at most 40 long and not in the base |
| DocumentScanner.FirstNonBlankIndex | activity_scanner/document_scanner.py:80-85 | the loop stops at a line that is not blank, and every line before it is blank |
| DocumentScanner.FirstNonBlankLine | activity_scanner/document_scanner.py:79-85 | the chosen line is "" exactly when every line is blank |
| DocumentScanner.TitleBase | activity_scanner/document_scanner.py:87-90 | the base is a prefix of at most 80 characters of the first line when it contains an activity keyword, else of the stem |
| DocumentScanner.IdHits | activity_scanner/document_scanner.py:137-149 | every id-pass hit is a true occurrence of a non-empty roster id, of kind id, routed to `sid:<id>` and carrying that roster entry's id and name |
| DocumentScanner.IdPassCount | activity_scanner/document_scanner.py:137-146 | every occurrence of a roster id adds exactly one hit to bucket `sid:<id>`, carrying that id and the roster name |
| DocumentScanner.IdPassSelect | activity_scanner/document_scanner.py:137-149 | the id hits routed to a roster id's bucket are exactly that id's own occurrences |
| DocumentScanner.IdHitsAbsent | activity_scanner/document_scanner.py:137 | an id not in the roster produces no id hit |
| DocumentScanner.DisplayName | activity_scanner/document_scanner.py:156-160 | the display name of a name hit is the name itself: a name with "·" can never equal a string with "·" removed |
| DocumentScanner.NameRoute | activity_scanner/document_scanner.py:155-161 | a name hit goes to `sid:<id>` when the variant lookup gives a non-empty id, else to `name:<name>` |
| DocumentScanner.NameHits | activity_scanner/document_scanner.py:151-174 | every name hit comes from a searchable name of length 2 to 10 at a true occurrence, is routed by the variant lookup and carries the name |
| DocumentScanner.NamePassSelect | activity_scanner/document_scanner.py:151-174 | the name pass is complete: for a candidate listed once, the hits carrying it are exactly one per occurrence, in text order, routed by the variant lookup with the occurrence's own snippet; a name outside 2 to 10 characters gives none |
| DocumentScanner.IdPassOccurrences | activity_scanner/document_scanner.py:137-149 | the id pass puts into a bucket exactly as many hits as the roster ids keyed to it have occurrences |
| DocumentScanner.NamePassCount | activity_scanner/document_scanner.py:151-174 | the name pass puts into a bucket exactly as many hits as the searchable names routed to it have occurrences |
| DocumentScanner.StudentRowCount | activity_scanner/document_scanner.py:137-174 | a student row's count is the number of id occurrences keyed to its bucket plus the number of occurrences of every searchable name routed to it |
| DocumentScanner.IdHitsEmptyIff | activity_scanner/document_scanner.py:137-138 | the id pass finds nothing exactly when no non-empty roster id occurs in the text |
| DocumentScanner.NameHitsEmptyIff | activity_scanner/document_scanner.py:151-155 | the name pass finds nothing exactly when no name of length 2 to 10 occurs in the text |
| DocumentScanner.ClassRowsEmptyIff | activity_scanner/document_scanner.py:184-189 | the class-tag pass gives no row exactly when no non-blank stripped tag occurs in the text |
| DocumentScanner.HitsRouted | activity_scanner/document_scanner.py:140-161 | every hit of both passes is routed consistently with its id |
| DocumentScanner.TypeLabelValues | activity_scanner/document_scanner.py:177 | the sorted "+"-joined kind set is "姓名+学号" for both kinds and the single label for one kind |
| DocumentScanner.StudentRowSpec | activity_scanner/document_scanner.py:176-182 | the i-th student row is the bucket of the i-th distinct key: its count is the number of hits routed there, its values and snippets are theirs without duplicates, and its status is "OK" |
| DocumentScanner.FoldHitsCountPositive | activity_scanner/document_scanner.py:144 | every bucket holds at least one hit, so every student row has a positive count |
| DocumentScanner.KeywordRows | activity_scanner/document_scanner.py:184-201 | a stripped, non-blank keyword gives one row per occurrence, in text order, each with count 1, empty id and name, and the context window of its own occurrence as snippet; a blank keyword gives none |
| DocumentScanner.ScanDocument | activity_scanner/document_scanner.py:113-205 | the rows are one per bucket (count > 0) followed by exactly the class-tag rows, all with status "OK" |
| DocumentScanner.ScanEmptyIff | activity_scanner/document_scanner.py:203-205 | a document yields no row exactly when no non-empty roster id, no name of length 2 to 10 from the iteration order and no non-blank stripped class tag occurs in its text |
| DocumentScanner.IterationOrderMembers | activity_scanner/document_scanner.py:151 | iterating `set(roster.searchable_names)` visits exactly the roster's searchable names |
| DocumentScanner.NoNameOccursOrderFree | activity_scanner/document_scanner.py:151-155 | over any iteration order of the name set, no candidate name occurs exactly when no searchable roster name of 2 to 10 characters occurs in the text |
| DocumentScanner.ScanEmptyOrderFree | activity_scanner/document_scanner.py:151-205 | whether a document yields no row does not depend on the set's iteration order: exactly when no non-empty id, no searchable roster name of 2 to 10 characters and no non-blank stripped tag occurs in its text |
| DocumentScanner.NamePassSearchable | activity_scanner/document_scanner.py:151-174 | over any iteration order, every searchable roster name of 2 to 10 characters gets one hit per occurrence, in text order, and any other gets none |
| LegacyScanner.EmptyRow | scanner.py:85-96 | the placeholder row has the not-matched status, count 0 and empty match fields |
| LegacyScanner.ScanDocument | scanner.py:99-190 | the rows of the package scanner, or exactly one placeholder row when those are empty |
| LegacyScanner.PlaceholderIff | scanner.py:188-190 | the placeholder appears exactly when no non-empty roster id, no name of length 2 to 10 from the iteration order and no non-blank stripped class tag occurs in the text |
| Report.FillName | activity_scanner/report_builder.py:45-49 | an empty name with a non-empty id becomes the roster's name or ""; every other row is unchanged |
| Report.FillNameIdempotent | activity_scanner/report_builder.py:45-49 | filling twice is filling once |
| Report.ReportHitsSpec | activity_scanner/report_builder.py:38-49 | every hit is the name fill of a row with status "OK", positive count and a student type; every such row's fill is a hit; there are exactly as many hits as such rows |
| Report.ReportHitsSnoc | activity_scanner/report_builder.py:38-49 | the hits keep the rows' order: no rows give no hits, and one more row appends its fill exactly when it is a student hit |
| Report.ActivityTableKeys | activity_scanner/report_builder.py:51-57 | there is one per-activity row per distinct (id, name, activity) of the hits, in increasing key order |
| Report.GroupNonEmpty | activity_scanner/report_builder.py:51-53 | a group holds exactly the hits with its key, and a key taken from the hits has at least one |
| Report.ActivityRowBounds | activity_scanner/report_builder.py:51-57 | every per-activity row names at least one distinct file, and its total is at least its number of files |
| Report.ActivityTotalsSum | activity_scanner/report_builder.py:51-57 | the per-activity totals add up to the sum of the hits' counts |
| Report.SumOverAll | activity_scanner/report_builder.py:51-53 | summing per group over distinct keys that cover every hit counts every hit once |
| Report.PersonTableFacts | activity_scanner/report_builder.py:59-67 | there is one per-person row per distinct (id, name), in increasing key order |
| Report.PersonActivitiesMember | activity_scanner/report_builder.py:59-61 | an activity is on a person's list exactly when the per-activity table has a row for that person and activity |
| Report.PersonActivitiesSpec | activity_scanner/report_builder.py:59-61 | a person's list names exactly the activities of that person's hits, each once and sorted, and the activity count is its length |
| Report.EmptyTables | activity_scanner/report_builder.py:68-85 | without student hits both grouped tables are empty, and with hits neither is |
| Report.BuildReportTables | activity_scanner/report_builder.py:33-91 | the detail is the rows unchanged; the class hits are exactly the "OK" rows with the class label, as many as there are such rows; the grouped tables are empty exactly when no row is a student hit |
| Report.ClassHitCount | activity_scanner/report_builder.py:87-89 | the class-hit filter keeps exactly as many rows as are "OK" with the class label |
| Report.ClassHitsSnoc | activity_scanner/report_builder.py:87-89 | the class hits keep the rows' order: no rows give no class hits, and one more row is appended exactly when it is an "OK" row with the class label |
| Report.BuildReportTablesAsWritten | activity_scanner/report_builder.py:36-42 | as written, the call fails on an empty row list and otherwise agrees with the corrected version |
| Report.NoRowsRaises | activity_scanner/report_builder.py:36-42 | an empty row list makes the as-written call fail, where the corrected one gives four empty tables |
| Report.FixedColumnsDisjoint | activity_scanner/report_builder.py:104-128 | the lead and the hidden column lists are duplicate-free and share no column |
| Report.OrderColumnsPermutation | activity_scanner/report_builder.py:103-129 | the reordering is a permutation of the distinct existing columns |
| Report.SortDetailSpec | activity_scanner/report_builder.py:136-143 | the sorted detail is a permutation of the rows, ordered by (name, activity, path), and rows with equal keys keep their order |
| Concurrency.EnvOverride | activity_scanner/concurrency.py:82-86 | the first of `PDF_WORKERS`, `OCR_WORKERS` whose value is all digits gives `max(1, int(raw))`; otherwise there is no override |
| Concurrency.ZeroOverrideIsOne | activity_scanner/concurrency.py:84-86 | an override of "0" still gives one worker |
| Concurrency.Cap | activity_scanner/concurrency.py:88-89 | the cap is a positive `max_cap` when given, else `max(4, min(24, 2 cpu))`: 24 when `2 cpu` exceeds 24, 4 when it is below 4, and `2 cpu` in between |
| Concurrency.Candidates | activity_scanner/concurrency.py:92-97 | the candidates are strictly increasing and are exactly 1, `max(1, cpu // 2)`, cpu and `min(cap, ceil(1.5 cpu))` |
| Concurrency.BenchScore | activity_scanner/concurrency.py:52-69 | a candidate scores 0 when `workers <= 0` or the run raised, and a positive throughput otherwise |
| Concurrency.BenchTasks | activity_scanner/concurrency.py:61 | a run with a positive number of workers submits `max(4, 2 workers)` probe tasks: the larger of the two |
| Concurrency.PickBest | activity_scanner/concurrency.py:99-109 | the choice is a candidate with the highest score, the earliest among equals (strict `>`) |
| Concurrency.CalibrateWorkers | activity_scanner/concurrency.py:72-111 | an override wins; otherwise the result is the earliest best-scoring candidate, always one of the candidates and at least 1 |
| Concurrency.ExtractSingle | activity_scanner/concurrency.py:126-141 | an exception gives "" and its message; a text is kept, and its error is "empty text" exactly when it is blank |
| Concurrency.CollectAllOutcome | activity_scanner/concurrency.py:171-183 | a path completing once has text exactly when its worker returned, and an error when the future failed or the result's error is truthy |
| Concurrency.CollectAllAbsent | activity_scanner/concurrency.py:171-183 | a path without a completion is in neither map |
| Concurrency.CollectAllKeys | activity_scanner/concurrency.py:171-183 | every key of either map is the path of some completion |
| Concurrency.WorkerCountFor | activity_scanner/concurrency.py:165 | `None` or 0 calibrates; any other value is clamped to at least 1 and kept when positive |
| Concurrency.CollectAllCovers | activity_scanner/concurrency.py:171-183 | once a path has completed it stays a key of the text map or of the error map, whatever completes after it |
| Concurrency.ExtractConcurrently | activity_scanner/concurrency.py:144-185 | given one completion per submitted path, in any order, every submitted path is a key of the text map or the error map, and no other path is a key of either |
| ParallelReader.CollectPdfPathsSpec | parallel_pdf_reader.py:33-53 | the list holds every PDF of every input exactly once, in strictly increasing order; a missing path contributes nothing |
| ParallelReader.FileSuffixIgnoresCase | parallel_pdf_reader.py:44 | a file argument "scan.PDF" counts as a PDF because the suffix test lowercases |
| ParallelReader.GlobCaseIsPlatformDependent | parallel_pdf_reader.py:47 | below a directory the same name is found only where the glob ignores case |
| ParallelReader.DotPdfName | parallel_pdf_reader.py:44-47 | an entry named ".pdf" matches the glob, although as a file argument it has no suffix |
| ParallelReader.WorkerChoice | parallel_pdf_reader.py:68 | a positive explicit worker count is used, otherwise the calibrated one |
| ParallelReader.Run | parallel_pdf_reader.py:56-90 | no PDF gives exit 0 without extraction; an extraction exception gives exit 1; otherwise exit 0 with success and error counts bounded by the total |
| ParallelReader.ExtractSingleDecided | parallel_pdf_reader.py:79-80 | every worker result lands in the text count or the error count, unless an exception had an empty message |
| ParallelReader.EmptyMessageCountsNowhere | parallel_pdf_reader.py:79-80 | an exception with an empty message leaves its path in neither count |
| ParallelReader.CountedOnce | parallel_pdf_reader.py:79-80 | a path completing once with a decided result is counted in exactly one of success and errors |
| ParallelReader.SummaryAddsUp | parallel_pdf_reader.py:79-88 | when every PDF completes once, in any order, and no result is undecided, success plus errors equals the total |
| PdfReader.VectorTextsMembers | activity_scanner/extractors/pdf_reader.py:79-91 | the vector lines are exactly the stripped texts of the non-blank pages, a raising page read as "" |
| PdfReader.VectorTextsNoBlank | activity_scanner/extractors/pdf_reader.py:87-90 | no kept vector line is blank |
| PdfReader.ItemTextsMembers | activity_scanner/extractors/pdf_reader.py:71-75 | a line is kept exactly when it is the stripped text of an item with at least two entries and non-blank text |
| PdfReader.FailedPageContributesNothing | activity_scanner/extractors/pdf_reader.py:61-70 | a page whose rendering or recognition raised contributes no line |
| PdfReader.OcrTextsAppend | activity_scanner/extractors/pdf_reader.py:58-76 | a failing page does not abort the pass: the lines of a document are the lines of its parts |
| PdfReader.CombineIsAllLines | activity_scanner/extractors/pdf_reader.py:124-130 | the combined text is the vector block, then the OCR block, newline-joined, with empty blocks left out |
| PdfReader.OcrLines | activity_scanner/extractors/pdf_reader.py:117-122 | the OCR pass never contributes a blank line |
| PdfReader.RaisingItemDiscardsAllPages | activity_scanner/extractors/pdf_reader.py:71-122 | an item whose text entry cannot be stripped raises out of the item loop, and the handler around the pass drops the OCR lines of every page, including earlier ones |
| PdfReader.OcrLinesOfPages | activity_scanner/extractors/pdf_reader.py:55-76 | without such an item, the OCR lines are the lines of the pages before a page, that page's lines, then the lines of the pages after it |
| PdfReader.ReadPdfText | activity_scanner/extractors/pdf_reader.py:94-134 | a missing PyMuPDF or PaddleOCR escapes as `ImportError`; an unopenable file is registered and gives ""; otherwise the combined text, and the path is registered afterwards exactly when it was before or the text is blank |
| PdfReader.ReadPdfFailsIffNothingRead | activity_scanner/extractors/pdf_reader.py:112-133 | an opened document is registered exactly when no page has text and OCR kept no line |
| PdfReader.OneTextPageSuffices | activity_scanner/extractors/pdf_reader.py:112-133 | a document with one non-blank text page is never registered |
| PdfReader.LoadPaddle | activity_scanner/extractors/pdf_reader.py:30-38 | a cached engine is returned unchanged; otherwise a new one is made and cached; `None`, with the slot unchanged, stands for the `ImportError` of line 35 escaping `_load_paddle` |
| PdfReader.LoadManyCached | activity_scanner/extractors/pdf_reader.py:30-38 | from a cached slot every load returns that engine and the slot is unchanged |
| PdfReader.LoadManySingleton | activity_scanner/extractors/pdf_reader.py:30-38 | from an empty slot at most one engine is ever made, and every successful load returns the same one |
| PdfCascade.NonBlankMembers | text_extractors/pdf_reader.py:39-40 | a page text is kept exactly when it is not blank |
| PdfCascade.TryPlumber | text_extractors/pdf_reader.py:29-41 | the pdfplumber text fails only when the call raises, and is blank exactly when every page is blank, a raising page counted as "" |
| PdfCascade.ImagePagesPositive | text_extractors/pdf_reader.py:55-62 | some page is counted exactly when some blank page has images or drawings |
| PdfCascade.TryMuPdf | text_extractors/pdf_reader.py:44-66 | an unavailable PyMuPDF gives ("", False, False); otherwise the text is blank exactly when every page is, and image-heavy holds exactly when no page has text and some page has images or drawings |
| PdfCascade.TryTesseract | text_extractors/pdf_reader.py:94-115 | the result fails only when the call raises; it is "" when the libraries are missing and blank exactly when every page is |
| PdfCascade.FirstDecisive | text_extractors/pdf_reader.py:118-168 | the result is the first attempt that decides the cascade, if any |
| PdfCascade.ExtractIsFirstDecisive | text_extractors/pdf_reader.py:118-168 | the cascade returns the first decisive attempt's text without registering, or lets its exception escape, or registers the path and returns "" when all are blank |
| PdfCascade.PlumberShortCircuits | text_extractors/pdf_reader.py:120-123 | a non-blank pdfplumber text is returned as it is and nothing else runs |
| PdfCascade.OcrToolTriedIffDirectReadersBlank | text_extractors/pdf_reader.py:136-138 | ocrmypdf runs exactly when neither direct reader gave non-blank text |
| PdfCascade.StepShapes | text_extractors/pdf_reader.py:118-168 | every run takes one of the allowed step sequences; a run that raises either stopped when the ocrmypdf temporary file could not be created, or has read the OCR'd copy with both readers and attempted to unlink it |
| PdfCascade.TempFileRemoved | text_extractors/pdf_reader.py:136-154 | whenever the OCR'd copy is created an unlink of it is attempted on every way out, and it is not read afterwards; an exception escapes either before any temporary file exists or from the PyMuPDF read of the copy, after the unlink attempt |
| IndexTool.SearchHitsMembers | index.py:141-155 | a token is reported exactly when it is non-empty, occurs in the text, and is the name, the id or the dotless form of a dotted name of some roster entry |
| IndexTool.SearchHitsSound | index.py:146-154 | every reported token occurs in the text and comes from some roster entry |
| IndexTool.SearchHitsComplete | index.py:145-154 | every occurring token a roster entry offers is reported |
| IndexTool.SearchHits | index.py:141-155 | at most 3 tokens per roster entry, each found in the text |
| IndexTool.SearchHitsAppend | index.py:145-154 | per roster entry in map order, earlier entries' tokens come first, then this entry's name, id and dotless form, in that order |
| IndexTool.SearchHitsOnce | index.py:151-154 | a dotless form that is nobody's name or id is reported at most once |
| IndexTool.SearchHitsEmptyText | index.py:141-155 | nothing is found in an empty text |
| IndexTool.GatheredMembers | index.py:77-92 | a file is gathered exactly when some input contributes it: a file argument with a supported suffix, or a supported file below a directory argument |
| IndexTool.CollectSupportedFilesSpec | index.py:77-95 | the result names every gathered file exactly once, in strictly increasing order |
| IndexTool.CopyNameInjective | index.py:234 | different numbers give different candidate names |
| IndexTool.FirstFree | index.py:232-238 | the search from k stops at the least number from k on whose name is free |
| IndexTool.CopyDestination | index.py:226-238 | the destination is never an existing file: the name itself when free, else `stem_k + suffix` for the least free k >= 2 |
| IndexTool.CopyAllFresh | index.py:226-239 | no copy overwrites an existing file or an earlier copy: the destinations are distinct and new |
| Cli.ResolveClassTags | activity_scanner/cli.py:65-70 | an absent or blank option gives the default keywords |
| Cli.ResolveClassTagsSpec | activity_scanner/cli.py:68-70 | an explicit list is exactly the non-empty stripped pieces between commas, in order and with repeats (tag k is the stripped piece at the k-th non-blank position), each stripped, non-empty and free of commas |
| Cli.ResolveClassTagsOrder | activity_scanner/cli.py:70 | the kept tags are the stripped pieces at the non-blank positions, in increasing position order |
| Cli.NoTagsIffAllBlank | activity_scanner/cli.py:70 | no tag survives exactly when every piece is blank |
| Cli.CommasOnlyGiveNoTags | activity_scanner/cli.py:68-70 | a non-empty string of commas only, such as ",,,", gives no tag and not the defaults |
| Cli.ResolveScanPaths | activity_scanner/cli.py:73-76 | a non-empty path list is kept, an absent or empty one becomes ["input"] |
| Cli.RelativeTo | activity_scanner/cli.py:88 | `relative_to` succeeds exactly when the root is a prefix of the path, and the path is the root followed by the result |
| Cli.RelativeToTargetsFirstMatch | activity_scanner/cli.py:79-92 | the first root that matches decides the archive path |
| Cli.RelativeToTargetsNoMatch | activity_scanner/cli.py:92 | a path no root matches keeps only its name |
| Cli.RelativeToTargetsSuffix | activity_scanner/cli.py:79-92 | the archive path is always a tail of the file's path ending in its own name |
| Cli.RunScan | activity_scanner/cli.py:145-147 | no files give exit code 4 |
| Cli.ScanAbortsIffMissingDependency | activity_scanner/cli.py:153-160 | the loop aborts with exit code 1 exactly when some file's read reports a missing dependency |
| Cli.ReadFailureContinues | activity_scanner/cli.py:161-175 | a read failure adds its failure row and the loop goes on |
| Cli.ReadFailureRowSpec | activity_scanner/cli.py:162-174 | the failure row has the file's path, a status starting with the read-failure prefix, count 0, and is not a match |
| Cli.DocumentMatchedIffRows | activity_scanner/cli.py:199-203 | a readable file counts as matched exactly when its scan produced rows |
| Cli.MatchedFiles | activity_scanner/cli.py:201-203 | a path is recorded as matched exactly when some file with that path contributed a row with status "OK" |
| Cli.CollectedRows | activity_scanner/cli.py:153-199 | when the loop completes, every file's read gave rows and they appear as one block of the output; a read failure does not stop the files after it |
| Cli.CollectedRowsConcat | activity_scanner/cli.py:153-199 | when the loop completes, its rows are exactly the concatenation of every file's rows, in file order |
| Dispatch.ReaderFor | activity_scanner/extractors/__init__.py:11-24 | the supported extensions are exactly the dispatched ones, and the spreadsheet reader takes exactly ".xlsx", ".xls" and ".csv" |
| Dispatch.ReadTextFromPath | text_extractors/__init__.py:13-21 | an unsupported extension reads as "" without calling a reader |
| Dispatch.DispatchByExtension | activity_scanner/extractors/__init__.py:17-24 | a file `stem + ext` goes to the reader of its extension whatever the ASCII case, e.g. "Report.PDF" reads as a PDF |
| Dispatch.DotFileUnsupported | activity_scanner/extractors/__init__.py:17 | a dot-file such as ".pdf" has no extension and is not read |
| Paths.SplitExt | activity_scanner/extractors/__init__.py:17 | the extension starts at the last dot of the last component when that component has a non-dot character before it; stem and extension concatenate to the path |
| Paths.PathSuffix | index.py:231 | the suffix starts at the last dot of the name when that dot is neither first nor last |
| Strings.StripFacts | activity_scanner/document_scanner.py:81 | stripping removes only whitespace, and all of it at both ends |
| Strings.BlankIffStripEmpty | activity_scanner/document_scanner.py:82 | a string is blank exactly when stripping leaves nothing |
| Strings.SplitJoin | activity_scanner/cli.py:70 | splitting a join on the same separator gives the pieces back |
| Strings.SplitLines | activity_scanner/document_scanner.py:80 | no line contains a line break, and a trailing break adds no empty line |
| Strings.NatToStringRoundTrip | index.py:234 | the decimal digits of k read back as k |

## Left out

- File system, process and library I/O are left out. This covers walking directories, `exists`/`is_file`, resolving paths, copying, moving, `mkdir`, `os.startfile` and logging.
  - Existence and the directory contents are parameters.
  - Resolved paths are the given strings.
  - An `rglob` result is the set of entries below a directory.
- `collect_supported_paths` (activity_scanner/document_scanner.py:34-50) and `gather_input_files` (scanner.py:29-43) are directory walks without a sort. `Cli.RunScan` takes the resulting file list as a parameter.
- The PDF/OCR libraries (fitz, PaddleOCR, pdfplumber, pytesseract, the ocrmypdf subprocess, PIL/numpy rendering) are uninterpreted outcomes: page texts, OCR items, exceptions or unavailability.
- `PdfCascade.ToolOutcome.TempFailed` stands for `NamedTemporaryFile` raising before the file exists. A `tmp.close()` that raises after the file was created would leave the file behind; that case is not modelled.
- `open_failed_pdfs` only opens files, and is not modelled.
- The process pool, `as_completed`, timeouts and the clock are left out.
  - A benchmark run is an outcome (raised, or elapsed time), and throughput is a rational score.
  - `_cpu_probe_work` is not modelled.
- `Concurrency.CeilThreeHalves`: `math.ceil(cpu * 1.5)` is taken as `(3 cpu + 1) / 2` in integers, which is exact for any realistic cpu count.
- Excel output is left out: writing the workbook, openpyxl column hiding and auto-fit widths (activity_scanner/report_builder.py:147-219). The same goes for `write_reports` in reporting.py.
- `build_report_frames` in reporting.py is modelled by `Report.BuildReportTables` with the activity-list separator as a parameter. reporting.py's separator literal is two replacement characters (reporting.py:50) where `build_report_tables` has "、".
- `Report.BuildReportTables` does not model pandas column lists, dtypes or float sums. Counts are natural numbers and text is never `None`.
- The configuration module is not part of this model: activity_scanner/config.py, and the schema, column and roster modules that scanner.py and reporting.py import. So these are all parameters:
  - the activity keywords;
  - the default class keywords;
  - the roster map;
  - the student match types;
  - the class-tag label.
- The name-pass iteration order `set(roster.searchable_names)` depends on the hash seed. `DocumentScanner.ScanDocument` takes it as a parameter `order`: any duplicate-free listing of the candidate set.
- Case handling is ASCII only:
  - `Strings.LowerAscii` lowercases ASCII letters only. This is exact for the comparisons made against ".pdf", ".docx", ".xlsx", ".xls" and ".csv".
  - `str.isdigit` accepts ASCII digits only.
- Whether `rglob("*.pdf")` ignores case is platform-dependent, so it is the parameter `caseSensitive`.
- Paths follow POSIX rules: "/" is the only separator and there are no drive letters.
- `Strings.IsSpace` lists the characters Python's `str.isspace` accepts. The proofs use it only as an abstract predicate.
- Some exception paths are absent:
  - `run_cli`'s scan-exception branch (activity_scanner/cli.py:184-198) cannot be reached in the model, because `DocumentScanner.ScanDocument` is total.
  - `run_cli`'s roster-initialisation failure (activity_scanner/cli.py:133-137) is outside the loop and not modelled.
- `bundle_run_artifacts` (activity_scanner/cli.py:95-125) is not modelled: its run-folder numbering loop and the moves and copies are file-system work. Only `_relative_to_targets` is modelled.
- `main` in index.py is not modelled beyond the copy naming: configuration loading, copy failures and the exit codes.
- `ParallelReader.SummaryAddsUp` requires that no worker raised an exception with an empty message. Such an exception gives a falsy error and an empty text, so its path counts nowhere; `ParallelReader.EmptyMessageCountsNowhere` states this case.
- `LegacyScanner.ScanDocument` assumes that scanner.py's roster behaves like the package's `StudentDirectory`, and that its labels are the package's. scanner.py imports `roster.StudentRoster`, which is not part of this model, and scanner.py's label literals are mis-encoded.
- `PdfReader.OcrItem.BadEntry` stands for every PaddleOCR item of at least two entries on which `item[1][0].strip()` raises, whatever the exception; which exception it is does not matter, since the pass handler drops all OCR lines either way.
- `Roster.NameFindsOwnId` requires that no earlier dotted name strips to the name. `Roster.VariantLookupFirstWriter` states the shadowing case in full.
- The readers for Word documents, spreadsheets and office markdown are parameters of `Dispatch.ReadTextFromPath`. So is their caching.

## Findings

| source | as written | input that shows it | evidently intended | confidence | as-written member | corrected member |
|---|---|---|---|---|---|---|
| activity_scanner/report_builder.py:36-42 | `pd.DataFrame([])` has no columns, so `detail_df[COLUMN_STATUS]` raises `KeyError` when the row list is empty | `run_cli` over files that all read and scan cleanly without any hit: every scan returns `[]`, `all_rows` is empty at activity_scanner/cli.py:206 | four empty tables, as the branch at 68-85 provides for "no student hits" | not executed | Report.BuildReportTablesAsWritten, Report.NoRowsRaises | Report.BuildReportTables |

=== FILE: aggregator.dfy ===
/**
 * The per-student match aggregator shared by both scanners: every occurrence of a
 * student id or name becomes a hit routed to a bucket key, and the hits are folded
 * into an insertion-ordered dictionary of buckets.
 */
module Aggregator {
  import opened Wrappers
  import opened Dicts
  import opened Seqs

  /** Which roster field an occurrence matched. */
  datatype MatchKind = ById | ByName

  /** The match-type label of a kind: "学号" (student id) or "姓名" (name). */
  function KindLabel(k: MatchKind): string {
    match k
    case ById => "学号"
    case ByName => "姓名"
  }

  /** A bucket key; the source spells it `"sid:" + id` or `"name:" + name`. */
  datatype BucketKey = SidKey(id: string) | NameKey(name: string)

  /** The source's string spelling of a key. */
  function KeyString(k: BucketKey): string {
    match k
    case SidKey(id) => "sid:" + id
    case NameKey(name) => "name:" + name
  }

  /** Distinct keys have distinct spellings, so keying by the datatype loses nothing. */
  lemma KeyStringInjective(a: BucketKey, b: BucketKey)
    requires KeyString(a) == KeyString(b)
    ensures a == b
  {
    var s := KeyString(a);
    assert s[0] == KeyString(b)[0];
    match a
    case SidKey(x) =>
      assert b.SidKey?;
      assert x == s[4..] == b.id;
    case NameKey(x) =>
      assert b.NameKey?;
      assert x == s[5..] == b.name;
  }

  /** The student id a bucket key carries ("" for a name key). */
  function KeyId(k: BucketKey): string {
    match k
    case SidKey(id) => id
    case NameKey(_) => ""
  }

  /**
   * One occurrence: the bucket it is routed to, what matched (`value` at `index`),
   * its snippet, and the student id and display name it brings along.
   */
  datatype Hit = Hit(key: BucketKey, kind: MatchKind, value: string, index: nat, snippet: string, id: string, name: string)

  /**
   * A hit is routed consistently: a `sid:` key carries the hit's non-empty id, and a
   * `name:` key is used only by name hits that found no id.
   */
  predicate Routed(h: Hit) {
    match h.key
    case SidKey(id) => id == h.id && id != ""
    case NameKey(_) => h.id == "" && h.kind == ByName
  }

  /**
   * A student bucket while scanning: the set of match kinds, the matched values and
   * the snippets (each without duplicates, in first-appearance order), the count,
   * and the student id and name.
   */
  datatype Bucket = Bucket(kinds: set<MatchKind>, values: seq<string>, snippets: seq<string>, count: nat, studentId: string, studentName: string)

  /** `ensure_student_bucket`'s fresh bucket. */
  function NewBucket(): Bucket {
    Bucket({}, [], [], 0, "", "")
  }

  /**
   * Recording one hit in its bucket. An id hit sets the id and the roster name; a
   * name hit fills the id and the name only when they are still empty.
   */
  function Apply(b: Bucket, h: Hit): (r: Bucket)
    ensures r.count == b.count + 1
    ensures h.kind == ById ==> r.studentId == h.id && r.studentName == h.name
    ensures h.kind == ByName && b.studentName != "" ==> r.studentName == b.studentName
    ensures h.kind == ByName && b.studentId != "" ==> r.studentId == b.studentId
  {
    var b1 := b.(
      kinds := b.kinds + {h.kind},
      values := AppendNew(b.values, h.value),
      snippets := AppendNew(b.snippets, h.snippet),
      count := b.count + 1);
    match h.kind
    case ById => b1.(studentId := h.id, studentName := h.name)
    case ByName =>
      b1.(studentId := if h.id != "" && b.studentId == "" then h.id else b.studentId,
          studentName := if b.studentName == "" then h.name else b.studentName)
  }

  /** Recording the hits `hs` in order, starting from `b`. */
  function ApplyAll(b: Bucket, hs: seq<Hit>): Bucket {
    if hs == [] then b else Apply(ApplyAll(b, hs[..|hs| - 1]), hs[|hs| - 1])
  }

  /** One hit of the scan: create the bucket on first use, then record the hit. */
  function AddHit(d: Dict<BucketKey, Bucket>, h: Hit): Dict<BucketKey, Bucket> {
    Put(d, h.key, Apply(Get(d, h.key).GetOr(NewBucket()), h))
  }

  /** The `student_hits` dictionary after scanning the hits `hs` in order. */
  function FoldHits(hs: seq<Hit>): (d: Dict<BucketKey, Bucket>)
    ensures DistinctKeys(d)
  {
    if hs == [] then [] else AddHit(FoldHits(hs[..|hs| - 1]), hs[|hs| - 1])
  }

  /** The keys of the hits, in order. */
  function HitKeys(hs: seq<Hit>): (ks: seq<BucketKey>)
    ensures |ks| == |hs|
    ensures forall i :: 0 <= i < |hs| ==> ks[i] == hs[i].key
  {
    seq(|hs|, i requires 0 <= i < |hs| => hs[i].key)
  }

  function HitValues(hs: seq<Hit>): (vs: seq<string>)
    ensures |vs| == |hs|
    ensures forall i :: 0 <= i < |hs| ==> vs[i] == hs[i].value
  {
    seq(|hs|, i requires 0 <= i < |hs| => hs[i].value)
  }

  function HitSnippets(hs: seq<Hit>): (vs: seq<string>)
    ensures |vs| == |hs|
    ensures forall i :: 0 <= i < |hs| ==> vs[i] == hs[i].snippet
  {
    seq(|hs|, i requires 0 <= i < |hs| => hs[i].snippet)
  }

  /** The hits routed to key `k`, in order. */
  function Select(hs: seq<Hit>, k: BucketKey): (r: seq<Hit>)
    ensures |r| <= |hs|
    ensures forall i :: 0 <= i < |r| ==> r[i].key == k
  {
    if hs == [] then []
    else Select(hs[..|hs| - 1], k) + (if hs[|hs| - 1].key == k then [hs[|hs| - 1]] else [])
  }

  /** Selecting distributes over concatenation. */
  lemma {:induction false} SelectAppend(a: seq<Hit>, b: seq<Hit>, k: BucketKey)
    ensures Select(a + b, k) == Select(a, k) + Select(b, k)
    decreases |b|
  {
    if b != [] {
      var b' := b[..|b| - 1];
      assert (a + b)[..|a + b| - 1] == a + b';
      SelectAppend(a, b', k);
    } else {
      assert a + b == a;
    }
  }

  /** A key no hit carries selects nothing. */
  lemma {:induction false} SelectAbsent(hs: seq<Hit>, k: BucketKey)
    requires k !in HitKeys(hs)
    ensures Select(hs, k) == []
  {
    if hs != [] {
      var p := hs[..|hs| - 1];
      assert HitKeys(p) == HitKeys(hs)[..|hs| - 1];
      SelectAbsent(p, k);
      assert HitKeys(hs)[|hs| - 1] == hs[|hs| - 1].key;
    }
  }

  /** Selecting hits that all carry `k` keeps them all. */
  lemma {:induction false} SelectAll(hs: seq<Hit>, k: BucketKey)
    requires forall i :: 0 <= i < |hs| ==> hs[i].key == k
    ensures Select(hs, k) == hs
  {
    if hs != [] {
      SelectAll(hs[..|hs| - 1], k);
    }
  }

  /** The count of hits routed to `k`. */
  lemma SelectIsCount(hs: seq<Hit>, k: BucketKey)
    ensures |Select(hs, k)| == CountIf(hs, (h: Hit) => h.key == k)
  {
  }

  /**
   * The scan's bucket dictionary is determined key by key: a key is present exactly
   * when some hit carries it, and its bucket is the hits routed to it, recorded in order.
   */
  lemma {:induction false} FoldHitsGet(hs: seq<Hit>, k: BucketKey)
    ensures Get(FoldHits(hs), k) ==
      if k in HitKeys(hs) then Some(ApplyAll(NewBucket(), Select(hs, k))) else None
  {
    if hs != [] {
      var p := hs[..|hs| - 1];
      var h := hs[|hs| - 1];
      FoldHitsGet(p, k);
      AddHitGet(FoldHits(p), h, k);
      HitKeysSnoc(hs);
      SelectSnoc(hs, k);
      if k == h.key {
        ApplyAllSnoc(NewBucket(), Select(p, k), h);
        if k !in HitKeys(p) {
          SelectAbsent(p, k);
        }
      }
    }
  }

  /** The effect of one hit on the bucket of a single key. */
  lemma AddHitGet(d: Dict<BucketKey, Bucket>, h: Hit, k: BucketKey)
    ensures Get(AddHit(d, h), k) ==
      if k == h.key then Some(Apply(Get(d, k).GetOr(NewBucket()), h)) else Get(d, k)
  {
    PutGet(d, h.key, Apply(Get(d, h.key).GetOr(NewBucket()), h), k);
  }

  /** The hits routed to `k` gain the last hit exactly when it carries `k`. */
  lemma SelectSnoc(hs: seq<Hit>, k: BucketKey)
    requires hs != []
    ensures Select(hs, k) ==
      if hs[|hs| - 1].key == k then Select(hs[..|hs| - 1], k) + [hs[|hs| - 1]] else Select(hs[..|hs| - 1], k)
  {
    var s := Select(hs[..|hs| - 1], k);
    assert s + [] == s;
  }

  /** Recording one more hit after a run of hits. */
  lemma ApplyAllSnoc(b: Bucket, hs: seq<Hit>, h: Hit)
    ensures ApplyAll(b, hs + [h]) == Apply(ApplyAll(b, hs), h)
  {
    assert (hs + [h])[..|hs|] == hs;
  }

  /** A hit adds its key at the end unless a bucket for it exists. */
  lemma AddHitKeys(d: Dict<BucketKey, Bucket>, h: Hit)
    ensures Keys(AddHit(d, h)) == AppendNew(Keys(d), h.key)
  {
    PutKeys(d, h.key, Apply(Get(d, h.key).GetOr(NewBucket()), h));
  }

  lemma HitKeysSnoc(hs: seq<Hit>)
    requires hs != []
    ensures HitKeys(hs) == HitKeys(hs[..|hs| - 1]) + [hs[|hs| - 1].key]
  {
  }

  /** Buckets are created only by a first hit, in the order the keys first appear. */
  lemma {:induction false} FoldHitsKeys(hs: seq<Hit>)
    ensures Keys(FoldHits(hs)) == Dedup(HitKeys(hs))
  {
    if hs != [] {
      var p := hs[..|hs| - 1];
      var h := hs[|hs| - 1];
      var d := FoldHits(p);
      FoldHitsKeys(p);
      AddHitKeys(d, h);
      HitKeysSnoc(hs);
      DedupSnoc(HitKeys(p), h.key);
    } else {
      assert HitKeys(hs) == [];
    }
  }

  /** A bucket's count is the number of hits recorded in it. */
  lemma {:induction false} BucketCount(b: Bucket, hs: seq<Hit>)
    ensures ApplyAll(b, hs).count == b.count + |hs|
  {
    if hs != [] {
      BucketCount(b, hs[..|hs| - 1]);
    }
  }

  /** A fresh bucket's values and snippets are its hits' values and snippets, de-duplicated in first-appearance order. */
  lemma {:induction false} BucketValues(hs: seq<Hit>)
    ensures ApplyAll(NewBucket(), hs).values == Dedup(HitValues(hs))
    ensures ApplyAll(NewBucket(), hs).snippets == Dedup(HitSnippets(hs))
  {
    if hs != [] {
      var p := hs[..|hs| - 1];
      var n := |hs| - 1;
      BucketValues(p);
      HitValuesSnoc(hs);
      ApplyAllStep(hs);
      DedupSnoc(HitValues(p), hs[n].value);
      DedupSnoc(HitSnippets(p), hs[n].snippet);
    }
  }

  lemma HitValuesSnoc(hs: seq<Hit>)
    requires hs != []
    ensures HitValues(hs) == HitValues(hs[..|hs| - 1]) + [hs[|hs| - 1].value]
    ensures HitSnippets(hs) == HitSnippets(hs[..|hs| - 1]) + [hs[|hs| - 1].snippet]
  {
  }

  /** What recording the last hit adds to a fresh bucket's kinds, values and snippets. */
  lemma ApplyAllStep(hs: seq<Hit>)
    requires hs != []
    ensures var b := ApplyAll(NewBucket(), hs[..|hs| - 1]); var r := ApplyAll(NewBucket(), hs); var h := hs[|hs| - 1];
      && r.kinds == b.kinds + {h.kind}
      && r.values == AppendNew(b.values, h.value)
      && r.snippets == AppendNew(b.snippets, h.snippet)
  {
  }

  /** A fresh bucket's kinds are exactly the kinds of its hits. */
  lemma {:induction false} BucketKinds(hs: seq<Hit>, m: MatchKind)
    ensures m in ApplyAll(NewBucket(), hs).kinds <==> exists i :: 0 <= i < |hs| && hs[i].kind == m
  {
    if hs != [] {
      var p := hs[..|hs| - 1];
      BucketKinds(p, m);
      ApplyAllStep(hs);
      SomeKindSnoc(hs, p, m);
    }
  }

  /** Some hit of `hs` has kind `m` iff one of its prefix `p` does or its last hit does. */
  lemma SomeKindSnoc(hs: seq<Hit>, p: seq<Hit>, m: MatchKind)
    requires hs != [] && p == hs[..|hs| - 1]
    ensures (exists i :: 0 <= i < |hs| && hs[i].kind == m) <==>
      (exists i :: 0 <= i < |p| && p[i].kind == m) || hs[|hs| - 1].kind == m
  {
    assert forall i :: 0 <= i < |p| ==> p[i] == hs[i];
  }

  /** A bucket that received consistently routed hits for `k` carries the id of `k`. */
  lemma {:induction false} BucketId(hs: seq<Hit>, k: BucketKey)
    requires hs != []
    requires forall i :: 0 <= i < |hs| ==> hs[i].key == k && Routed(hs[i])
    ensures ApplyAll(NewBucket(), hs).studentId == KeyId(k)
  {
    var p := hs[..|hs| - 1];
    if p != [] {
      BucketId(p, k);
    }
  }

  /** The name pass never overwrites an id or a name that is already set. */
  lemma {:induction false} NameHitsKeep(b: Bucket, hs: seq<Hit>)
    requires forall i :: 0 <= i < |hs| ==> hs[i].kind == ByName
    ensures b.studentName != "" ==> ApplyAll(b, hs).studentName == b.studentName
    ensures b.studentId != "" ==> ApplyAll(b, hs).studentId == b.studentId
  {
    if hs != [] {
      NameHitsKeep(b, hs[..|hs| - 1]);
    }
  }

  /** After a run of id hits, the bucket holds the last one's id and name. */
  lemma IdHitsSet(b: Bucket, hs: seq<Hit>)
    requires hs != []
    requires forall i :: 0 <= i < |hs| ==> hs[i].kind == ById
    ensures ApplyAll(b, hs).studentId == hs[|hs| - 1].id
    ensures ApplyAll(b, hs).studentName == hs[|hs| - 1].name
  {
  }

  /** A bucket reached only by name hits takes the first hit's non-empty display name. */
  lemma {:induction false} NameOnlyBucketName(hs: seq<Hit>)
    requires hs != [] && hs[0].name != ""
    requires forall i :: 0 <= i < |hs| ==> hs[i].kind == ByName
    ensures ApplyAll(NewBucket(), hs).studentName == hs[0].name
  {
    var p := hs[..|hs| - 1];
    if p != [] {
      NameOnlyBucketName(p);
      NameHitsKeep(ApplyAll(NewBucket(), p), [hs[|hs| - 1]]);
    }
  }
}

=== FILE: cli.dfy ===
/**
 * `activity_scanner/cli.py`: the argument helpers (`resolve_class_tags`,
 * `resolve_scan_paths`), the archive-relative path of a scanned file
 * (`_relative_to_targets`) and the per-file loop of `run_cli`, which turns every
 * file into report rows and records the files that matched.
 */
module Cli {
  import opened Wrappers
  import opened Strings
  import opened Seqs
  import opened Paths
  import opened Roster
  import opened DocumentScanner

  // ---------------------------------------------------------------- arguments

  /** The comma-separated pieces, stripped, without the empty ones. */
  function StrippedPieces(parts: seq<string>): (r: seq<string>)
    ensures |r| <= |parts|
  {
    if parts == [] then []
    else
      var p := StrippedPieces(parts[..|parts| - 1]);
      var last := Strip(parts[|parts| - 1]);
      if last == [] then p else p + [last]
  }

  /** The positions of the pieces that are not blank once stripped, in increasing order. */
  function KeptIndices(parts: seq<string>): (idx: seq<nat>)
    ensures forall k :: 0 <= k < |idx| ==> idx[k] < |parts| && Strip(parts[idx[k]]) != []
    ensures forall j, k :: 0 <= j < k < |idx| ==> idx[j] < idx[k]
    ensures forall i :: 0 <= i < |parts| && Strip(parts[i]) != [] ==> i in idx
  {
    if parts == [] then []
    else
      var n := |parts|;
      var p := KeptIndices(parts[..n - 1]);
      assert forall i :: 0 <= i < n - 1 ==> parts[..n - 1][i] == parts[i];
      if Strip(parts[n - 1]) == [] then p else p + [n - 1]
  }

  /** The kept tags are the stripped pieces at the kept positions, in order and with repeats. */
  lemma {:induction false} StrippedPiecesAt(parts: seq<string>)
    ensures |StrippedPieces(parts)| == |KeptIndices(parts)|
    ensures forall k :: 0 <= k < |KeptIndices(parts)| ==> StrippedPieces(parts)[k] == Strip(parts[KeptIndices(parts)[k]])
  {
    if parts != [] {
      var n := |parts|;
      var p := parts[..n - 1];
      StrippedPiecesAt(p);
      var sp := StrippedPieces(p);
      var idx := KeptIndices(p);
      var r := StrippedPieces(parts);
      var ri := KeptIndices(parts);
      var last := Strip(parts[n - 1]);
      assert r == if last == [] then sp else sp + [last];
      assert ri == if last == [] then idx else idx + [n - 1];
      forall k | 0 <= k < |ri| ensures r[k] == Strip(parts[ri[k]]) {
        if k < |idx| {
          assert r[k] == sp[k] && ri[k] == idx[k];
          assert p[idx[k]] == parts[idx[k]];
        }
      }
    }
  }

  /** A tag is kept exactly when it is the non-empty stripped form of some piece. */
  lemma {:induction false} StrippedPiecesMembers(parts: seq<string>, x: string)
    ensures x in StrippedPieces(parts) <==> x != [] && exists i :: 0 <= i < |parts| && Strip(parts[i]) == x
  {
    if parts != [] {
      var q := parts[..|parts| - 1];
      StrippedPiecesMembers(q, x);
      if exists i :: 0 <= i < |parts| && Strip(parts[i]) == x {
        var i :| 0 <= i < |parts| && Strip(parts[i]) == x;
        if i < |q| {
          assert q[i] == parts[i];
        }
      }
      if exists i :: 0 <= i < |q| && Strip(q[i]) == x {
        var i :| 0 <= i < |q| && Strip(q[i]) == x;
        assert parts[i] == q[i];
      }
    }
  }

  /**
   * `resolve_class_tags(raw_value)`: the default keywords when the option is absent
   * or blank, else the comma-separated pieces, stripped, without the empty ones.
   */
  function ResolveClassTags(raw: Option<string>, defaults: seq<string>): (r: seq<string>)
    ensures raw.None? || IsBlank(raw.value) ==> r == defaults
  {
    if raw.None? || IsBlank(raw.value) then defaults else StrippedPieces(Split(raw.value, ','))
  }

  /**
   * An explicit tag list is exactly the non-empty stripped pieces between commas, in
   * order and with repeats: tag `k` is the stripped piece at the `k`-th position whose
   * piece is not blank. Every tag is stripped, non-empty and free of commas.
   */
  lemma ResolveClassTagsSpec(raw: string, defaults: seq<string>)
    requires !IsBlank(raw)
    ensures var r := ResolveClassTags(Some(raw), defaults);
      && (forall x :: x in r <==> x != [] && exists i :: 0 <= i < |Split(raw, ',')| && Strip(Split(raw, ',')[i]) == x)
      && (forall i :: 0 <= i < |r| ==> r[i] != [] && Strip(r[i]) == r[i] && ',' !in r[i])
    ensures var r := ResolveClassTags(Some(raw), defaults); var idx := KeptIndices(Split(raw, ','));
      && |r| == |idx|
      && (forall k :: 0 <= k < |r| ==> r[k] == Strip(Split(raw, ',')[idx[k]]))
  {
    var parts := Split(raw, ',');
    var r := ResolveClassTags(Some(raw), defaults);
    ResolveClassTagsOrder(raw, defaults);
    forall x ensures x in r <==> x != [] && exists i :: 0 <= i < |parts| && Strip(parts[i]) == x {
      StrippedPiecesMembers(parts, x);
    }
    forall k | 0 <= k < |r| ensures r[k] != [] && Strip(r[k]) == r[k] && ',' !in r[k] {
      assert r[k] in r;
      var i :| 0 <= i < |parts| && Strip(parts[i]) == r[k];
      StripIdempotent(parts[i]);
      StripFacts(parts[i]);
      StripSubstring(parts[i], ',');
    }
  }

  /** An explicit tag list keeps the non-blank pieces' order and repeats. */
  lemma ResolveClassTagsOrder(raw: string, defaults: seq<string>)
    requires !IsBlank(raw)
    ensures var r := ResolveClassTags(Some(raw), defaults); var idx := KeptIndices(Split(raw, ','));
      && |r| == |idx|
      && (forall k :: 0 <= k < |r| ==> r[k] == Strip(Split(raw, ',')[idx[k]]))
  {
    StrippedPiecesAt(Split(raw, ','));
  }

  /** A character absent from a string is absent from its stripped form. */
  lemma StripSubstring(s: string, c: char)
    requires c !in s
    ensures c !in Strip(s)
  {
    StripFacts(s);
    var r := Strip(s);
    var a :| IsStripAt(s, r, a);
    assert r == s[a..a + |r|];
  }

  /** No tag survives exactly when every piece is blank. */
  lemma {:induction false} NoTagsIffAllBlank(parts: seq<string>)
    ensures StrippedPieces(parts) == [] <==> forall i :: 0 <= i < |parts| ==> IsBlank(parts[i])
  {
    if parts != [] {
      var q := parts[..|parts| - 1];
      NoTagsIffAllBlank(q);
      BlankIffStripEmpty(parts[|parts| - 1]);
      assert forall i :: 0 <= i < |q| ==> q[i] == parts[i];
    }
  }

  /** A string of commas only splits into empty pieces. */
  lemma CommaPiecesEmpty(raw: string, i: int)
    requires forall k :: 0 <= k < |raw| ==> raw[k] == ','
    requires 0 <= i < |Split(raw, ',')|
    ensures Split(raw, ',')[i] == ""
  {
    var piece := Split(raw, ',');
    if piece[i] != "" {
      SplitPieceChars(raw, ',', i, piece[i][0]);
      assert false;
    }
  }

  /**
   * A non-empty string of commas only, such as ",,,", is not blank, yet every piece
   * is: no tag at all, and not the defaults either.
   */
  lemma CommasOnlyGiveNoTags(raw: string, defaults: seq<string>)
    requires raw != [] && forall k :: 0 <= k < |raw| ==> raw[k] == ','
    ensures ResolveClassTags(Some(raw), defaults) == []
  {
    assert !IsSpace(raw[0]);
    var parts := Split(raw, ',');
    forall i | 0 <= i < |parts| ensures parts[i] == "" {
      CommaPiecesEmpty(raw, i);
    }
    EmptyPiecesGiveNoTags(parts);
  }

  lemma EmptyPiecesGiveNoTags(parts: seq<string>)
    requires forall i :: 0 <= i < |parts| ==> parts[i] == ""
    ensures StrippedPieces(parts) == []
  {
    NoTagsIffAllBlank(parts);
  }

  /** The scan root used when no path is given. */
  const DefaultScanRoot: string := "input"

  /** `resolve_scan_paths(raw_paths)`: the given paths, or `["input"]` when there are none. */
  function ResolveScanPaths(raw: Option<seq<string>>): (r: seq<string>)
    ensures r != []
    ensures raw.Some? && raw.value != [] ==> r == raw.value
    ensures raw.None? || raw.value == [] ==> r == [DefaultScanRoot]
  {
    if raw.Some? && raw.value != [] then raw.value else [DefaultScanRoot]
  }

  // ---------------------------------------------------------------- archive paths

  /** A resolved path as its components below the filesystem root. */
  type PathParts = seq<string>

  /** A resolved path: no component is empty. */
  predicate ValidPath(p: PathParts) {
    forall i :: 0 <= i < |p| ==> p[i] != ""
  }

  /** `PurePath.name`: the last component, "" for the root. */
  function NameOf(p: PathParts): string {
    if p == [] then "" else p[|p| - 1]
  }

  /** `Path(name)`: no component for "" (which is "."), else the one component. */
  function NamePath(name: string): PathParts {
    if name == "" then [] else [name]
  }

  /** `path.relative_to(root)`: the components below `root`, or None when `path` is not below it. */
  function RelativeTo(path: PathParts, root: PathParts): (r: Option<PathParts>)
    ensures r.Some? <==> |root| <= |path| && path[..|root|] == root
    ensures r.Some? ==> path == root + r.value
  {
    if |root| <= |path| && path[..|root|] == root then
      assert path == root + path[|root|..];
      Some(path[|root|..])
    else None
  }

  /** What one scan root makes of `path`, when it matches. */
  function RootMatch(path: PathParts, root: PathParts, isFile: set<PathParts>): Option<PathParts> {
    if root in isFile then
      (if path == root then Some(NamePath(NameOf(root))) else None)
    else
      var rel := RelativeTo(path, root);
      if rel.Some? then Some(NamePath(NameOf(root)) + rel.value) else None
  }

  /**
   * `_relative_to_targets(path, targets)`: the match of the first root that matches
   * (a file root only itself, a directory root everything below it), else the
   * file's own name. `isFile` is the set of roots that are files.
   */
  function RelativeToTargets(path: PathParts, targets: seq<PathParts>, isFile: set<PathParts>): (r: PathParts)
    ensures targets == [] ==> r == NamePath(NameOf(path))
  {
    if targets == [] then NamePath(NameOf(path))
    else
      var m := RootMatch(path, targets[0], isFile);
      if m.Some? then m.value else RelativeToTargets(path, targets[1..], isFile)
  }

  /** `b` ends `a`. */
  predicate IsSuffix(b: PathParts, a: PathParts) {
    |b| <= |a| && a[|a| - |b|..] == b
  }

  /** A root's match keeps the tail of the path: from the root's own name to the file. */
  lemma RootMatchSuffix(path: PathParts, root: PathParts, isFile: set<PathParts>)
    requires ValidPath(root) && RootMatch(path, root, isFile).Some?
    ensures IsSuffix(RootMatch(path, root, isFile).value, path)
    ensures path != [] ==> NameOf(RootMatch(path, root, isFile).value) == NameOf(path)
  {
    var m := RootMatch(path, root, isFile).value;
    if root !in isFile {
      var rel := RelativeTo(path, root).value;
      assert path == root + rel;
      if root != [] {
        assert root[|root| - 1] != "";
        assert m == [root[|root| - 1]] + rel;
        assert path[|path| - |m|..] == m;
      }
    }
  }

  /**
   * The archive-relative path is always a tail of the file's path that ends in the
   * file's own name: the copy keeps the name, and the roots only decide how many
   * enclosing directories come with it.
   */
  lemma {:induction false} RelativeToTargetsSuffix(path: PathParts, targets: seq<PathParts>, isFile: set<PathParts>)
    requires path != [] && forall k :: 0 <= k < |targets| ==> ValidPath(targets[k])
    ensures var r := RelativeToTargets(path, targets, isFile);
      IsSuffix(r, path) && NameOf(r) == NameOf(path)
  {
    if targets == [] {
      assert path[|path| - 1..] == [path[|path| - 1]];
    } else if RootMatch(path, targets[0], isFile).Some? {
      RootMatchSuffix(path, targets[0], isFile);
    } else {
      assert forall k :: 0 <= k < |targets| - 1 ==> targets[1..][k] == targets[k + 1];
      RelativeToTargetsSuffix(path, targets[1..], isFile);
    }
  }

  /** The first root that matches decides; a path no root matches keeps only its name. */
  lemma {:induction false} RelativeToTargetsFirstMatch(path: PathParts, targets: seq<PathParts>, isFile: set<PathParts>, k: int)
    requires 0 <= k < |targets| && RootMatch(path, targets[k], isFile).Some?
    requires forall j :: 0 <= j < k ==> RootMatch(path, targets[j], isFile).None?
    ensures RelativeToTargets(path, targets, isFile) == RootMatch(path, targets[k], isFile).value
  {
    if k > 0 {
      assert forall j :: 0 <= j < k - 1 ==> targets[1..][j] == targets[j + 1];
      RelativeToTargetsFirstMatch(path, targets[1..], isFile, k - 1);
    }
  }

  lemma {:induction false} RelativeToTargetsNoMatch(path: PathParts, targets: seq<PathParts>, isFile: set<PathParts>)
    requires forall j :: 0 <= j < |targets| ==> RootMatch(path, targets[j], isFile).None?
    ensures RelativeToTargets(path, targets, isFile) == NamePath(NameOf(path))
  {
    if targets != [] {
      assert forall j :: 0 <= j < |targets| - 1 ==> targets[1..][j] == targets[j + 1];
      RelativeToTargetsNoMatch(path, targets[1..], isFile);
    }
  }

  // ---------------------------------------------------------------- the scan loop

  /** What `read_text_from_path` does with one file: its text, a missing dependency, or another exception. */
  datatype FileRead = ReadText(text: string) | MissingDependency(name: string) | ReadFailed(message: string)

  /** The status prefix of a file that could not be read. */
  const ReadFailedStatus: string := "读取失败: "

  /** Exit code when no file was found. */
  const NoFilesExit: int := 4
  /** Exit code when a dependency is missing. */
  const MissingDependencyExit: int := 1

  /** Everything the scan of one document needs besides the document. */
  datatype ScanSettings = ScanSettings(
    dir: Directory, order: seq<string>, classTags: seq<string>, classLabel: string, activityKeywords: seq<string>)

  /** The row recorded for a file that could not be read. */
  function ReadFailureRow(path: string, message: string): Row {
    Row(path, PathStem(Basename(path)), ReadFailedStatus + message, "", "", "", "", "", 0)
  }

  /** The rows of one readable file. */
  function DocumentRows(path: string, text: string, s: ScanSettings): seq<Row> {
    var doc := Document(path, text, DeriveActivityTitle(path, text, s.activityKeywords));
    ScanDocument(doc, s.dir, s.order, s.classTags, s.classLabel)
  }

  /** The rows one file contributes, or None when its read aborts the run. */
  function FileRows(path: string, read: FileRead, s: ScanSettings): Option<seq<Row>> {
    match read
    case MissingDependency(_) => None
    case ReadFailed(message) => Some([ReadFailureRow(path, message)])
    case ReadText(text) => Some(DocumentRows(path, text, s))
  }

  /** `rows and any(r.get(status) == "OK" for r in rows)` */
  predicate HasOkRow(rows: seq<Row>) {
    exists i :: 0 <= i < |rows| && rows[i].status == StatusOk
  }

  /** How the loop of `run_cli` ends: with an exit code, or with all rows and the matched files. */
  datatype LoopOutcome = Exit(code: int) | Collected(rows: seq<Row>, matched: seq<string>)

  /** The per-file loop of `run_cli` over the files in order with what reading each gave. */
  function ScanFiles(files: seq<(string, FileRead)>, s: ScanSettings): (r: LoopOutcome)
    ensures r.Exit? ==> r.code == MissingDependencyExit
  {
    if files == [] then Collected([], [])
    else
      var (path, read) := files[0];
      var rows := FileRows(path, read, s);
      if rows.None? then Exit(MissingDependencyExit)
      else
        var rest := ScanFiles(files[1..], s);
        if rest.Exit? then rest
        else Collected(rows.value + rest.rows, (if HasOkRow(rows.value) then [path] else []) + rest.matched)
  }

  /** `run_cli` up to the report: exit 4 without files, else the loop. */
  function RunScan(files: seq<(string, FileRead)>, s: ScanSettings): (r: LoopOutcome)
    ensures files == [] ==> r == Exit(NoFilesExit)
  {
    if files == [] then Exit(NoFilesExit) else ScanFiles(files, s)
  }

  predicate IsMissing(f: (string, FileRead)) {
    f.1.MissingDependency?
  }

  /** The run aborts with exit code 1 exactly when some file's read reports a missing dependency. */
  lemma {:induction false} ScanAbortsIffMissingDependency(files: seq<(string, FileRead)>, s: ScanSettings)
    ensures ScanFiles(files, s).Exit? <==> exists i :: 0 <= i < |files| && IsMissing(files[i])
  {
    if files != [] {
      ScanAbortsIffMissingDependency(files[1..], s);
      if exists i :: 0 <= i < |files| && IsMissing(files[i]) {
        var i :| 0 <= i < |files| && IsMissing(files[i]);
        if i > 0 {
          assert IsMissing(files[1..][i - 1]);
        }
      }
      if exists i :: 0 <= i < |files[1..]| && IsMissing(files[1..][i]) {
        var i :| 0 <= i < |files[1..]| && IsMissing(files[1..][i]);
        assert IsMissing(files[i + 1]);
      }
    }
  }

  /** A file that could not be read contributes its failure row and does not abort the run. */
  lemma ReadFailureContinues(path: string, message: string, s: ScanSettings)
    ensures FileRows(path, ReadFailed(message), s) == Some([ReadFailureRow(path, message)])
  {
  }

  /** The failure row: the file's path, a status starting with the read-failure prefix, a count of 0, not a match. */
  lemma ReadFailureRowSpec(path: string, message: string)
    ensures var row := ReadFailureRow(path, message);
      && row.path == path
      && row.status[..|ReadFailedStatus|] == ReadFailedStatus
      && row.count == 0
      && !HasOkRow([row])
  {
    var row := ReadFailureRow(path, message);
    assert row.status[0] == ReadFailedStatus[0];
  }

  /** A readable file counts as matched exactly when its scan found something. */
  lemma DocumentMatchedIffRows(path: string, text: string, s: ScanSettings)
    ensures HasOkRow(DocumentRows(path, text, s)) <==> DocumentRows(path, text, s) != []
  {
    var rows := DocumentRows(path, text, s);
    if rows != [] {
      assert rows[0].status == StatusOk;
    }
  }

  /** File `f`, at path `p`, was read and contributed a row with status "OK". */
  predicate MatchedBy(f: (string, FileRead), s: ScanSettings, p: string) {
    f.0 == p && FileRows(f.0, f.1, s).Some? && HasOkRow(FileRows(f.0, f.1, s).value)
  }

  /** One completed iteration records the file's path when it matched, before the later paths. */
  lemma MatchedStep(files: seq<(string, FileRead)>, s: ScanSettings, p: string)
    requires files != [] && ScanFiles(files, s).Collected?
    ensures ScanFiles(files[1..], s).Collected?
    ensures p in ScanFiles(files, s).matched <==> MatchedBy(files[0], s, p) || p in ScanFiles(files[1..], s).matched
  {
  }

  /**
   * When the loop completes, a path is recorded as matched exactly when some file
   * with that path contributed a row with status "OK".
   */
  lemma {:induction false} MatchedFiles(files: seq<(string, FileRead)>, s: ScanSettings, p: string)
    requires ScanFiles(files, s).Collected?
    ensures p in ScanFiles(files, s).matched <==> exists i :: 0 <= i < |files| && MatchedBy(files[i], s, p)
  {
    if files != [] {
      MatchedStep(files, s, p);
      MatchedFiles(files[1..], s, p);
      assert forall i :: 0 < i < |files| ==> files[1..][i - 1] == files[i];
    }
  }

  /**
   * When the loop completes, its rows are every file's rows, file by file: a
   * read failure does not stop the scan of the files after it.
   */
  lemma {:induction false} CollectedRows(files: seq<(string, FileRead)>, s: ScanSettings, i: int)
    requires ScanFiles(files, s).Collected? && 0 <= i < |files|
    ensures FileRows(files[i].0, files[i].1, s).Some?
    ensures IsInfix(FileRows(files[i].0, files[i].1, s).value, ScanFiles(files, s).rows)
  {
    var rows := FileRows(files[0].0, files[0].1, s).value;
    var rest := ScanFiles(files[1..], s);
    if i == 0 {
      assert ScanFiles(files, s).rows == [] + rows + rest.rows;
    } else {
      CollectedRows(files[1..], s, i - 1);
      assert files[1..][i - 1] == files[i];
      InfixExtend(FileRows(files[i].0, files[i].1, s).value, rest.rows, rows);
    }
  }

  /** The rows a file contributes when its read does not abort the run. */
  function RowsOf(f: (string, FileRead), s: ScanSettings): seq<Row> {
    FileRows(f.0, f.1, s).GetOr([])
  }

  /**
   * When the loop completes, its rows are exactly the concatenation of every file's
   * rows, in file order.
   */
  lemma {:induction false} CollectedRowsConcat(files: seq<(string, FileRead)>, s: ScanSettings)
    requires ScanFiles(files, s).Collected?
    ensures ScanFiles(files, s).rows == FlatMap(files, RowsOf, s)
  {
    if files != [] {
      CollectedRowsConcat(files[1..], s);
      FlatMapCons(files, RowsOf, s);
    }
  }

  /** `a` occurs as a contiguous block of `b`. */
  ghost predicate IsInfix<T(!new)>(a: seq<T>, b: seq<T>) {
    exists l, r :: b == l + a + r
  }

  lemma InfixExtend<T(!new)>(a: seq<T>, b: seq<T>, front: seq<T>)
    requires IsInfix(a, b)
    ensures IsInfix(a, front + b)
  {
    var l, r :| b == l + a + r;
    assert front + b == (front + l) + a + r;
  }
}

=== FILE: concurrency.dfy ===
/**
 * `activity_scanner/concurrency.py`: choosing the number of PDF worker processes
 * and collecting the workers' results. Benchmark timings, the environment, the CPU
 * count and the order in which workers complete are inputs.
 */
module Concurrency {
  import opened Wrappers
  import opened Strings
  import opened Dicts

  // ---------------------------------------------------------------- calibration

  /** The first of `PDF_WORKERS`, `OCR_WORKERS` whose value is all digits, as `max(1, int(raw))`. */
  function EnvOverride(pdfWorkers: Option<string>, ocrWorkers: Option<string>): (r: Option<int>)
    ensures r.Some? ==> r.value >= 1
    ensures r.None? <==> !(pdfWorkers.Some? && IsDigits(pdfWorkers.value)) && !(ocrWorkers.Some? && IsDigits(ocrWorkers.value))
    ensures pdfWorkers.Some? && IsDigits(pdfWorkers.value) ==> r == Some(Max1(DigitsValue(pdfWorkers.value)))
    ensures !(pdfWorkers.Some? && IsDigits(pdfWorkers.value)) && ocrWorkers.Some? && IsDigits(ocrWorkers.value) ==>
      r == Some(Max1(DigitsValue(ocrWorkers.value)))
  {
    if pdfWorkers.Some? && pdfWorkers.value != [] && IsDigits(pdfWorkers.value) then Some(Max1(DigitsValue(pdfWorkers.value)))
    else if ocrWorkers.Some? && ocrWorkers.value != [] && IsDigits(ocrWorkers.value) then Some(Max1(DigitsValue(ocrWorkers.value)))
    else None
  }

  /** `max(1, n)` */
  function Max1(n: int): (r: int)
    ensures r >= 1 && r >= n && (n >= 1 ==> r == n)
  {
    if n < 1 then 1 else n
  }

  /** An override of "0" still gives one worker. */
  lemma ZeroOverrideIsOne()
    ensures EnvOverride(Some("0"), None) == Some(1)
  {
    assert IsDigits("0");
    assert DigitsValue("0") == 0 by {
      assert "0"[..0] == [];
    }
  }

  /** `os.cpu_count() or 1` */
  function CpuCount(reported: Option<nat>): (cpu: nat)
    ensures cpu >= 1
    ensures reported.Some? && reported.value > 0 ==> cpu == reported.value
  {
    if reported.Some? && reported.value > 0 then reported.value else 1
  }

  /** The cap: an explicit positive `max_cap`, else `max(4, min(24, 2 * cpu))`. */
  function Cap(maxCap: Option<int>, cpu: nat): (cap: int)
    ensures cap >= 1
    ensures maxCap.Some? && maxCap.value > 0 ==> cap == maxCap.value
    ensures !(maxCap.Some? && maxCap.value > 0) ==> 4 <= cap <= 24 && (4 <= 2 * cpu <= 24 ==> cap == 2 * cpu)
    ensures !(maxCap.Some? && maxCap.value > 0) && 2 * cpu > 24 ==> cap == 24
    ensures !(maxCap.Some? && maxCap.value > 0) && 2 * cpu < 4 ==> cap == 4
  {
    if maxCap.Some? && maxCap.value > 0 then maxCap.value
    else if 2 * cpu > 24 then 24
    else if 2 * cpu < 4 then 4
    else 2 * cpu
  }

  /** `math.ceil(cpu * 1.5)` in integers. */
  function CeilThreeHalves(cpu: nat): (r: nat)
    ensures 2 * r >= 3 * cpu && 2 * r < 3 * cpu + 2
  {
    (3 * cpu + 1) / 2
  }

  /** Strictly increasing. */
  predicate Increasing(s: seq<int>) {
    forall i, j :: 0 <= i < j < |s| ==> s[i] < s[j]
  }

  /** Inserting into a strictly increasing sequence, ignoring a value already present. */
  function InsertSorted(s: seq<int>, x: int): (r: seq<int>)
    requires Increasing(s)
    ensures Increasing(r)
    ensures forall y :: y in r <==> y in s || y == x
    ensures |s| <= |r| <= |s| + 1
  {
    if s == [] then [x]
    else if x < s[0] then [x] + s
    else if x == s[0] then s
    else
      var rest := InsertSorted(s[1..], x);
      assert forall y :: y in s[1..] ==> s[0] < y;
      assert forall j :: 0 <= j < |rest| ==> s[0] < rest[j] by {
        forall j | 0 <= j < |rest| ensures s[0] < rest[j] {
          assert rest[j] in rest;
        }
      }
      [s[0]] + rest
  }

  /** `sorted({1, max(1, cpu // 2), cpu, min(cap, ceil(1.5 * cpu))})` */
  function Candidates(cpu: nat, cap: int): (r: seq<int>)
    ensures Increasing(r)
    ensures forall w :: w in r <==> w == 1 || w == Max1(cpu / 2) || w == cpu || w == Min(cap, CeilThreeHalves(cpu))
    ensures 1 <= |r| <= 4 && r[0] <= 1
  {
    var s := InsertSorted(InsertSorted(InsertSorted([1], Max1(cpu / 2)), cpu), Min(cap, CeilThreeHalves(cpu)));
    assert 1 in s;
    var i :| 0 <= i < |s| && s[i] == 1;
    assert s[0] <= s[i];
    s
  }

  function Min(a: int, b: int): int { if a < b then a else b }

  /** How one benchmark run ended: elapsed wall-clock seconds, or an exception. */
  datatype BenchOutcome = Elapsed(seconds: real) | Raised

  /** `_bench_workers_once`: how many probe tasks a run with `workers` processes submits. */
  function BenchTasks(workers: int): (n: int)
    requires workers > 0
    ensures n >= 4 && n >= 2 * workers
    ensures n == 4 || n == 2 * workers
  {
    if 2 * workers < 4 then 4 else 2 * workers
  }

  /** The throughput score of a candidate: 0 when the run raised or `workers <= 0`, else tasks per second. */
  function BenchScore(workers: int, outcome: BenchOutcome): (s: real)
    ensures s >= 0.0
    ensures workers <= 0 || outcome.Raised? ==> s == 0.0
    ensures workers > 0 && outcome.Elapsed? ==> s > 0.0
  {
    if workers <= 0 then 0.0
    else
      match outcome
      case Raised => 0.0
      case Elapsed(t) =>
        var elapsed := if t < 0.000001 then 0.000001 else t;
        (BenchTasks(workers) as real) / elapsed
  }

  /** `w` is the earliest candidate with the highest score. */
  ghost predicate IsFirstBest(cands: seq<int>, scores: seq<real>, w: int)
    requires |scores| == |cands|
  {
    exists k :: 0 <= k < |cands| && cands[k] == w
      && (forall j :: 0 <= j < |cands| ==> scores[j] <= scores[k])
      && (forall j :: 0 <= j < k ==> scores[j] < scores[k])
  }

  /**
   * The selection loop: keep the first candidate whose score beats the best so
   * far (strict `>`), starting from the fallback with best score -1.
   */
  method PickBest(cands: seq<int>, scores: seq<real>, fallback: int) returns (best: int)
    requires |scores| == |cands|
    requires forall j :: 0 <= j < |scores| ==> scores[j] >= 0.0
    ensures cands == [] ==> best == fallback
    ensures cands != [] ==> IsFirstBest(cands, scores, best)
  {
    best := fallback;
    var bestScore: real := -1.0;
    var k := -1;
    for i := 0 to |cands|
      invariant k == -1 <==> i == 0
      invariant k == -1 ==> best == fallback && bestScore == -1.0
      invariant k != -1 ==> 0 <= k < i && best == cands[k] && bestScore == scores[k]
      invariant k != -1 ==> forall j :: 0 <= j < i ==> scores[j] <= scores[k]
      invariant k != -1 ==> forall j :: 0 <= j < k ==> scores[j] < scores[k]
    {
      if scores[i] > bestScore {
        bestScore := scores[i];
        best := cands[i];
        k := i;
      }
    }
  }

  /** The scores of the candidates under the benchmark outcomes `bench`. */
  function Scores(cands: seq<int>, bench: int -> BenchOutcome): (s: seq<real>)
    ensures |s| == |cands|
    ensures forall j :: 0 <= j < |cands| ==> s[j] == BenchScore(cands[j], bench(cands[j])) && s[j] >= 0.0
  {
    seq(|cands|, j requires 0 <= j < |cands| => BenchScore(cands[j], bench(cands[j])))
  }

  /**
   * `calibrate_pdf_workers(max_cap)`: an environment override wins; otherwise the
   * earliest best-scoring candidate, which is always one of the candidates and at least 1.
   */
  method CalibrateWorkers(pdfWorkers: Option<string>, ocrWorkers: Option<string>, reportedCpu: Option<nat>,
                          maxCap: Option<int>, bench: int -> BenchOutcome) returns (w: int)
    ensures w >= 1
    ensures EnvOverride(pdfWorkers, ocrWorkers).Some? ==> w == EnvOverride(pdfWorkers, ocrWorkers).value
    ensures EnvOverride(pdfWorkers, ocrWorkers).None? ==>
      var cands := Candidates(CpuCount(reportedCpu), Cap(maxCap, CpuCount(reportedCpu)));
      w in cands && IsFirstBest(cands, Scores(cands, bench), w)
  {
    var env := EnvOverride(pdfWorkers, ocrWorkers);
    if env.Some? {
      return env.value;
    }
    var cpu := CpuCount(reportedCpu);
    var cap := Cap(maxCap, cpu);
    var cands := Candidates(cpu, cap);
    var scores := Scores(cands, bench);
    w := PickBest(cands, scores, Max1(Min(cap, cpu)));
    assert w in cands;
    assert forall j :: 0 <= j < |cands| ==> cands[j] >= 1 by {
      assert cands[0] >= 1 by {
        assert cands[0] in cands;
      }
    }
  }

  // ---------------------------------------------------------------- extraction

  /** How reading one PDF in a worker ended: the text, or an exception with its message. */
  datatype ReadOutcome = ReadText(text: string) | ReadRaised(message: string)

  /** `PdfExtractionResult` */
  datatype ExtractionResult = ExtractionResult(path: string, text: string, error: Option<string>)

  const EmptyTextError: string := "empty text"
  const WorkerErrorPrefix: string := "worker error/timeout: "

  /** `_extract_single_pdf(path)`: blank text is a soft failure that keeps the text; an exception gives "" and its message. */
  function ExtractSingle(path: string, outcome: ReadOutcome): (r: ExtractionResult)
    ensures r.path == path
    ensures outcome.ReadRaised? ==> r.text == "" && r.error == Some(outcome.message)
    ensures outcome.ReadText? ==> r.text == outcome.text
    ensures outcome.ReadText? ==> (r.error.Some? <==> IsBlank(outcome.text))
    ensures r.error.Some? && outcome.ReadText? ==> r.error.value == EmptyTextError
  {
    match outcome
    case ReadRaised(msg) => ExtractionResult(path, "", Some(msg))
    case ReadText(text) =>
      if IsBlank(text) then ExtractionResult(path, text, Some(EmptyTextError))
      else ExtractionResult(path, text, None)
  }

  /** A completed future: its result, or the exception `fut.result()` raised (a timeout or a crash). */
  datatype Completion = Finished(path: string, result: ExtractionResult) | Failed(path: string, message: string)

  /** Python's truthiness of `res.error`. */
  predicate Truthy(e: Option<string>) {
    e.Some? && e.value != ""
  }

  /** One iteration of the collection loop. */
  function Collect(texts: Dict<string, string>, errors: Dict<string, string>, c: Completion): (Dict<string, string>, Dict<string, string>) {
    match c
    case Failed(path, msg) => (texts, Put(errors, path, WorkerErrorPrefix + msg))
    case Finished(path, res) =>
      var errors' := if Truthy(res.error) then Put(errors, path, res.error.value) else errors;
      (Put(texts, path, res.text), errors')
  }

  /** What the two maps hold for one path: its text, and its error message. */
  type Entry = (Option<string>, Option<string>)

  function Lookup(maps: (Dict<string, string>, Dict<string, string>), path: string): Entry {
    (Get(maps.0, path), Get(maps.1, path))
  }

  /**
   * The entry of a path after its completion `c`: a failed future records the
   * prefixed message and leaves the text alone; a returned result records its text,
   * and its error only when that error is truthy.
   */
  function EntryAfter(before: Entry, c: Completion): Entry {
    match c
    case Failed(_, msg) => (before.0, Some(WorkerErrorPrefix + msg))
    case Finished(_, res) => (Some(res.text), if Truthy(res.error) then res.error else before.1)
  }

  /** The effect of one completion on a single path: only its own path changes. */
  lemma CollectGet(texts: Dict<string, string>, errors: Dict<string, string>, c: Completion, path: string)
    ensures Lookup(Collect(texts, errors, c), path) ==
      if c.path == path then EntryAfter(Lookup((texts, errors), path), c) else Lookup((texts, errors), path)
  {
    match c
    case Failed(p, msg) =>
      PutGet(errors, p, WorkerErrorPrefix + msg, path);
    case Finished(p, res) =>
      PutGet(texts, p, res.text, path);
      if Truthy(res.error) {
        PutGet(errors, p, res.error.value, path);
      }
  }

  /** The collection loop over the completions in the order they happen. */
  function CollectAll(cs: seq<Completion>): (r: (Dict<string, string>, Dict<string, string>))
    ensures DistinctKeys(r.0) && DistinctKeys(r.1)
  {
    if cs == [] then ([], [])
    else
      var (t, e) := CollectAll(cs[..|cs| - 1]);
      var r := Collect(t, e, cs[|cs| - 1]);
      r
  }

  /** The paths of the completions. */
  function CompletedPaths(cs: seq<Completion>): (ps: seq<string>)
    ensures |ps| == |cs|
    ensures forall i :: 0 <= i < |cs| ==> ps[i] == cs[i].path
  {
    seq(|cs|, i requires 0 <= i < |cs| => cs[i].path)
  }

  /** The last completion's effect on one path, in terms of the maps collected before it. */
  lemma CollectAllSnoc(cs: seq<Completion>, path: string)
    requires cs != []
    ensures var c := cs[|cs| - 1]; var before := Lookup(CollectAll(cs[..|cs| - 1]), path);
      Lookup(CollectAll(cs), path) == if c.path == path then EntryAfter(before, c) else before
  {
    var p := cs[..|cs| - 1];
    assert CollectAll(cs) == Collect(CollectAll(p).0, CollectAll(p).1, cs[|cs| - 1]);
    CollectGet(CollectAll(p).0, CollectAll(p).1, cs[|cs| - 1], path);
  }

  /** A path that completes once ends up with the entry its own completion gives it. */
  lemma {:induction false} CollectAllPath(cs: seq<Completion>, i: int)
    requires 0 <= i < |cs|
    requires forall j :: 0 <= j < |cs| && j != i ==> cs[j].path != cs[i].path
    ensures Lookup(CollectAll(cs), cs[i].path) == EntryAfter((None, None), cs[i])
  {
    var p := cs[..|cs| - 1];
    var path := cs[i].path;
    CollectAllSnoc(cs, path);
    if i < |cs| - 1 {
      assert p[i] == cs[i];
      assert forall j :: 0 <= j < |p| && j != i ==> p[j].path != p[i].path;
      CollectAllPath(p, i);
    } else {
      assert i == |cs| - 1;
      assert forall j :: 0 <= j < |p| ==> p[j].path != path;
      CollectAllAbsent(p, path);
    }
  }

  /**
   * What the collected maps hold for a path that completes once: a text exactly
   * when its worker returned, an error when the future failed or the result carried
   * a truthy error — so every path lands in at least one map.
   */
  lemma CollectAllOutcome(cs: seq<Completion>, i: int)
    requires 0 <= i < |cs|
    requires forall j :: 0 <= j < |cs| && j != i ==> cs[j].path != cs[i].path
    ensures cs[i].Finished? ==> Get(CollectAll(cs).0, cs[i].path) == Some(cs[i].result.text)
    ensures cs[i].Failed? ==> Get(CollectAll(cs).0, cs[i].path).None?
    ensures cs[i].Failed? ==> Get(CollectAll(cs).1, cs[i].path) == Some(WorkerErrorPrefix + cs[i].message)
    ensures cs[i].Finished? && Truthy(cs[i].result.error) ==> Get(CollectAll(cs).1, cs[i].path) == cs[i].result.error
    ensures cs[i].Finished? && !Truthy(cs[i].result.error) ==> Get(CollectAll(cs).1, cs[i].path).None?
  {
    CollectAllPath(cs, i);
  }

  /** A path without a completion is in neither map. */
  lemma {:induction false} CollectAllAbsent(cs: seq<Completion>, path: string)
    requires forall j :: 0 <= j < |cs| ==> cs[j].path != path
    ensures Lookup(CollectAll(cs), path) == (None, None)
  {
    if cs != [] {
      var p := cs[..|cs| - 1];
      assert forall j :: 0 <= j < |p| ==> p[j].path != path;
      CollectAllAbsent(p, path);
      CollectAllSnoc(cs, path);
    }
  }

  /** Every key of either map is the path of some completion. */
  lemma {:induction false} CollectAllKeys(cs: seq<Completion>, path: string)
    requires Lookup(CollectAll(cs), path) != (None, None)
    ensures path in CompletedPaths(cs)
  {
    var p := cs[..|cs| - 1];
    CollectAllSnoc(cs, path);
    if cs[|cs| - 1].path != path {
      CollectAllKeys(p, path);
      assert CompletedPaths(p) == CompletedPaths(cs)[..|cs| - 1];
    } else {
      assert CompletedPaths(cs)[|cs| - 1] == path;
    }
  }

  /** `max_workers in (None, 0)` calibrates; anything else is clamped to at least 1. */
  function WorkerCountFor(maxWorkers: Option<int>, calibrated: int): (w: int)
    ensures maxWorkers.None? || maxWorkers.value == 0 ==> w == calibrated
    ensures maxWorkers.Some? && maxWorkers.value != 0 ==> w >= 1 && (maxWorkers.value >= 1 ==> w == maxWorkers.value)
  {
    if maxWorkers.None? || maxWorkers.value == 0 then calibrated else Max1(maxWorkers.value)
  }

  /** Once a path has completed, it stays in at least one of the two maps. */
  lemma {:induction false} CollectAllCovers(cs: seq<Completion>, path: string)
    requires path in CompletedPaths(cs)
    ensures Lookup(CollectAll(cs), path) != (None, None)
  {
    var p := cs[..|cs| - 1];
    CollectAllSnoc(cs, path);
    if cs[|cs| - 1].path != path {
      assert CompletedPaths(p) == CompletedPaths(cs)[..|cs| - 1];
      CollectAllCovers(p, path);
    }
  }

  /**
   * The keys of the collected maps are exactly the completed paths: each completed
   * path is a key of the text map or of the error map, and nothing else is a key.
   */
  lemma CollectAllKeySet(cs: seq<Completion>)
    ensures forall p :: p in CompletedPaths(cs) ==> p in Keys(CollectAll(cs).0) || p in Keys(CollectAll(cs).1)
    ensures forall p :: p in Keys(CollectAll(cs).0) || p in Keys(CollectAll(cs).1) ==> p in CompletedPaths(cs)
  {
    var r := CollectAll(cs);
    forall p | p in CompletedPaths(cs) ensures p in Keys(r.0) || p in Keys(r.1) {
      CollectAllCovers(cs, p);
    }
    forall p | p in Keys(r.0) || p in Keys(r.1) ensures p in CompletedPaths(cs) {
      assert Lookup(r, p) != (None, None);
      CollectAllKeys(cs, p);
    }
  }

  /**
   * `extract_pdfs_concurrently(paths)`: no paths give two empty maps; otherwise the
   * maps collected from the completions, which happen in some order. `cs` holds one
   * completion per submitted path, as `as_completed` delivers them, so every submitted
   * path lands in the text map or the error map, and no other path does.
   */
  function ExtractConcurrently(paths: seq<string>, cs: seq<Completion>): (r: (Dict<string, string>, Dict<string, string>))
    requires multiset(CompletedPaths(cs)) == multiset(paths)
    ensures paths == [] ==> r == ([], [])
    ensures paths != [] ==> r == CollectAll(cs)
    ensures forall p :: p in paths ==> p in Keys(r.0) || p in Keys(r.1)
    ensures forall p :: p in Keys(r.0) || p in Keys(r.1) ==> p in paths
  {
    CollectAllKeySet(cs);
    assert forall p :: p in paths <==> p in CompletedPaths(cs) by {
      forall p ensures p in paths <==> p in CompletedPaths(cs) {
        assert p in paths <==> p in multiset(paths);
        assert p in CompletedPaths(cs) <==> p in multiset(CompletedPaths(cs));
      }
    }
    if paths == [] then ([], []) else CollectAll(cs)
  }
}

=== FILE: dicts.dfy ===
/**
 * Insertion-ordered dictionaries, the way Python's `dict` behaves: a sequence of
 * (key, value) entries whose keys are distinct, listed in first-insertion order.
 * Assigning to an existing key keeps its position; `setdefault` never replaces.
 */
module Dicts {
  import opened Wrappers

  type Dict<K, V> = seq<(K, V)>

  /** The keys in insertion order: `list(d.keys())`. */
  function Keys<K, V>(d: Dict<K, V>): (ks: seq<K>)
    ensures |ks| == |d|
    ensures forall i :: 0 <= i < |d| ==> ks[i] == d[i].0
  {
    if d == [] then [] else [d[0].0] + Keys(d[1..])
  }

  /** No key is listed twice. */
  predicate DistinctKeys<K(==), V>(d: Dict<K, V>) {
    forall i, j :: 0 <= i < j < |d| ==> d[i].0 != d[j].0
  }

  /** Dropping entries from the end keeps the keys distinct. */
  lemma DistinctKeysPrefix<K, V>(d: Dict<K, V>, n: nat)
    requires DistinctKeys(d) && n <= |d|
    ensures DistinctKeys(d[..n])
  {
    forall a, b | 0 <= a < b < n ensures d[..n][a].0 != d[..n][b].0 {
      assert d[..n][a] == d[a] && d[..n][b] == d[b];
    }
  }

  /** Position of `k` in `d`, or `|d|` when absent. */
  function IndexOfKey<K(==), V>(d: Dict<K, V>, k: K): (i: nat)
    ensures i <= |d|
    ensures i < |d| ==> d[i].0 == k
    ensures forall j :: 0 <= j < i ==> d[j].0 != k
  {
    if d == [] then 0 else if d[0].0 == k then 0 else 1 + IndexOfKey(d[1..], k)
  }

  /** `d.get(k)` */
  function Get<K(==), V>(d: Dict<K, V>, k: K): (r: Option<V>)
    ensures r.None? <==> forall i :: 0 <= i < |d| ==> d[i].0 != k
    ensures r.Some? ==> (k, r.value) in d
  {
    var i := IndexOfKey(d, k);
    if i < |d| then Some(d[i].1) else None
  }

  /** `d[k] = v`: overwrite in place, or append a new entry. */
  function Put<K(==), V>(d: Dict<K, V>, k: K, v: V): (r: Dict<K, V>)
    ensures DistinctKeys(d) ==> DistinctKeys(r)
  {
    var i := IndexOfKey(d, k);
    if i < |d| then
      OverwriteKeys(d, i, k, v);
      d[i := (k, v)]
    else
      AppendKeys(d, k, v);
      d + [(k, v)]
  }

  /** After `d[k] = v`, `k` finds `v` and every other key finds what it found before. */
  lemma PutGet<K, V>(d: Dict<K, V>, k: K, v: V, k': K)
    ensures Get(Put(d, k, v), k') == if k' == k then Some(v) else Get(d, k')
  {
    var i := IndexOfKey(d, k);
    if i < |d| {
      OverwriteGet(d, i, k, v, k');
    } else if k' == k {
      AppendNewIndex(d, k, v);
    } else {
      AppendGet(d, k, v, k');
    }
  }

  /** `d[k] = v` keeps the key order, adding `k` at the end when it is new. */
  lemma PutKeys<K, V>(d: Dict<K, V>, k: K, v: V)
    ensures Keys(Put(d, k, v)) == if k in Keys(d) then Keys(d) else Keys(d) + [k]
  {
    var i := IndexOfKey(d, k);
    if i < |d| {
      OverwriteKeys(d, i, k, v);
    } else {
      AppendKeys(d, k, v);
    }
  }

  /** Two dictionaries listing the same keys find every key at the same place. */
  lemma SameKeysSameIndex<K, V>(d: Dict<K, V>, r: Dict<K, V>, k: K)
    requires |r| == |d| && forall j :: 0 <= j < |d| ==> r[j].0 == d[j].0
    ensures IndexOfKey(r, k) == IndexOfKey(d, k)
  {
    var a := IndexOfKey(r, k);
    var b := IndexOfKey(d, k);
    assert a < |d| ==> d[a].0 == k;
    assert b < |d| ==> r[b].0 == k;
  }

  lemma OverwriteKeys<K, V>(d: Dict<K, V>, i: nat, k: K, v: V)
    requires i == IndexOfKey(d, k) && i < |d|
    ensures var r := d[i := (k, v)];
      && (DistinctKeys(d) ==> DistinctKeys(r))
      && Keys(r) == Keys(d) && k in Keys(d)
  {
    var r := d[i := (k, v)];
    assert forall j :: 0 <= j < |d| ==> r[j].0 == d[j].0;
    SameKeys(d, r);
    assert Keys(d)[i] == k;
  }

  /** Overwriting the entry of `k` changes only what `k` finds. */
  lemma OverwriteGet<K, V>(d: Dict<K, V>, i: nat, k: K, v: V, k': K)
    requires i == IndexOfKey(d, k) && i < |d|
    ensures Get(d[i := (k, v)], k') == if k' == k then Some(v) else Get(d, k')
  {
    var r := d[i := (k, v)];
    assert forall j :: 0 <= j < |d| ==> r[j].0 == d[j].0;
    SameKeysSameIndex(d, r, k');
  }

  /** Entries with the same keys in the same places. */
  lemma SameKeys<K, V>(d: Dict<K, V>, r: Dict<K, V>)
    requires |r| == |d| && forall j :: 0 <= j < |d| ==> r[j].0 == d[j].0
    ensures Keys(r) == Keys(d)
    ensures DistinctKeys(d) ==> DistinctKeys(r)
  {
  }

  /** Appending the entry of `k` does not change what another key finds. */
  lemma AppendGet<K, V>(d: Dict<K, V>, k: K, v: V, k': K)
    requires k' != k
    ensures Get(d + [(k, v)], k') == Get(d, k')
  {
    var r := d + [(k, v)];
    AppendIndex(d, k, v, k');
    var j := IndexOfKey(d, k');
    assert j < |d| ==> r[j] == d[j];
  }

  /** The keys after appending the entry of an absent key. */
  lemma AppendKeys<K, V>(d: Dict<K, V>, k: K, v: V)
    requires IndexOfKey(d, k) == |d|
    ensures var r := d + [(k, v)];
      && (DistinctKeys(d) ==> DistinctKeys(r))
      && IndexOfKey(r, k) == |d|
      && Keys(r) == Keys(d) + [k] && k !in Keys(d)
  {
    AppendNewIndex(d, k, v);
    AppendKeysList(d, k, v);
    if DistinctKeys(d) {
      AppendDistinct(d, k, v);
    }
  }

  lemma AppendNewIndex<K, V>(d: Dict<K, V>, k: K, v: V)
    requires IndexOfKey(d, k) == |d|
    ensures IndexOfKey(d + [(k, v)], k) == |d|
  {
    var r := d + [(k, v)];
    var i := IndexOfKey(r, k);
    assert r[|d|].0 == k;
    assert forall j :: 0 <= j < |d| ==> r[j] == d[j];
  }

  lemma AppendKeysList<K, V>(d: Dict<K, V>, k: K, v: V)
    requires IndexOfKey(d, k) == |d|
    ensures Keys(d + [(k, v)]) == Keys(d) + [k] && k !in Keys(d)
  {
    KeysSnoc(d, (k, v));
    assert forall j :: 0 <= j < |d| ==> Keys(d)[j] != k;
  }

  /** Appending an entry appends its key. */
  lemma KeysSnoc<K, V>(d: Dict<K, V>, e: (K, V))
    ensures Keys(d + [e]) == Keys(d) + [e.0]
  {
    var r := d + [e];
    var ks := Keys(d) + [e.0];
    assert |Keys(r)| == |ks|;
    forall j | 0 <= j < |r| ensures Keys(r)[j] == ks[j] {
      if j < |d| {
        assert r[j] == d[j];
      }
    }
  }

  lemma AppendDistinct<K, V>(d: Dict<K, V>, k: K, v: V)
    requires IndexOfKey(d, k) == |d| && DistinctKeys(d)
    ensures DistinctKeys(d + [(k, v)])
  {
    var r := d + [(k, v)];
    assert forall j :: 0 <= j < |d| ==> r[j] == d[j];
  }

  lemma AppendIndex<K, V>(d: Dict<K, V>, k: K, v: V, k': K)
    requires k' != k
    ensures IndexOfKey(d + [(k, v)], k') == IndexOfKey(d, k') || (IndexOfKey(d, k') == |d| && IndexOfKey(d + [(k, v)], k') == |d| + 1)
  {
    var r := d + [(k, v)];
    var j := IndexOfKey(d, k');
    assert forall m :: 0 <= m < |d| ==> r[m] == d[m];
    if j < |d| {
      assert r[j] == d[j];
    } else {
      assert IndexOfKey(r, k') == |r|;
    }
  }

  /** `d.setdefault(k, v)`: an existing entry wins, otherwise `(k, v)` is appended. */
  function SetDefault<K(==), V>(d: Dict<K, V>, k: K, v: V): (r: Dict<K, V>)
    ensures DistinctKeys(d) ==> DistinctKeys(r)
  {
    if IndexOfKey(d, k) < |d| then d else Put(d, k, v)
  }

  /** After `d.setdefault(k, v)`, `k` finds its old value if it had one, `v` otherwise; other keys are unaffected. */
  lemma SetDefaultGet<K, V>(d: Dict<K, V>, k: K, v: V, k': K)
    ensures Get(SetDefault(d, k, v), k') == if k' == k && Get(d, k).None? then Some(v) else Get(d, k')
  {
    if IndexOfKey(d, k) == |d| {
      PutGet(d, k, v, k');
    }
  }

  /** `d.setdefault(k, v)` adds `k` at the end exactly when it is new. */
  lemma SetDefaultKeys<K, V>(d: Dict<K, V>, k: K, v: V)
    ensures Keys(SetDefault(d, k, v)) == if k in Keys(d) then Keys(d) else Keys(d) + [k]
  {
    if IndexOfKey(d, k) == |d| {
      PutKeys(d, k, v);
    } else {
      InKeys(d, k);
    }
  }

  /** A key is listed exactly when `get` finds it. */
  lemma InKeys<K, V>(d: Dict<K, V>, k: K)
    ensures k in Keys(d) <==> Get(d, k).Some?
  {
    if k in Keys(d) {
      var i :| 0 <= i < |d| && Keys(d)[i] == k;
      assert d[i].0 == k;
    }
  }
}

=== FILE: dispatch.dfy ===
/**
 * Extension dispatch: `read_text_from_path` in `activity_scanner/extractors/__init__.py`
 * and its twin `extract_text` in `text_extractors/__init__.py`. Both lowercase the
 * `os.path.splitext` extension and pick a reader by it; every other extension
 * reads as "" without opening the file.
 */
module Dispatch {
  import opened Wrappers
  import opened Strings
  import opened Paths

  /** The readers a file can be routed to. */
  datatype Reader = DocxReader | PdfReader | SpreadsheetReader

  /** `SUPPORTED_EXTENSIONS` (and the identical `SUPPORTED_EXTS` of the text extractors). */
  const SupportedExtensions: set<string> := {".docx", ".pdf", ".xlsx", ".xls", ".csv"}

  /** The extensions handled by the spreadsheet reader. */
  const SpreadsheetExtensions: set<string> := {".xlsx", ".xls", ".csv"}

  /** `os.path.splitext(path)[1].lower()` */
  function Extension(path: string): (e: string)
    ensures |e| == |SplitExt(path).1|
  {
    LowerAscii(SplitExt(path).1)
  }

  /** The reader for a lowercased extension; the supported extensions are exactly the dispatched ones. */
  function ReaderFor(ext: string): (r: Option<Reader>)
    ensures r.Some? <==> ext in SupportedExtensions
    ensures r == Some(SpreadsheetReader) <==> ext in SpreadsheetExtensions
  {
    if ext == ".docx" then Some(DocxReader)
    else if ext == ".pdf" then Some(PdfReader)
    else if ext in SpreadsheetExtensions then Some(SpreadsheetReader)
    else None
  }

  /**
   * `read_text_from_path(path)` / `extract_text(path)`: the text the chosen reader
   * produces for the file (`read` stands for the readers), or "" for an unsupported
   * extension.
   */
  function ReadTextFromPath(path: string, read: Reader -> string): (text: string)
    ensures Extension(path) !in SupportedExtensions ==> text == ""
  {
    var reader := ReaderFor(Extension(path));
    if reader.Some? then read(reader.value) else ""
  }

  /** `os.path.splitext` on a file name with a stem and a dotted extension gives that extension. */
  lemma SplitExtOfName(stem: string, ext: string)
    requires |ext| >= 1 && ext[0] == ExtSep && ExtSep !in ext[1..] && Sep !in ext
    requires exists k :: |stem| - |Basename(stem)| <= k < |stem| && stem[k] != ExtSep
    ensures SplitExt(stem + ext).1 == ext
  {
    var p := stem + ext;
    LastIndexAppend(stem, ext, Sep);
    LastIndexAppend(stem, ext, ExtSep);
    var sepIndex := LastIndexOfChar(p, Sep);
    var k :| |stem| - |Basename(stem)| <= k < |stem| && stem[k] != ExtSep;
    assert sepIndex == LastIndexOfChar(stem, Sep);
    assert p[k] == stem[k];
    assert HasNonDot(p, sepIndex + 1, |stem|);
    assert p[|stem|..] == ext;
  }

  /**
   * A file named `stem + ext` goes to the reader of its extension whatever the
   * extension's ASCII letter case: "Report.PDF" reads as a PDF.
   */
  lemma DispatchByExtension(stem: string, ext: string, read: Reader -> string)
    requires |ext| >= 1 && ext[0] == ExtSep && ExtSep !in ext[1..] && Sep !in ext
    requires exists k :: |stem| - |Basename(stem)| <= k < |stem| && stem[k] != ExtSep
    ensures Extension(stem + ext) == LowerAscii(ext)
    ensures LowerAscii(ext) in SupportedExtensions ==>
      ReadTextFromPath(stem + ext, read) == read(ReaderFor(LowerAscii(ext)).value)
    ensures LowerAscii(ext) !in SupportedExtensions ==> ReadTextFromPath(stem + ext, read) == ""
  {
    SplitExtOfName(stem, ext);
  }

  /** A dot-file such as ".pdf" has no extension, so it is not read at all. */
  lemma DotFileUnsupported(read: Reader -> string)
    ensures ReadTextFromPath("dir/.pdf", read) == ""
  {
    assert LastIndexOfChar("dir/.pdf", Sep) == 3 by {
      assert "dir/.pdf" == "dir" + "/.pdf";
      LastIndexAppend("dir", "/.pdf", Sep);
    }
    assert LastIndexOfChar("dir/.pdf", ExtSep) == 4 by {
      assert "dir/.pdf" == "dir/" + ".pdf";
      LastIndexAppend("dir/", ".pdf", ExtSep);
    }
    assert SplitExt("dir/.pdf").1 == [];
  }
}

=== FILE: document_scanner.dfy ===
/**
 * `activity_scanner/document_scanner.py`: the activity title of a document and
 * `scan_document_for_matches`, which turns every occurrence of a roster id, a roster
 * name (or its dotless variant) and a class-tag keyword into report rows.
 */
module DocumentScanner {
  import opened Wrappers
  import opened Strings
  import opened Paths
  import opened Search
  import opened Dicts
  import opened Seqs
  import opened Roster
  import opened Aggregator

  /** `ScannableDocument` */
  datatype Document = Document(path: string, text: string, activity: string)

  /** One result row; `count` is the match count of the row. */
  datatype Row = Row(
    path: string, activity: string, status: string, matchType: string, matchValue: string,
    studentId: string, studentName: string, snippet: string, count: nat)

  const StatusOk: string := "OK"
  /** `create_empty_result_row`'s status ("not matched"). */
  const StatusNoMatch: string := "未命中"
  const ValueSeparator: string := "、"
  const SnippetSeparator: string := "\n---\n"
  const TypeSeparator: string := "+"
  /** Longest title prefix kept from the first line or the file stem. */
  const TitleLimit: nat := 80
  /** Longest parent directory name appended to a title. */
  const ParentLimit: nat := 40

  // ---------------------------------------------------------------- title

  /** Some keyword occurs in `s` (`any(k in s for k in keywords)`; an empty keyword always does). */
  predicate AnyKeywordIn(s: string, keywords: seq<string>) {
    exists i :: 0 <= i < |keywords| && Contains(s, keywords[i])
  }

  /** Index of the first line that is not blank, or `|lines|`. */
  function FirstNonBlankIndex(lines: seq<string>): (i: nat)
    ensures i <= |lines|
    ensures i < |lines| ==> !IsBlank(lines[i])
    ensures forall j :: 0 <= j < i ==> IsBlank(lines[j])
  {
    if lines == [] then 0 else if !IsBlank(lines[0]) then 0 else 1 + FirstNonBlankIndex(lines[1..])
  }

  /** The loop over `text.splitlines()`: the first non-blank line, stripped; "" when there is none. */
  function FirstNonBlankLine(lines: seq<string>): (r: string)
    ensures r == [] <==> forall j :: 0 <= j < |lines| ==> IsBlank(lines[j])
  {
    var i := FirstNonBlankIndex(lines);
    if i < |lines| then
      BlankIffStripEmpty(lines[i]);
      Strip(lines[i])
    else []
  }

  /**
   * The title before the parent suffix: a prefix of at most 80 characters of the
   * first non-blank line when that line contains an activity keyword, else of the file stem.
   */
  function TitleBase(first: string, stem: string, keywords: seq<string>): (r: string)
    ensures |r| <= TitleLimit
    ensures AnyKeywordIn(first, keywords) ==> |r| == Min(|first|, TitleLimit) && r == first[..|r|]
    ensures !AnyKeywordIn(first, keywords) ==> |r| == Min(|stem|, TitleLimit) && r == stem[..|r|]
  {
    if AnyKeywordIn(first, keywords) then Take(first, TitleLimit) else Take(stem, TitleLimit)
  }

  /** The file name without directory and extension: `os.path.splitext(os.path.basename(path))[0]`. */
  function FileStem(path: string): (r: string)
    ensures Sep !in r
  {
    SplitExt(Basename(path)).0
  }

  /** `f"{title}（{parent}）"` */
  function WithParent(title: string, parent: string): string {
    title + "（" + parent + "）"
  }

  /**
   * `derive_activity_title(path, text)`: the base title, followed by the parent
   * directory's name in full-width parentheses when that name is non-empty, at most
   * 40 characters long and not already part of the title.
   */
  function DeriveActivityTitle(path: string, text: string, keywords: seq<string>): (r: string)
    ensures var base := TitleBase(FirstNonBlankLine(SplitLines(text)), FileStem(path), keywords);
      var parent := ParentName(path);
      && (r == base || r == WithParent(base, parent))
      && (r != base <==> parent != [] && |parent| <= ParentLimit && !Contains(base, parent))
    ensures |r| <= TitleLimit + ParentLimit + 2
  {
    var title := TitleBase(FirstNonBlankLine(SplitLines(text)), FileStem(path), keywords);
    var parent := ParentName(path);
    if parent != [] && !Contains(title, parent) && |parent| <= ParentLimit then WithParent(title, parent) else title
  }

  // ---------------------------------------------------------------- hits

  /** One hit per occurrence index in `occ`, each with its snippet. */
  function HitsAt(text: string, tok: string, occ: seq<nat>, key: BucketKey, kind: MatchKind, id: string, name: string): (r: seq<Hit>)
    ensures |r| == |occ|
    ensures forall k :: 0 <= k < |occ| ==>
      r[k] == Hit(key, kind, tok, occ[k], Context(text, occ[k], |tok|, ContextSpan), id, name)
  {
    seq(|occ|, k requires 0 <= k < |occ| => Hit(key, kind, tok, occ[k], Context(text, occ[k], |tok|, ContextSpan), id, name))
  }

  /** The id pass: for every (id, name) of `id_to_name` in order, one hit per occurrence of the id. */
  function IdHits(text: string, idToName: Dict<string, string>): (r: seq<Hit>)
    ensures forall i :: 0 <= i < |r| ==>
      && r[i].kind == ById && r[i].key == SidKey(r[i].id) && r[i].value == r[i].id && r[i].id != ""
      && OccursAt(text, r[i].value, r[i].index)
      && (r[i].id, r[i].name) in idToName
  {
    if idToName == [] then []
    else
      var prev := IdHits(text, idToName[..|idToName| - 1]);
      var (id, name) := idToName[|idToName| - 1];
      var occ := Occurrences(text, id);
      prev + HitsAt(text, id, occ, SidKey(id), ById, id, name)
  }

  /** The first roster name whose dotless form is `name`. */
  function FirstDotlessMatch(names: seq<string>, name: string): (r: Option<string>)
    ensures r.Some? ==> r.value in names && Dotless(r.value) == name
    ensures r.None? ==> forall i :: 0 <= i < |names| ==> Dotless(names[i]) != name
  {
    if names == [] then None
    else if Dotless(names[0]) == name then Some(names[0])
    else
      var r := FirstDotlessMatch(names[1..], name);
      assert forall i :: 1 <= i < |names| ==> names[i] == names[1..][i - 1];
      r
  }

  /**
   * The display name of a name hit: the name itself, or for a dotted name the first
   * roster name whose dotless form equals it. No dotless form contains a dot, so the
   * search never succeeds and the display name is always the searched name.
   */
  function DisplayName(dir: Directory, name: string): (r: string)
    ensures r == name
  {
    if Dot !in name then name else FirstDotlessMatch(dir.StudentNames(), name).GetOr(name)
  }

  /** A name is searched only when its length is within [2, 10]. */
  predicate SearchableLength(name: string) {
    2 <= |name| <= 10
  }

  /** Where a name hit goes: the id the variant lookup gives (when non-empty), else the name itself. */
  function NameRoute(dir: Directory, name: string): (k: BucketKey)
    ensures k.SidKey? <==> dir.FindStudentId(name).Some? && dir.FindStudentId(name).value != ""
    ensures k.SidKey? ==> k.id == dir.FindStudentId(name).value
    ensures k.NameKey? ==> k.name == name
  {
    var sid := dir.FindStudentId(name).GetOr("");
    if sid != "" then SidKey(sid) else NameKey(name)
  }

  /** The hits of one candidate name: one per occurrence when its length is searchable, else none. */
  function NameHitsOf(text: string, dir: Directory, name: string): seq<Hit> {
    if SearchableLength(name) then
      var key := NameRoute(dir, name);
      HitsAt(text, name, Occurrences(text, name), key, ByName, KeyId(key), DisplayName(dir, name))
    else []
  }

  /** The name pass over the searchable names in the iteration order `order`. */
  function NameHits(text: string, dir: Directory, order: seq<string>): (r: seq<Hit>)
    ensures forall i :: 0 <= i < |r| ==>
      && r[i].kind == ByName && SearchableLength(r[i].value) && r[i].value in order
      && r[i].key == NameRoute(dir, r[i].value) && r[i].id == KeyId(r[i].key)
      && r[i].name == r[i].value
      && OccursAt(text, r[i].value, r[i].index)
  {
    if order == [] then []
    else NameHits(text, dir, order[..|order| - 1]) + NameHitsOf(text, dir, order[|order| - 1])
  }

  /** The hit carries the matched text `v`. */
  predicate HasValue(h: Hit, v: string) {
    h.value == v
  }

  /**
   * The name pass is complete: for a candidate `n` listed once, the hits carrying `n`
   * are exactly one per occurrence of `n` in the text, in text order, each routed by
   * `NameRoute` and showing its own snippet — when `n` has a searchable length;
   * otherwise there are none.
   */
  lemma {:induction false} NamePassSelect(text: string, dir: Directory, order: seq<string>, n: string)
    requires NoDup(order) && n in order
    ensures Filter(NameHits(text, dir, order), HasValue, n) ==
      if SearchableLength(n) then
        HitsAt(text, n, Occurrences(text, n), NameRoute(dir, n), ByName, KeyId(NameRoute(dir, n)), n)
      else []
  {
    var p := order[..|order| - 1];
    var last := order[|order| - 1];
    var prev := NameHits(text, dir, p);
    var cur := NameHitsOf(text, dir, last);
    NoDupPrefix(order);
    FilterAppend(prev, cur, HasValue, n);
    NameHitsOfValues(text, dir, last);
    if last == n {
      NameHitsOther(text, dir, p, n);
      FilterAll(cur, HasValue, n);
    } else {
      assert n in p;
      NamePassSelect(text, dir, p, n);
      FilterNone(cur, HasValue, n);
    }
  }

  /** The hits of one candidate all carry that candidate. */
  lemma NameHitsOfValues(text: string, dir: Directory, name: string)
    ensures forall i :: 0 <= i < |NameHitsOf(text, dir, name)| ==> HasValue(NameHitsOf(text, dir, name)[i], name)
  {
  }

  /** The name pass over candidates that do not include `n` has no hit carrying `n`. */
  lemma NameHitsOther(text: string, dir: Directory, order: seq<string>, n: string)
    requires n !in order
    ensures Filter(NameHits(text, dir, order), HasValue, n) == []
  {
    var hs := NameHits(text, dir, order);
    assert forall i :: 0 <= i < |hs| ==> !HasValue(hs[i], n);
    FilterNone(hs, HasValue, n);
  }

  /** How many occurrences the roster ids keyed `k` have in the text. */
  function IdOccurrences(text: string, idToName: Dict<string, string>, k: BucketKey): nat {
    if idToName == [] then 0
    else
      var id := idToName[|idToName| - 1].0;
      IdOccurrences(text, idToName[..|idToName| - 1], k) + (if SidKey(id) == k then |Occurrences(text, id)| else 0)
  }

  /** How many occurrences the searchable names of `order` that route to `k` have in the text. */
  function RoutedNameOccurrences(text: string, dir: Directory, order: seq<string>, k: BucketKey): nat {
    if order == [] then 0
    else
      var n := order[|order| - 1];
      RoutedNameOccurrences(text, dir, order[..|order| - 1], k)
        + (if SearchableLength(n) && NameRoute(dir, n) == k then |Occurrences(text, n)| else 0)
  }

  /** The id pass puts into bucket `k` one hit per occurrence of each roster id keyed `k`. */
  lemma {:induction false} IdPassOccurrences(text: string, idToName: Dict<string, string>, k: BucketKey)
    ensures |Select(IdHits(text, idToName), k)| == IdOccurrences(text, idToName, k)
  {
    if idToName != [] {
      var last := idToName[|idToName| - 1];
      IdHitsSplit(text, idToName, k);
      SelectHitsAt(text, last.0, Occurrences(text, last.0), SidKey(last.0), ById, last.0, last.1, k);
      IdPassOccurrences(text, idToName[..|idToName| - 1], k);
    }
  }

  /** The name pass puts into bucket `k` one hit per occurrence of each searchable name routed to `k`. */
  lemma {:induction false} NamePassCount(text: string, dir: Directory, order: seq<string>, k: BucketKey)
    ensures |Select(NameHits(text, dir, order), k)| == RoutedNameOccurrences(text, dir, order, k)
  {
    if order != [] {
      var p := order[..|order| - 1];
      var n := order[|order| - 1];
      assert NameHits(text, dir, order) == NameHits(text, dir, p) + NameHitsOf(text, dir, n);
      SelectAppend(NameHits(text, dir, p), NameHitsOf(text, dir, n), k);
      NameHitsOfCount(text, dir, n, k);
      NamePassCount(text, dir, p, k);
    }
  }

  /** One candidate puts into bucket `k` one hit per occurrence when it is searchable and routed to `k`. */
  lemma NameHitsOfCount(text: string, dir: Directory, n: string, k: BucketKey)
    ensures |Select(NameHitsOf(text, dir, n), k)| ==
      if SearchableLength(n) && NameRoute(dir, n) == k then |Occurrences(text, n)| else 0
  {
    if SearchableLength(n) {
      var key := NameRoute(dir, n);
      SelectHitsAt(text, n, Occurrences(text, n), key, ByName, KeyId(key), DisplayName(dir, n), k);
    }
  }

  /** `order` lists each searchable name once, in some order (Python iterates over a set). */
  predicate IsIterationOrder(dir: Directory, order: seq<string>) {
    NoDup(order) && (set x | x in order) == (set x | x in dir.searchableNames)
  }

  /** Every hit of the id pass and the name pass is consistently routed. */
  lemma HitsRouted(text: string, dir: Directory, order: seq<string>)
    ensures forall h :: h in IdHits(text, dir.idToName) + NameHits(text, dir, order) ==> Routed(h)
  {
    var a := IdHits(text, dir.idToName);
    var b := NameHits(text, dir, order);
    forall h | h in a + b ensures Routed(h) {
      if h in a {
        var i :| 0 <= i < |a| && a[i] == h;
      } else {
        var i :| 0 <= i < |b| && b[i] == h;
      }
    }
  }

  // ---------------------------------------------------------------- rows

  /** The kind labels sorted by code point, each once. */
  function SortedLabels(kinds: set<MatchKind>): (r: seq<string>)
    ensures NoDup(r)
    ensures forall i, j :: 0 <= i < j < |r| ==> StrLess(r[i], r[j])
    ensures forall s :: s in r <==> exists m :: m in kinds && KindLabel(m) == s
  {
    if ByName in kinds && ById in kinds then
      assert StrLess(KindLabel(ByName), KindLabel(ById));
      [KindLabel(ByName), KindLabel(ById)]
    else if ByName in kinds then [KindLabel(ByName)]
    else if ById in kinds then [KindLabel(ById)]
    else []
  }

  /** `"+".join(sorted(types))` */
  function TypeLabel(kinds: set<MatchKind>): string {
    Join(SortedLabels(kinds), TypeSeparator)
  }

  /** A bucket with both kinds is labelled "姓名+学号"; with one kind, by that kind's label. */
  lemma TypeLabelValues(kinds: set<MatchKind>)
    ensures kinds == {ById, ByName} ==> TypeLabel(kinds) == "姓名+学号"
    ensures kinds == {ById} ==> TypeLabel(kinds) == "学号"
    ensures kinds == {ByName} ==> TypeLabel(kinds) == "姓名"
  {
    if kinds == {ById, ByName} {
      var p := SortedLabels(kinds);
      assert p == ["姓名", "学号"];
      assert p[1..] == ["学号"];
      assert Join(p, TypeSeparator) == "姓名" + "+" + Join(["学号"], TypeSeparator);
    }
  }

  /** The finished row of a bucket. */
  function Finalize(doc: Document, b: Bucket): Row {
    Row(doc.path, doc.activity, StatusOk, TypeLabel(b.kinds), Join(b.values, ValueSeparator),
        b.studentId, b.studentName, Join(b.snippets, SnippetSeparator), b.count)
  }

  /** The rows of the buckets, in bucket order. */
  function StudentRows(doc: Document, buckets: Dict<BucketKey, Bucket>): (r: seq<Row>)
    ensures |r| == |buckets|
    ensures forall i :: 0 <= i < |r| ==> r[i] == Finalize(doc, buckets[i].1)
  {
    seq(|buckets|, i requires 0 <= i < |buckets| => Finalize(doc, buckets[i].1))
  }

  /**
   * One row per occurrence of the stripped keyword, in text order, each showing the
   * context window of its own occurrence; none for a blank keyword.
   */
  function KeywordRows(doc: Document, raw: string, classLabel: string): (r: seq<Row>)
    ensures var kw := Strip(raw); kw == [] ==> r == []
    ensures var kw := Strip(raw); |r| == |Occurrences(doc.text, kw)|
    ensures forall i :: 0 <= i < |r| ==>
      var kw := Strip(raw);
      && r[i] == Row(doc.path, doc.activity, StatusOk, classLabel, kw, "", "",
                     Context(doc.text, Occurrences(doc.text, kw)[i], |kw|, ContextSpan), 1)
      && r[i].matchValue != []
      && Contains(doc.text, r[i].matchValue)
  {
    var kw := Strip(raw);
    if kw == [] then []
    else
      var occ := Occurrences(doc.text, kw);
      assert occ != [] ==> Contains(doc.text, kw) by {
        if occ != [] {
          assert OccursAt(doc.text, kw, occ[0]);
        }
      }
      seq(|occ|, k requires 0 <= k < |occ| =>
        Row(doc.path, doc.activity, StatusOk, classLabel, kw, "", "", Context(doc.text, occ[k], |kw|, ContextSpan), 1))
  }

  /** The class-tag pass over the keywords in order. */
  function ClassRows(doc: Document, classTags: seq<string>, classLabel: string): (r: seq<Row>)
    ensures forall i :: 0 <= i < |r| ==>
      && r[i].status == StatusOk && r[i].matchType == classLabel && r[i].count == 1
      && r[i].studentId == "" && r[i].studentName == ""
      && r[i].matchValue != [] && Contains(doc.text, r[i].matchValue)
  {
    if classTags == [] then []
    else ClassRows(doc, classTags[..|classTags| - 1], classLabel) + KeywordRows(doc, classTags[|classTags| - 1], classLabel)
  }

  /** The student hits of a document: the id pass, then the name pass. */
  function StudentHits(doc: Document, dir: Directory, order: seq<string>): seq<Hit> {
    IdHits(doc.text, dir.idToName) + NameHits(doc.text, dir, order)
  }

  /**
   * `scan_document_for_matches(document, roster, class_tags)`: one row per student
   * bucket (in first-hit order), then the class-tag rows. `order` is the order in
   * which the set of searchable names happens to be iterated.
   */
  function ScanDocument(doc: Document, dir: Directory, order: seq<string>, classTags: seq<string>, classLabel: string): (r: seq<Row>)
    ensures var hs := StudentHits(doc, dir, order); var n := |Dedup(HitKeys(hs))|;
      && |r| == n + |ClassRows(doc, classTags, classLabel)|
      && r[n..] == ClassRows(doc, classTags, classLabel)
      && (forall i :: 0 <= i < n ==> r[i].count > 0)
      && (forall i :: 0 <= i < |r| ==> r[i].status == StatusOk)
  {
    var rows := BucketRows(doc, StudentHits(doc, dir, order));
    var classRows := ClassRows(doc, classTags, classLabel);

    rows + classRows
  }

  /** The finished rows of the buckets the hits `hs` fill: one per bucket key, each with a positive count. */
  function BucketRows(doc: Document, hs: seq<Hit>): (r: seq<Row>)
    ensures |r| == |Dedup(HitKeys(hs))|
    ensures forall i :: 0 <= i < |r| ==> r[i].count > 0 && r[i].status == StatusOk
  {
    var buckets := FoldHits(hs);
    FoldHitsKeys(hs);
    forall i | 0 <= i < |buckets| ensures buckets[i].1.count > 0 {
      FoldHitsCountPositive(hs, i);
    }
    StudentRows(doc, buckets)
  }

  /** Every bucket holds at least one hit. */
  lemma FoldHitsCountPositive(hs: seq<Hit>, i: int)
    requires 0 <= i < |FoldHits(hs)|
    ensures FoldHits(hs)[i].1.count > 0
  {
    var buckets := FoldHits(hs);
    var k := buckets[i].0;
    FoldHitsKeys(hs);
    assert Keys(buckets)[i] == k;
    FoldHitsGet(hs, k);
    GetUnique(buckets, k, i);
    BucketCount(NewBucket(), Select(hs, k));
    SelectNonEmpty(hs, k);
  }

  /** In a dictionary with distinct keys, `get` returns the entry at the key's position. */
  lemma GetUnique<K, V>(d: Dict<K, V>, k: K, i: int)
    requires DistinctKeys(d) && 0 <= i < |d| && d[i].0 == k
    ensures Get(d, k) == Some(d[i].1)
  {
    assert IndexOfKey(d, k) == i;
  }

  /** A key some hit carries selects at least one hit. */
  lemma {:induction false} SelectNonEmpty(hs: seq<Hit>, k: BucketKey)
    requires k in HitKeys(hs)
    ensures |Select(hs, k)| > 0
  {
    var p := hs[..|hs| - 1];
    HitKeysSnoc(hs);
    if hs[|hs| - 1].key != k {
      SelectNonEmpty(p, k);
    }
  }

  /**
   * The `i`-th student row is the bucket of the `i`-th distinct key: its count is the
   * number of hits routed to that key, its values and snippets are theirs without
   * duplicates in first-appearance order, and its match type lists their kinds.
   */
  lemma StudentRowSpec(doc: Document, dir: Directory, order: seq<string>, classTags: seq<string>, classLabel: string, i: int)
    requires 0 <= i < |Dedup(HitKeys(StudentHits(doc, dir, order)))|
    ensures var hs := StudentHits(doc, dir, order);
      var k := Dedup(HitKeys(hs))[i];
      var sel := Select(hs, k);
      var row := ScanDocument(doc, dir, order, classTags, classLabel)[i];
      && row.count == |sel|
      && row.matchValue == Join(Dedup(HitValues(sel)), ValueSeparator)
      && row.snippet == Join(Dedup(HitSnippets(sel)), SnippetSeparator)
      && row.matchType == TypeLabel(ApplyAll(NewBucket(), sel).kinds)
      && row.studentId == KeyId(k)
  {
    var hs := StudentHits(doc, dir, order);
    var buckets := FoldHits(hs);
    FoldHitsKeys(hs);
    var k := Dedup(HitKeys(hs))[i];
    assert Keys(buckets)[i] == k;
    FoldHitsGet(hs, k);
    GetUnique(buckets, k, i);
    var sel := Select(hs, k);
    BucketCount(NewBucket(), sel);
    BucketValues(sel);
    SelectNonEmpty(hs, k);
    HitsRouted(doc.text, dir, order);
    forall j | 0 <= j < |sel| ensures sel[j].key == k && Routed(sel[j]) {
      SelectSubset(hs, k, sel[j]);
    }
    BucketId(sel, k);
  }

  /** Selected hits come from the original sequence. */
  lemma {:induction false} SelectSubset(hs: seq<Hit>, k: BucketKey, h: Hit)
    requires h in Select(hs, k)
    ensures h in hs
  {
    var p := hs[..|hs| - 1];
    if h in Select(p, k) {
      SelectSubset(p, k, h);
    }
  }

  /**
   * The count of the `i`-th student row is the number of occurrences routed into its
   * bucket: those of the roster ids keyed to it, plus those of every searchable name
   * that routes to it.
   */
  lemma StudentRowCount(doc: Document, dir: Directory, order: seq<string>, classTags: seq<string>, classLabel: string, i: int)
    requires 0 <= i < |Dedup(HitKeys(StudentHits(doc, dir, order)))|
    ensures var k := Dedup(HitKeys(StudentHits(doc, dir, order)))[i];
      ScanDocument(doc, dir, order, classTags, classLabel)[i].count ==
        IdOccurrences(doc.text, dir.idToName, k) + RoutedNameOccurrences(doc.text, dir, order, k)
  {
    var k := Dedup(HitKeys(StudentHits(doc, dir, order)))[i];
    StudentRowSpec(doc, dir, order, classTags, classLabel, i);
    SelectAppend(IdHits(doc.text, dir.idToName), NameHits(doc.text, dir, order), k);
    IdPassOccurrences(doc.text, dir.idToName, k);
    NamePassCount(doc.text, dir, order, k);
  }

  /** No roster id occurs in the text (an empty id is never searched for). */
  predicate NoIdOccurs(text: string, idToName: Dict<string, string>) {
    forall j :: 0 <= j < |idToName| ==> idToName[j].0 == [] || !Contains(text, idToName[j].0)
  }

  /** No name of `order` with a searchable length occurs in the text. */
  predicate NoNameOccurs(text: string, order: seq<string>) {
    forall j :: 0 <= j < |order| ==> !SearchableLength(order[j]) || !Contains(text, order[j])
  }

  /** No class tag occurs in the text once stripped (a blank tag is never searched for). */
  predicate NoTagOccurs(text: string, classTags: seq<string>) {
    forall j :: 0 <= j < |classTags| ==> Strip(classTags[j]) == [] || !Contains(text, Strip(classTags[j]))
  }

  /** The occurrence list of a token is empty exactly when the token is empty or absent. */
  lemma NoOccurrences(text: string, tok: string)
    ensures Occurrences(text, tok) == [] <==> tok == [] || !Contains(text, tok)
  {
    if tok != [] {
      OccurrencesEmptyIff(text, tok);
    }
  }

  /** The id pass finds nothing exactly when no roster id occurs. */
  lemma {:induction false} IdHitsEmptyIff(text: string, idToName: Dict<string, string>)
    ensures IdHits(text, idToName) == [] <==> NoIdOccurs(text, idToName)
  {
    if idToName != [] {
      var n := |idToName|;
      var last := idToName[n - 1];
      IdHitsEmptyIff(text, idToName[..n - 1]);
      NoIdOccursSnoc(text, idToName);
      NoOccurrences(text, last.0);
      var cur := HitsAt(text, last.0, Occurrences(text, last.0), SidKey(last.0), ById, last.0, last.1);
      assert IdHits(text, idToName) == IdHits(text, idToName[..n - 1]) + cur;
    }
  }

  /** `NoIdOccurs` over one more entry. */
  lemma NoIdOccursSnoc(text: string, idToName: Dict<string, string>)
    requires idToName != []
    ensures var n := |idToName|;
      NoIdOccurs(text, idToName) <==>
        NoIdOccurs(text, idToName[..n - 1]) && (idToName[n - 1].0 == [] || !Contains(text, idToName[n - 1].0))
  {
    var n := |idToName|;
    assert forall j :: 0 <= j < n - 1 ==> idToName[..n - 1][j] == idToName[j];
  }

  /** The name pass finds nothing exactly when no searchable name occurs. */
  lemma {:induction false} NameHitsEmptyIff(text: string, dir: Directory, order: seq<string>)
    ensures NameHits(text, dir, order) == [] <==> NoNameOccurs(text, order)
  {
    if order != [] {
      var n := |order|;
      var last := order[n - 1];
      NameHitsEmptyIff(text, dir, order[..n - 1]);
      NoNameOccursSnoc(text, order);
      NoOccurrences(text, last);
      assert NameHits(text, dir, order) == NameHits(text, dir, order[..n - 1]) + NameHitsOf(text, dir, last);
      assert SearchableLength(last) ==> last != [];
    }
  }

  /** `NoNameOccurs` over one more candidate. */
  lemma NoNameOccursSnoc(text: string, order: seq<string>)
    requires order != []
    ensures var n := |order|;
      NoNameOccurs(text, order) <==>
        NoNameOccurs(text, order[..n - 1]) && (!SearchableLength(order[n - 1]) || !Contains(text, order[n - 1]))
  {
    var n := |order|;
    assert forall j :: 0 <= j < n - 1 ==> order[..n - 1][j] == order[j];
  }

  /** The class-tag pass gives no row exactly when no stripped tag occurs. */
  lemma {:induction false} ClassRowsEmptyIff(doc: Document, classTags: seq<string>, classLabel: string)
    ensures ClassRows(doc, classTags, classLabel) == [] <==> NoTagOccurs(doc.text, classTags)
  {
    if classTags != [] {
      var n := |classTags|;
      var last := classTags[n - 1];
      ClassRowsEmptyIff(doc, classTags[..n - 1], classLabel);
      NoTagOccursSnoc(doc.text, classTags);
      NoOccurrences(doc.text, Strip(last));
      assert ClassRows(doc, classTags, classLabel) ==
        ClassRows(doc, classTags[..n - 1], classLabel) + KeywordRows(doc, last, classLabel);
    }
  }

  /** `NoTagOccurs` over one more tag. */
  lemma NoTagOccursSnoc(text: string, classTags: seq<string>)
    requires classTags != []
    ensures var n := |classTags|;
      NoTagOccurs(text, classTags) <==>
        NoTagOccurs(text, classTags[..n - 1]) && (Strip(classTags[n - 1]) == [] || !Contains(text, Strip(classTags[n - 1])))
  {
    var n := |classTags|;
    assert forall j :: 0 <= j < n - 1 ==> classTags[..n - 1][j] == classTags[j];
  }

  /**
   * A document gives no rows exactly when no roster id, no searchable name and no
   * stripped class tag occurs in its text.
   */
  lemma ScanEmptyIff(doc: Document, dir: Directory, order: seq<string>, classTags: seq<string>, classLabel: string)
    ensures ScanDocument(doc, dir, order, classTags, classLabel) == [] <==>
      StudentHits(doc, dir, order) == [] && ClassRows(doc, classTags, classLabel) == []
    ensures ScanDocument(doc, dir, order, classTags, classLabel) == [] <==>
      NoIdOccurs(doc.text, dir.idToName) && NoNameOccurs(doc.text, order) && NoTagOccurs(doc.text, classTags)
  {
    var hs := StudentHits(doc, dir, order);
    if hs != [] {
      assert hs[0].key in HitKeys(hs);
    }
    IdHitsEmptyIff(doc.text, dir.idToName);
    NameHitsEmptyIff(doc.text, dir, order);
    ClassRowsEmptyIff(doc, classTags, classLabel);
  }

  /** Over an iteration order, no name occurs exactly when no searchable name of the roster does. */
  lemma NoNameOccursOrderFree(text: string, dir: Directory, order: seq<string>)
    requires IsIterationOrder(dir, order)
    ensures NoNameOccurs(text, order) <==>
      forall n :: n in dir.searchableNames ==> !SearchableLength(n) || !Contains(text, n)
  {
    IterationOrderMembers(dir, order);
  }

  /** An iteration order lists exactly the roster's searchable names. */
  lemma IterationOrderMembers(dir: Directory, order: seq<string>)
    requires IsIterationOrder(dir, order)
    ensures forall n :: n in order <==> n in dir.searchableNames
  {
    var a := set x | x in order;
    var b := set x | x in dir.searchableNames;
    assert a == b;
    forall n ensures n in order <==> n in dir.searchableNames {
      assert n in order <==> n in a;
      assert n in dir.searchableNames <==> n in b;
    }
  }

  /**
   * Whether a document yields rows does not depend on the order in which the set
   * of searchable names is iterated: it is decided by the roster's names themselves.
   */
  lemma ScanEmptyOrderFree(doc: Document, dir: Directory, order: seq<string>, classTags: seq<string>, classLabel: string)
    requires IsIterationOrder(dir, order)
    ensures ScanDocument(doc, dir, order, classTags, classLabel) == [] <==>
      && NoIdOccurs(doc.text, dir.idToName)
      && (forall n :: n in dir.searchableNames ==> !SearchableLength(n) || !Contains(doc.text, n))
      && NoTagOccurs(doc.text, classTags)
  {
    ScanEmptyIff(doc, dir, order, classTags, classLabel);
    NoNameOccursOrderFree(doc.text, dir, order);
  }

  /**
   * The name pass is complete over an iteration order: for each searchable name of
   * the roster, the hits carrying it are one per occurrence, in text order.
   */
  lemma NamePassSearchable(text: string, dir: Directory, order: seq<string>, n: string)
    requires IsIterationOrder(dir, order) && n in dir.searchableNames
    ensures Filter(NameHits(text, dir, order), HasValue, n) ==
      if SearchableLength(n) then
        HitsAt(text, n, Occurrences(text, n), NameRoute(dir, n), ByName, KeyId(NameRoute(dir, n)), n)
      else []
  {
    IterationOrderMembers(dir, order);
    NamePassSelect(text, dir, order, n);
  }

  /** Hits generated for one key select entirely into that key and not at all into others. */
  lemma SelectHitsAt(text: string, tok: string, occ: seq<nat>, key: BucketKey, kind: MatchKind, id: string, name: string, k: BucketKey)
    ensures Select(HitsAt(text, tok, occ, key, kind, id, name), k) ==
      if k == key then HitsAt(text, tok, occ, key, kind, id, name) else []
  {
    var hs := HitsAt(text, tok, occ, key, kind, id, name);
    if k == key {
      SelectAll(hs, k);
    } else {
      SelectAbsent(hs, k);
    }
  }

  /**
   * The id pass adds exactly one hit to bucket `sid:<id>` per occurrence of a roster
   * id, all carrying the id and the roster name.
   */
  lemma IdPassCount(text: string, idToName: Dict<string, string>, i: int)
    requires DistinctKeys(idToName) && 0 <= i < |idToName|
    ensures var sel := Select(IdHits(text, idToName), SidKey(idToName[i].0));
      && |sel| == |Occurrences(text, idToName[i].0)|
      && forall j :: 0 <= j < |sel| ==> sel[j].name == idToName[i].1
  {
    IdPassSelect(text, idToName, i);
  }

  /** The hits routed to a roster id's bucket are exactly that id's own hits. */
  lemma {:induction false} IdPassSelect(text: string, idToName: Dict<string, string>, i: int)
    requires DistinctKeys(idToName) && 0 <= i < |idToName|
    ensures Select(IdHits(text, idToName), SidKey(idToName[i].0)) ==
      HitsAt(text, idToName[i].0, Occurrences(text, idToName[i].0), SidKey(idToName[i].0), ById, idToName[i].0, idToName[i].1)
  {
    var n := |idToName|;
    if i < n - 1 {
      assert idToName[i].0 != idToName[n - 1].0;
      IdHitsSkipLast(text, idToName, SidKey(idToName[i].0));
      DistinctKeysPrefix(idToName, n - 1);
      assert idToName[..n - 1][i] == idToName[i];
      IdPassSelect(text, idToName[..n - 1], i);
    } else {
      IdPassLast(text, idToName);
    }
  }

  /** A bucket other than the last entry's is untouched by the last entry's hits. */
  lemma IdHitsSkipLast(text: string, idToName: Dict<string, string>, k: BucketKey)
    requires idToName != [] && k != SidKey(idToName[|idToName| - 1].0)
    ensures Select(IdHits(text, idToName), k) == Select(IdHits(text, idToName[..|idToName| - 1]), k)
  {
    var n := |idToName|;
    var last := idToName[n - 1];
    IdHitsSplit(text, idToName, k);
    SelectHitsAt(text, last.0, Occurrences(text, last.0), SidKey(last.0), ById, last.0, last.1, k);
    assert Select(IdHits(text, idToName[..n - 1]), k) + [] == Select(IdHits(text, idToName[..n - 1]), k);
  }

  /** The last entry's bucket holds only its own hits, since no earlier entry has its id. */
  lemma IdPassLast(text: string, idToName: Dict<string, string>)
    requires DistinctKeys(idToName) && idToName != []
    ensures var last := idToName[|idToName| - 1];
      Select(IdHits(text, idToName), SidKey(last.0)) ==
        HitsAt(text, last.0, Occurrences(text, last.0), SidKey(last.0), ById, last.0, last.1)
  {
    var n := |idToName|;
    var prev := idToName[..n - 1];
    var last := idToName[n - 1];
    var cur := HitsAt(text, last.0, Occurrences(text, last.0), SidKey(last.0), ById, last.0, last.1);
    IdHitsSplit(text, idToName, SidKey(last.0));
    assert forall j :: 0 <= j < |prev| ==> prev[j].0 != last.0;
    IdHitsAbsent(text, prev, last.0);
    SelectHitsAt(text, last.0, Occurrences(text, last.0), SidKey(last.0), ById, last.0, last.1, SidKey(last.0));
  }

  /** The id pass selects, for one key, the hits of the earlier entries and then those of the last. */
  lemma IdHitsSplit(text: string, idToName: Dict<string, string>, k: BucketKey)
    requires idToName != []
    ensures var n := |idToName|; var last := idToName[n - 1];
      Select(IdHits(text, idToName), k) ==
        Select(IdHits(text, idToName[..n - 1]), k)
        + Select(HitsAt(text, last.0, Occurrences(text, last.0), SidKey(last.0), ById, last.0, last.1), k)
  {
    var n := |idToName|;
    var last := idToName[n - 1];
    var cur := HitsAt(text, last.0, Occurrences(text, last.0), SidKey(last.0), ById, last.0, last.1);
    assert IdHits(text, idToName) == IdHits(text, idToName[..n - 1]) + cur;
    SelectAppend(IdHits(text, idToName[..n - 1]), cur, k);
  }


  /** Ids not listed produce no id hits. */
  lemma {:induction false} IdHitsAbsent(text: string, idToName: Dict<string, string>, id: string)
    requires forall j :: 0 <= j < |idToName| ==> idToName[j].0 != id
    ensures Select(IdHits(text, idToName), SidKey(id)) == []
  {
    if idToName != [] {
      var n := |idToName|;
      var last := idToName[n - 1];
      var cur := HitsAt(text, last.0, Occurrences(text, last.0), SidKey(last.0), ById, last.0, last.1);
      SelectAppend(IdHits(text, idToName[..n - 1]), cur, SidKey(id));
      IdHitsAbsent(text, idToName[..n - 1], id);
      SelectHitsAt(text, last.0, Occurrences(text, last.0), SidKey(last.0), ById, last.0, last.1, SidKey(id));
    }
  }
}

=== FILE: index_tool.dfy ===
/**
 * The one-shot tool `index.py`: the raw-token search `_search_hits`, the sorted,
 * de-duplicated file list of `collect_supported_files`, and the collision-free
 * naming of the copies of matched files in `main`.
 */
module IndexTool {
  import opened Strings
  import opened Seqs
  import opened Search
  import opened Roster
  import opened Sorting
  import opened Paths

  // ---------------------------------------------------------------- _search_hits

  /** The tokens a roster entry stands for: its name, its id, and the dotless form of a dotted name. */
  predicate Offers(e: (string, string), x: string) {
    x == e.0 || x == e.1 || (Dot in e.0 && x == Dotless(e.0))
  }

  /** A token that is reported: non-empty and present in the text. */
  predicate Found(text: string, x: string) {
    x != "" && Contains(text, x)
  }

  /** `if token and token in text: matches.append(token)` */
  function AddIfFound(found: seq<string>, text: string, x: string): (r: seq<string>)
    ensures Found(text, x) ==> r == found + [x]
    ensures !Found(text, x) ==> r == found
  {
    if Found(text, x) then found + [x] else found
  }

  /**
   * One iteration of `_search_hits`: the name if found, then the id if found, then,
   * for a dotted name, its dotless form if found and not yet reported.
   */
  function EntryHits(found: seq<string>, e: (string, string), text: string): (r: seq<string>)
    ensures |found| <= |r| <= |found| + 3 && r[..|found|] == found
  {
    var afterId := AddIfFound(AddIfFound(found, text, e.0), text, e.1);
    if Dot in e.0 && Dotless(e.0) !in afterId then AddIfFound(afterId, text, Dotless(e.0)) else afterId
  }

  /** `_search_hits(text, name_to_id)`: the matched raw tokens, roster entry by roster entry. */
  function SearchHits(text: string, m: StudentMap): (r: seq<string>)
    ensures |r| <= 3 * |m|
    ensures forall i :: 0 <= i < |r| ==> Found(text, r[i])
  {
    if m == [] then [] else EntryHits(SearchHits(text, m[..|m| - 1]), m[|m| - 1], text)
  }

  lemma EntryHitsMembers(found: seq<string>, e: (string, string), text: string, x: string)
    ensures x in EntryHits(found, e, text) <==> x in found || (Found(text, x) && Offers(e, x))
  {
  }

  /** Every reported token is found in the text and offered by some roster entry. */
  lemma {:induction false} SearchHitsSound(text: string, m: StudentMap, x: string)
    requires x in SearchHits(text, m)
    ensures Found(text, x) && exists i :: 0 <= i < |m| && Offers(m[i], x)
  {
    var p := m[..|m| - 1];
    var last := |m| - 1;
    assert SearchHits(text, m) == EntryHits(SearchHits(text, p), m[last], text);
    EntryHitsMembers(SearchHits(text, p), m[last], text, x);
    if x in SearchHits(text, p) {
      SearchHitsSound(text, p, x);
      var i :| 0 <= i < |p| && Offers(p[i], x);
      assert m[i] == p[i];
    } else {
      assert Offers(m[last], x);
    }
  }

  /** Every found token that roster entry `i` offers is reported. */
  lemma {:induction false} SearchHitsComplete(text: string, m: StudentMap, i: int, x: string)
    requires 0 <= i < |m| && Found(text, x) && Offers(m[i], x)
    ensures x in SearchHits(text, m)
  {
    var p := m[..|m| - 1];
    if i < |p| {
      assert p[i] == m[i];
      SearchHitsComplete(text, p, i, x);
      SearchHitsKeeps(text, m, x);
    } else {
      SearchHitsLastEntry(text, m, x);
    }
  }

  lemma SearchHitsKeeps(text: string, m: StudentMap, x: string)
    requires m != [] && x in SearchHits(text, m[..|m| - 1])
    ensures x in SearchHits(text, m)
  {
    var before := SearchHits(text, m[..|m| - 1]);
    var r := SearchHits(text, m);
    assert r[..|before|] == before;
  }

  lemma SearchHitsLastEntry(text: string, m: StudentMap, x: string)
    requires m != [] && Found(text, x) && Offers(m[|m| - 1], x)
    ensures x in SearchHits(text, m)
  {
    EntryHitsMembers(SearchHits(text, m[..|m| - 1]), m[|m| - 1], text, x);
  }

  /**
   * A token is reported exactly when it is non-empty, occurs in the text, and is the
   * name, the id or the dotless form of a dotted name of some roster entry.
   */
  lemma SearchHitsMembers(text: string, m: StudentMap, x: string)
    ensures x in SearchHits(text, m) <==> Found(text, x) && exists i :: 0 <= i < |m| && Offers(m[i], x)
  {
    if x in SearchHits(text, m) {
      SearchHitsSound(text, m, x);
    }
    if Found(text, x) && exists i :: 0 <= i < |m| && Offers(m[i], x) {
      var i :| 0 <= i < |m| && Offers(m[i], x);
      SearchHitsComplete(text, m, i, x);
    }
  }

  /** Nothing is found in an empty text. */
  lemma SearchHitsEmptyText(m: StudentMap)
    ensures SearchHits("", m) == []
  {
  }

  /** `a` lists some of the elements of `b`, in the order of `b`. */
  predicate SubsequenceOf(a: seq<string>, b: seq<string>) {
    if b == [] then a == []
    else (a != [] && a[0] == b[0] && SubsequenceOf(a[1..], b[1..])) || SubsequenceOf(a, b[1..])
  }

  /** Extending both sides by one more element of `b`, kept or skipped. */
  lemma SubsequenceStep(p: seq<string>, x: string, a: seq<string>, b: seq<string>)
    requires p == [] || p == [x]
    requires SubsequenceOf(a, b)
    ensures SubsequenceOf(p + a, [x] + b)
  {
    assert ([x] + b)[1..] == b;
    if p == [x] {
      assert (p + a)[1..] == a;
    } else {
      assert p + a == a;
    }
  }

  /** The tokens one entry adds come in the order name, id, dotless form. */
  lemma EntryHitsOrder(found: seq<string>, e: (string, string), text: string)
    ensures SubsequenceOf(EntryHits(found, e, text)[|found|..], [e.0, e.1, Dotless(e.0)])
  {
    var a1 := AddIfFound(found, text, e.0);
    var a2 := AddIfFound(a1, text, e.1);
    var r := EntryHits(found, e, text);
    var p1, p2, p3 := a1[|found|..], a2[|a1|..], r[|a2|..];
    assert r[|found|..] == p1 + (p2 + p3);
    assert SubsequenceOf([], []);
    SubsequenceStep(p3, Dotless(e.0), [], []);
    SubsequenceStep(p2, e.1, p3, [Dotless(e.0)]);
    SubsequenceStep(p1, e.0, p2 + p3, [e.1, Dotless(e.0)]);
  }

  /**
   * Per roster entry in map order: the hits for the entries before `e` come first and
   * stay as they were, then `e`'s own name, id and dotless form, in that order.
   */
  lemma SearchHitsAppend(text: string, m: StudentMap, e: (string, string))
    ensures var before := SearchHits(text, m); var r := SearchHits(text, m + [e]);
      |before| <= |r| && r[..|before|] == before && SubsequenceOf(r[|before|..], [e.0, e.1, Dotless(e.0)])
  {
    assert (m + [e])[..|m|] == m;
    EntryHitsOrder(SearchHits(text, m), e, text);
  }

  /** A token that is nobody's name or id can only be a dotless form, and those are reported once. */
  lemma EntryHitsOnce(found: seq<string>, e: (string, string), text: string, x: string)
    requires x != e.0 && x != e.1 && multiset(found)[x] <= 1
    ensures multiset(EntryHits(found, e, text))[x] <= 1
  {
    var afterId := AddIfFound(AddIfFound(found, text, e.0), text, e.1);
    assert multiset(afterId)[x] == multiset(found)[x];
    if Dot in e.0 && Dotless(e.0) !in afterId && Dotless(e.0) == x {
      assert multiset(afterId)[x] == 0;
    }
  }

  lemma {:induction false} SearchHitsOnce(text: string, m: StudentMap, x: string)
    requires forall i :: 0 <= i < |m| ==> x != m[i].0 && x != m[i].1
    ensures multiset(SearchHits(text, m))[x] <= 1
  {
    if m != [] {
      var p := m[..|m| - 1];
      assert forall i :: 0 <= i < |p| ==> p[i] == m[i];
      SearchHitsOnce(text, p, x);
      EntryHitsOnce(SearchHits(text, p), m[|m| - 1], text, x);
    }
  }

  // ---------------------------------------------------------------- collect_supported_files

  /** What one configured input is on disk: a file, a directory with the files below it, or neither. */
  datatype InputItem = FileInput(path: string) | DirInput(files: seq<string>) | OtherInput

  /** `{e.lower() for e in exts}` */
  function Lowered(exts: seq<string>): (r: set<string>)
    ensures forall e :: e in exts ==> LowerAscii(e) in r
    ensures forall x :: x in r ==> exists e :: e in exts && LowerAscii(e) == x
  {
    set e | e in exts :: LowerAscii(e)
  }

  /** A directory entry is kept when `os.path.splitext(name)[1].lower()` is supported. */
  predicate WalkedSupported(f: string, supported: set<string>) {
    LowerAscii(SplitExt(Basename(f)).1) in supported
  }

  /** A file input is kept when `item.suffix.lower()` is supported. */
  predicate FileSupported(supported: set<string>, f: string) {
    LowerAscii(PathSuffix(Basename(f))) in supported
  }

  /** The files one input contributes, in walk order. */
  function ItemFiles(item: InputItem, supported: set<string>): seq<string> {
    match item
    case FileInput(p) => if FileSupported(supported, p) then [p] else []
    case DirInput(fs) => Filter(fs, WalkedSupported, supported)
    case OtherInput => []
  }

  /** `results` before the final de-duplication: every input's files, input by input. */
  function Gathered(inputs: seq<InputItem>, supported: set<string>): seq<string> {
    FlatMap(inputs, ItemFiles, supported)
  }

  /** `collect_supported_files(inputs, exts)`: `sorted(set(...))` of the gathered files. */
  function CollectSupportedFiles(inputs: seq<InputItem>, exts: seq<string>): (r: seq<string>)
    ensures |r| <= |Gathered(inputs, Lowered(exts))|
  {
    SortedUnique(Gathered(inputs, Lowered(exts)))
  }

  /** Whether input `item` contributes `f`. */
  predicate Contributes(item: InputItem, supported: set<string>, f: string) {
    match item
    case FileInput(p) => f == p && FileSupported(supported, p)
    case DirInput(fs) => f in fs && WalkedSupported(f, supported)
    case OtherInput => false
  }

  lemma ItemFilesMembers(item: InputItem, supported: set<string>, f: string)
    ensures f in ItemFiles(item, supported) <==> Contributes(item, supported, f)
  {
  }

  /** A file is gathered exactly when some input contributes it. */
  lemma GatheredMembers(inputs: seq<InputItem>, supported: set<string>, f: string)
    ensures f in Gathered(inputs, supported) <==> exists i :: 0 <= i < |inputs| && Contributes(inputs[i], supported, f)
  {
    FlatMapMembers(inputs, ItemFiles, supported, f);
    forall i | 0 <= i < |inputs| {
      ItemFilesMembers(inputs[i], supported, f);
    }
  }

  /**
   * The collected list names every supported file of every input exactly once, in
   * strictly increasing code-point order: sorted and duplicate-free.
   */
  lemma CollectSupportedFilesSpec(inputs: seq<InputItem>, exts: seq<string>)
    ensures var r := CollectSupportedFiles(inputs, exts);
      && (forall f :: f in r <==> exists i :: 0 <= i < |inputs| && Contributes(inputs[i], Lowered(exts), f))
      && (forall i, j :: 0 <= i < j < |r| ==> StrLess(r[i], r[j]))
      && NoDup(r)
  {
    var g := Gathered(inputs, Lowered(exts));
    SortedUniqueFacts(g);
    SortedUniqueNoDup(g);
    forall f {
      GatheredMembers(inputs, Lowered(exts), f);
    }
  }

  // ---------------------------------------------------------------- copy naming

  /** `f"{stem}_{k}{suf}"` */
  function CopyName(stem: string, suffix: string, k: nat): string {
    stem + "_" + NatToString(k) + suffix
  }

  /** Different numbers give different names. */
  lemma CopyNameInjective(stem: string, suffix: string, j: nat, k: nat)
    requires CopyName(stem, suffix, j) == CopyName(stem, suffix, k)
    ensures j == k
  {
    var a := CopyName(stem, suffix, j);
    var n := |stem| + 1;
    assert |NatToString(j)| == |NatToString(k)|;
    assert NatToString(j) == a[n..n + |NatToString(j)|];
    assert NatToString(k) == CopyName(stem, suffix, k)[n..n + |NatToString(k)|];
    NatToStringInjective(j, k);
  }

  /** The numbered names already tried by the time `k` is tried. */
  ghost function Tried(stem: string, suffix: string, k: nat): set<string> {
    set j | 2 <= j < k :: CopyName(stem, suffix, j)
  }

  /** Trying a taken name leaves one taken name fewer untried. */
  lemma TriedStep(stem: string, suffix: string, existing: set<string>, k: nat)
    requires k >= 2 && CopyName(stem, suffix, k) in existing
    ensures |existing - Tried(stem, suffix, k + 1)| < |existing - Tried(stem, suffix, k)|
  {
    var c := CopyName(stem, suffix, k);
    assert Tried(stem, suffix, k + 1) == Tried(stem, suffix, k) + {c};
    if c in Tried(stem, suffix, k) {
      var j :| 2 <= j < k && CopyName(stem, suffix, j) == c;
      CopyNameInjective(stem, suffix, j, k);
    }
    assert existing - Tried(stem, suffix, k + 1) == (existing - Tried(stem, suffix, k)) - {c};
  }

  /**
   * The `while True` loop from `k`: the least number from `k` on whose name is free.
   * It ends because the names it tries are all different and only finitely many exist.
   */
  function FirstFree(stem: string, suffix: string, existing: set<string>, k: nat): (r: nat)
    requires k >= 2
    ensures r >= k && CopyName(stem, suffix, r) !in existing
    ensures forall j :: k <= j < r ==> CopyName(stem, suffix, j) in existing
    decreases |existing - Tried(stem, suffix, k)|
  {
    if CopyName(stem, suffix, k) !in existing then k
    else
      TriedStep(stem, suffix, existing, k);
      FirstFree(stem, suffix, existing, k + 1)
  }

  /**
   * The name the copy of file `name` gets in an output folder that already holds
   * `existing`: the name itself when free, else `stem_k + suffix` for the least
   * free `k >= 2`. The copy never overwrites a file.
   */
  function CopyDestination(name: string, existing: set<string>): (dst: string)
    ensures dst !in existing
    ensures name !in existing ==> dst == name
    ensures name in existing ==> exists k :: k >= 2 && dst == CopyName(PathStem(name), PathSuffix(name), k) &&
                                   forall j :: 2 <= j < k ==> CopyName(PathStem(name), PathSuffix(name), j) in existing
  {
    if name !in existing then name
    else CopyName(PathStem(name), PathSuffix(name), FirstFree(PathStem(name), PathSuffix(name), existing, 2))
  }

  /** The copy loop over the matched files' names: each copy lands under a free name, which it then takes. */
  function CopyAll(names: seq<string>, existing: set<string>): (dsts: seq<string>)
    ensures |dsts| == |names|
  {
    if names == [] then []
    else
      var dst := CopyDestination(names[0], existing);
      [dst] + CopyAll(names[1..], existing + {dst})
  }

  /** No copy overwrites a file that was there before, nor an earlier copy: the destinations are all different. */
  lemma {:induction false} CopyAllFresh(names: seq<string>, existing: set<string>)
    ensures var dsts := CopyAll(names, existing);
      NoDup(dsts) && forall i :: 0 <= i < |dsts| ==> dsts[i] !in existing
  {
    if names != [] {
      var dst := CopyDestination(names[0], existing);
      var rest := CopyAll(names[1..], existing + {dst});
      CopyAllFresh(names[1..], existing + {dst});
      var dsts := CopyAll(names, existing);
      assert dsts == [dst] + rest;
      assert forall i :: 0 <= i < |rest| ==> rest[i] != dst;
    }
  }
}

=== FILE: legacy_scanner.dfy ===
/**
 * `scanner.py`, the older top-level scanner. It shares the occurrence search, the
 * snippet window, the title rule and the bucket aggregation with the package
 * version; it differs in returning a single placeholder row for a document
 * without any match.
 */
module LegacyScanner {
  import opened Search
  import opened Roster
  import opened DocumentScanner

  /** `find_all_indices(text, sub)`: the loop, which yields exactly the greedy occurrence list. */
  method FindAllIndices(text: string, sub: string) returns (idxs: seq<nat>)
    ensures idxs == Occurrences(text, sub)
    ensures forall k :: 0 <= k < |idxs| ==> OccursAt(text, sub, idxs[k])
  {
    if sub == [] {
      return [];
    }
    idxs := [];
    var start := 0;
    while true
      invariant 0 <= start <= |text|
      invariant idxs + OccurrencesFrom(text, sub, start) == OccurrencesFrom(text, sub, 0)
      decreases |text| - start
    {
      var idx := Find(text, sub, start);
      if idx == -1 {
        assert OccurrencesFrom(text, sub, start) == [];
        break;
      }
      ghost var rest := OccurrencesFrom(text, sub, idx + |sub|);
      assert OccurrencesFrom(text, sub, start) == [idx] + rest;
      assert (idxs + [idx]) + rest == idxs + ([idx] + rest);
      idxs := idxs + [idx];
      start := idx + |sub|;
    }
  }

  /** `_empty_row(path, activity)`: the "not matched" placeholder with count 0. */
  function EmptyRow(path: string, activity: string): (r: Row)
    ensures r.status == StatusNoMatch && r.count == 0
    ensures r.matchType == "" && r.matchValue == "" && r.studentId == "" && r.studentName == "" && r.snippet == ""
  {
    Row(path, activity, StatusNoMatch, "", "", "", "", "", 0)
  }

  /**
   * `scan_document(document, roster, class_tags)`: the rows of the package scanner,
   * or exactly one placeholder row when there are none.
   */
  function ScanDocument(doc: Document, dir: Directory, order: seq<string>, classTags: seq<string>, classLabel: string): (r: seq<Row>)
    ensures |r| >= 1
    ensures var rows := DocumentScanner.ScanDocument(doc, dir, order, classTags, classLabel);
      && (rows == [] ==> r == [EmptyRow(doc.path, doc.activity)])
      && (rows != [] ==> r == rows)
  {
    var rows := DocumentScanner.ScanDocument(doc, dir, order, classTags, classLabel);
    if rows == [] then [EmptyRow(doc.path, doc.activity)] else rows
  }

  /** The placeholder appears exactly when the document has no id, name or class-tag occurrence. */
  lemma PlaceholderIff(doc: Document, dir: Directory, order: seq<string>, classTags: seq<string>, classLabel: string)
    ensures ScanDocument(doc, dir, order, classTags, classLabel) == [EmptyRow(doc.path, doc.activity)] <==>
      StudentHits(doc, dir, order) == [] && ClassRows(doc, classTags, classLabel) == []
    ensures ScanDocument(doc, dir, order, classTags, classLabel) == [EmptyRow(doc.path, doc.activity)] <==>
      NoIdOccurs(doc.text, dir.idToName) && NoNameOccurs(doc.text, order) && NoTagOccurs(doc.text, classTags)
  {
    ScanEmptyIff(doc, dir, order, classTags, classLabel);
    var rows := DocumentScanner.ScanDocument(doc, dir, order, classTags, classLabel);
    if rows != [] {
      assert rows[0].status == StatusOk != StatusNoMatch;
    }
  }
}

=== FILE: parallel_reader.dfy ===
/**
 * The stand-alone concurrent PDF reader `parallel_pdf_reader.py`: which PDF paths it
 * collects from the given files and directories, how many workers it asks for, and
 * the summary it prints once the concurrent extraction has returned.
 */
module ParallelReader {
  import opened Wrappers
  import opened Strings
  import opened Seqs
  import opened Dicts
  import opened Paths
  import opened Sorting
  import opened Concurrency

  // ---------------------------------------------------------------- collect_pdf_paths

  /** What one command-line path is on disk: a file, a directory with every path below it, or neither. */
  datatype InputPath = FilePath(path: string) | DirPath(below: seq<string>) | MissingPath

  const PdfSuffix: string := ".pdf"

  /** A file argument is kept when `p.suffix.lower() == ".pdf"`. */
  predicate FileIsPdf(p: string) {
    LowerAscii(PathSuffix(Basename(p))) == PdfSuffix
  }

  /**
   * `p.rglob("*.pdf")` keeps the paths below a directory whose name ends in ".pdf";
   * whether the glob ignores letter case is the platform's choice (`caseSensitive`).
   */
  predicate MatchesPdfGlob(f: string, caseSensitive: bool) {
    var n := Basename(f);
    |n| >= |PdfSuffix| &&
    (if caseSensitive then n[|n| - |PdfSuffix|..] else LowerAscii(n[|n| - |PdfSuffix|..])) == PdfSuffix
  }

  /** The PDF paths one input contributes. */
  function InputPdfs(item: InputPath, caseSensitive: bool): seq<string> {
    match item
    case FilePath(p) => if FileIsPdf(p) then [p] else []
    case DirPath(below) => Filter(below, MatchesPdfGlob, caseSensitive)
    case MissingPath => []
  }

  /** `collect_pdf_paths(inputs)`: `sorted(set(result))` of every input's PDF paths. */
  function CollectPdfPaths(inputs: seq<InputPath>, caseSensitive: bool): (r: seq<string>)
    ensures |r| <= |FlatMap(inputs, InputPdfs, caseSensitive)|
  {
    SortedUnique(FlatMap(inputs, InputPdfs, caseSensitive))
  }

  /** Whether input `item` contributes the path `f`. */
  predicate Yields(item: InputPath, caseSensitive: bool, f: string) {
    match item
    case FilePath(p) => f == p && FileIsPdf(p)
    case DirPath(below) => f in below && MatchesPdfGlob(f, caseSensitive)
    case MissingPath => false
  }

  lemma InputPdfsMembers(item: InputPath, caseSensitive: bool, f: string)
    ensures f in InputPdfs(item, caseSensitive) <==> Yields(item, caseSensitive, f)
  {
  }

  /**
   * The collected list holds every PDF path of every input exactly once, in strictly
   * increasing code-point order; a missing path contributes nothing.
   */
  lemma CollectPdfPathsSpec(inputs: seq<InputPath>, caseSensitive: bool)
    ensures var r := CollectPdfPaths(inputs, caseSensitive);
      && (forall f :: f in r <==> exists i :: 0 <= i < |inputs| && Yields(inputs[i], caseSensitive, f))
      && (forall i, j :: 0 <= i < j < |r| ==> StrLess(r[i], r[j]))
      && NoDup(r)
  {
    var r := CollectPdfPaths(inputs, caseSensitive);
    SortedUniqueFacts(FlatMap(inputs, InputPdfs, caseSensitive));
    forall f ensures f in r <==> exists i :: 0 <= i < |inputs| && Yields(inputs[i], caseSensitive, f) {
      FlatMapMembers(inputs, InputPdfs, caseSensitive, f);
      forall i | 0 <= i < |inputs| {
        InputPdfsMembers(inputs[i], caseSensitive, f);
      }
    }
    SortedUniqueNoDup(FlatMap(inputs, InputPdfs, caseSensitive));
  }

  lemma LowerPdf()
    ensures LowerAscii(".PDF") == PdfSuffix
  {
    var l := LowerAscii(".PDF");
    assert l[0] == '.' && l[1] == 'p' && l[2] == 'd' && l[3] == 'f';
  }

  /** "scan.PDF" named on the command line is a PDF: the suffix test ignores case. */
  lemma FileSuffixIgnoresCase()
    ensures FileIsPdf("d/scan.PDF")
  {
    assert Basename("d/scan.PDF") == "scan.PDF" by {
      assert "d/scan.PDF" == "d" + "/scan.PDF";
      LastIndexAppend("d", "/scan.PDF", Sep);
    }
    assert PathSuffix("scan.PDF") == ".PDF" by {
      assert "scan.PDF" == "scan" + ".PDF";
      LastIndexAppend("scan", ".PDF", ExtSep);
    }
    LowerPdf();
  }

  /** The same name found below a directory is matched only where the glob ignores case. */
  lemma GlobCaseIsPlatformDependent()
    ensures !MatchesPdfGlob("d/scan.PDF", true)
    ensures MatchesPdfGlob("d/scan.PDF", false)
  {
    assert Basename("d/scan.PDF") == "scan.PDF" by {
      assert "d/scan.PDF" == "d" + "/scan.PDF";
      LastIndexAppend("d", "/scan.PDF", Sep);
    }
    assert "scan.PDF"[4..] == ".PDF";
    LowerPdf();
  }

  /** A directory entry named ".pdf" matches the glob, although as a file argument it has no suffix. */
  lemma DotPdfName()
    ensures MatchesPdfGlob("d/.pdf", true)
    ensures !FileIsPdf("d/.pdf")
  {
    assert Basename("d/.pdf") == ".pdf" by {
      assert "d/.pdf" == "d" + "/.pdf";
      LastIndexAppend("d", "/.pdf", Sep);
    }
    assert LastIndexOfChar(".pdf", ExtSep) == 0 by {
      assert ".pdf" == "" + ".pdf";
      LastIndexAppend("", ".pdf", ExtSep);
    }
  }

  // ---------------------------------------------------------------- run

  /** `workers if (workers and workers > 0) else calibrate_pdf_workers()` */
  function WorkerChoice(workers: Option<int>, calibrated: int): (w: int)
    ensures workers.Some? && workers.value > 0 ==> w == workers.value
    ensures workers.None? || workers.value <= 0 ==> w == calibrated
  {
    if workers.Some? && workers.value > 0 then workers.value else calibrated
  }

  /** How the concurrent extraction came back: its two maps, or an exception (a missing dependency included). */
  datatype Extraction = Extracted(texts: Dict<string, string>, errors: Dict<string, string>) | ExtractionRaised(message: string)

  /** The printed summary. */
  datatype Summary = Summary(total: nat, success: nat, errors: nat)

  /** `run` ends with an exit code and, after a completed extraction, a summary. */
  datatype RunResult = RunResult(exitCode: int, summary: Option<Summary>)

  /** `texts.get(p, "").strip()` is truthy. */
  predicate HasText(p: string, texts: Dict<string, string>) {
    !IsBlank(Get(texts, p).GetOr(""))
  }

  /** `p in errors` */
  predicate HasError(p: string, errors: Dict<string, string>) {
    Get(errors, p).Some?
  }

  function SuccessCount(pdfs: seq<string>, texts: Dict<string, string>): nat {
    |Filter(pdfs, HasText, texts)|
  }

  function ErrorCount(pdfs: seq<string>, errors: Dict<string, string>): nat {
    |Filter(pdfs, HasError, errors)|
  }

  /**
   * `run(paths, workers, timeout)` after the collection: exit 0 without extracting
   * when there is no PDF, exit 1 when the extraction raised, else exit 0 with the
   * counts of PDFs with text and with an error.
   */
  function Run(pdfs: seq<string>, extraction: Extraction): (r: RunResult)
    ensures pdfs == [] ==> r == RunResult(0, None)
    ensures pdfs != [] && extraction.ExtractionRaised? ==> r == RunResult(1, None)
    ensures r.summary.Some? ==>
      r.exitCode == 0 && r.summary.value.total == |pdfs| &&
      r.summary.value.success <= |pdfs| && r.summary.value.errors <= |pdfs|
  {
    if pdfs == [] then RunResult(0, None)
    else match extraction
      case ExtractionRaised(_) => RunResult(1, None)
      case Extracted(texts, errors) =>
        RunResult(0, Some(Summary(|pdfs|, SuccessCount(pdfs, texts), ErrorCount(pdfs, errors))))
  }

  /** A worker result that counts either as a success or as an error, never both and never neither. */
  predicate Decided(res: ExtractionResult) {
    Truthy(res.error) != !IsBlank(res.text)
  }

  /** Every worker result is decided, unless the reader raised an exception with an empty message. */
  lemma ExtractSingleDecided(path: string, outcome: ReadOutcome)
    requires outcome != ReadRaised("")
    ensures Decided(ExtractSingle(path, outcome))
  {
    if outcome.ReadRaised? {
      assert IsBlank("");
    }
  }

  /** An exception with an empty message gives a falsy error and no text: the path counts nowhere. */
  lemma EmptyMessageCountsNowhere(path: string)
    ensures var res := ExtractSingle(path, ReadRaised(""));
      var (texts, errors) := CollectAll([Finished(path, res)]);
      !HasText(path, texts) && !HasError(path, errors)
  {
    var res := ExtractSingle(path, ReadRaised(""));
    CollectAllOutcome([Finished(path, res)], 0);
    assert IsBlank("");
  }

  /** Two filters that split every element between them count all elements. */
  lemma {:induction false} FilterSplit<P, Q>(s: seq<string>, a: (string, P) -> bool, p: P, b: (string, Q) -> bool, q: Q)
    requires forall i :: 0 <= i < |s| ==> a(s[i], p) != b(s[i], q)
    ensures |Filter(s, a, p)| + |Filter(s, b, q)| == |s|
  {
    if s != [] {
      var init := s[..|s| - 1];
      var x := s[|s| - 1];
      assert s == init + [x];
      FilterSnoc(init, x, a, p);
      FilterSnoc(init, x, b, q);
      assert forall i :: 0 <= i < |init| ==> init[i] == s[i];
      FilterSplit(init, a, p, b, q);
    }
  }

  /** A path whose one completion is decided is counted exactly once. */
  lemma CountedOnce(cs: seq<Completion>, i: int)
    requires 0 <= i < |cs|
    requires forall j :: 0 <= j < |cs| && j != i ==> cs[j].path != cs[i].path
    requires cs[i].Finished? ==> Decided(cs[i].result)
    ensures HasText(cs[i].path, CollectAll(cs).0) != HasError(cs[i].path, CollectAll(cs).1)
  {
    CollectAllOutcome(cs, i);
    if cs[i].Failed? {
      assert IsBlank("");
    }
  }

  /** The completion paths of a run over duplicate-free `pdfs` are duplicate-free too. */
  lemma CompletedDistinct(pdfs: seq<string>, cs: seq<Completion>, i: int, j: int)
    requires NoDup(pdfs) && multiset(CompletedPaths(cs)) == multiset(pdfs)
    requires 0 <= i < j < |cs|
    ensures cs[i].path != cs[j].path
  {
    var ps := CompletedPaths(cs);
    if cs[i].path == cs[j].path {
      MultisetTwice(ps, i, j);
      DistinctMultiplicity(pdfs, ps[i]);
    }
  }

  /**
   * When every PDF completes exactly once (completion order arbitrary) and no worker
   * result is left undecided, the summary's successes and errors add up to the total.
   */
  lemma SummaryAddsUp(pdfs: seq<string>, cs: seq<Completion>)
    requires pdfs != [] && NoDup(pdfs)
    requires multiset(CompletedPaths(cs)) == multiset(pdfs)
    requires forall i :: 0 <= i < |cs| && cs[i].Finished? ==> Decided(cs[i].result)
    ensures var r := Run(pdfs, Extracted(ExtractConcurrently(pdfs, cs).0, ExtractConcurrently(pdfs, cs).1));
      r.summary.Some? && r.summary.value.success + r.summary.value.errors == r.summary.value.total
  {
    var (texts, errors) := CollectAll(cs);
    var ps := CompletedPaths(cs);
    forall k | 0 <= k < |pdfs| ensures HasText(pdfs[k], texts) != HasError(pdfs[k], errors) {
      assert pdfs[k] in multiset(ps);
      var i :| 0 <= i < |ps| && ps[i] == pdfs[k];
      forall j | 0 <= j < |cs| && j != i ensures cs[j].path != cs[i].path {
        if j < i {
          CompletedDistinct(pdfs, cs, j, i);
        } else {
          CompletedDistinct(pdfs, cs, i, j);
        }
      }
      CountedOnce(cs, i);
    }
    FilterSplit(pdfs, HasText, texts, HasError, errors);
  }
}

=== FILE: paths.dfy ===
/**
 * Path-string helpers with posix semantics (`/` is the only separator):
 * `os.path.basename`, `os.path.dirname`, `os.path.splitext`, and pathlib's
 * `PurePath.suffix` / `PurePath.stem` on a file name.
 */
module Paths {

  const Sep: char := '/'
  const ExtSep: char := '.'

  /** `s.rfind(c)`: the last index of `c`, or -1. */
  function LastIndexOfChar(s: string, c: char): (j: int)
    ensures -1 <= j < |s|
    ensures j >= 0 ==> s[j] == c
    ensures forall k :: j < k < |s| ==> s[k] != c
  {
    if s == [] then -1
    else if s[|s| - 1] == c then |s| - 1
    else LastIndexOfChar(s[..|s| - 1], c)
  }

  /** `os.path.basename(p)`: the text after the last separator. */
  function Basename(p: string): (r: string)
    ensures Sep !in r
    ensures |r| <= |p| && r == p[|p| - |r|..]
    ensures |r| < |p| ==> p[|p| - |r| - 1] == Sep
  {
    var i := LastIndexOfChar(p, Sep) + 1;
    assert forall k :: 0 <= k < |p[i..]| ==> p[i..][k] == p[i + k];
    p[i..]
  }

  predicate AllSeps(s: string) {
    forall k :: 0 <= k < |s| ==> s[k] == Sep
  }

  /** `s.rstrip("/")` */
  function TrimSeps(s: string): (r: string)
    ensures |r| <= |s| && r == s[..|r|]
    ensures AllSeps(s[|r|..])
    ensures |r| > 0 ==> r[|r| - 1] != Sep
  {
    if |s| > 0 && s[|s| - 1] == Sep then TrimSeps(s[..|s| - 1]) else s
  }

  /**
   * `os.path.dirname(p)`: everything up to the last separator, with trailing
   * separators dropped unless the head consists of separators only.
   */
  function Dirname(p: string): (r: string)
    ensures |r| <= |p| && r == p[..|r|]
    ensures Sep !in p ==> r == []
    ensures |r| > 0 && !AllSeps(r) ==> r[|r| - 1] != Sep
  {
    var i := LastIndexOfChar(p, Sep) + 1;
    var head := p[..i];
    if head != [] && !AllSeps(head) then TrimSeps(head) else head
  }

  /** The final path component's parent directory name: `basename(dirname(p))`. */
  function ParentName(p: string): (r: string)
    ensures Sep !in r
  {
    Basename(Dirname(p))
  }

  /** Some character of `s[lo..hi]` is not a dot. */
  predicate HasNonDot(s: string, lo: int, hi: int)
    requires 0 <= lo <= hi <= |s|
  {
    exists k :: lo <= k < hi && s[k] != ExtSep
  }

  /**
   * `os.path.splitext(p)`: the extension starts at the last dot of the last
   * component, provided that component has a non-dot character before it.
   */
  function SplitExt(p: string): (r: (string, string))
    ensures r.0 + r.1 == p
    ensures r.1 != [] ==> r.1[0] == ExtSep && ExtSep !in r.1[1..] && Sep !in r.1
    ensures r.1 != [] ==> exists k :: |p| - |Basename(p)| <= k < |r.0| && p[k] != ExtSep
  {
    var sepIndex := LastIndexOfChar(p, Sep);
    var dotIndex := LastIndexOfChar(p, ExtSep);
    if dotIndex > sepIndex && HasNonDot(p, sepIndex + 1, dotIndex) then
      assert p[..dotIndex] + p[dotIndex..] == p;
      assert forall k :: 1 <= k < |p[dotIndex..]| ==> p[dotIndex..][k] == p[dotIndex + k];
      (p[..dotIndex], p[dotIndex..])
    else
      (p, [])
  }

  /** `PurePath(name).suffix`: from the last dot, when it is neither first nor last. */
  function PathSuffix(name: string): (r: string)
    ensures r != [] ==> r[0] == ExtSep && ExtSep !in r[1..] && |r| >= 2
    ensures |r| <= |name| && r == name[|name| - |r|..]
    ensures r != [] ==> |r| < |name|
  {
    var i := LastIndexOfChar(name, ExtSep);
    if 0 < i < |name| - 1 then
      assert forall k :: 1 <= k < |name[i..]| ==> name[i..][k] == name[i + k];
      name[i..]
    else []
  }

  /** `PurePath(name).stem`: the name without its suffix. */
  function PathStem(name: string): (r: string)
    ensures r + PathSuffix(name) == name
  {
    var s := PathSuffix(name);
    name[..|name| - |s|]
  }

  /** The last `c` of `a + b`: in `b` when `b` has one, else the last one of `a`. */
  lemma LastIndexAppend(a: string, b: string, c: char)
    requires |b| >= 1 && c !in b[1..]
    ensures b[0] == c ==> LastIndexOfChar(a + b, c) == |a|
    ensures c !in b ==> LastIndexOfChar(a + b, c) == LastIndexOfChar(a, c)
  {
    var p := a + b;
    if b[0] == c {
      assert p[|a|] == c;
      assert forall k :: |a| < k < |p| ==> p[k] == b[1..][k - |a| - 1];
    } else if c !in b {
      assert forall k :: |a| <= k < |p| ==> p[k] == b[k - |a|];
      LastIndexPrefix(p, |a|, c);
      assert p[..|a|] == a;
    }
  }

  /** When no `c` lies at or after `n`, the last `c` of `s` is the last one of `s[..n]`. */
  lemma {:induction false} LastIndexPrefix(s: string, n: nat, c: char)
    requires n <= |s| && forall k :: n <= k < |s| ==> s[k] != c
    ensures LastIndexOfChar(s, c) == LastIndexOfChar(s[..n], c)
  {
    if n < |s| {
      assert s[..|s| - 1][..n] == s[..n];
      LastIndexPrefix(s[..|s| - 1], n, c);
    } else {
      assert s[..n] == s;
    }
  }
}

=== FILE: pdf_cascade.dfy ===
/**
 * `text_extractors/pdf_reader.py`: `extract_text_from_pdf`, an ordered cascade of
 * extraction stages — pdfplumber, PyMuPDF, an ocrmypdf round trip read by both,
 * then pytesseract — that returns the first non-blank text and registers the path
 * as failed only when every stage came back blank. Each library call is replaced
 * by its outcome: page texts, a missing tool, or an exception.
 */
module PdfCascade {
  import opened Wrappers
  import opened Strings
  import opened PdfReader

  /** The non-blank texts among `texts`, unstripped, in order. */
  function NonBlank(texts: seq<string>): (r: seq<string>)
    ensures |r| <= |texts|
    ensures forall i :: 0 <= i < |r| ==> !IsBlank(r[i])
  {
    if texts == [] then []
    else
      var last := texts[|texts| - 1];
      NonBlank(texts[..|texts| - 1]) + (if IsBlank(last) then [] else [last])
  }

  /** A text is kept exactly when it is one of the inputs and is not blank. */
  lemma {:induction false} NonBlankMembers(texts: seq<string>, x: string)
    ensures x in NonBlank(texts) <==> x in texts && !IsBlank(x)
  {
    if texts != [] {
      var p := texts[..|texts| - 1];
      NonBlankMembers(p, x);
      assert texts == p + [texts[|texts| - 1]];
    }
  }

  /** Nothing is kept exactly when every input is blank. */
  lemma {:induction false} NonBlankEmpty(texts: seq<string>)
    ensures NonBlank(texts) == [] <==> forall i :: 0 <= i < |texts| ==> IsBlank(texts[i])
  {
    if texts != [] {
      var p := texts[..|texts| - 1];
      NonBlankEmpty(p);
      assert forall i :: 0 <= i < |p| ==> p[i] == texts[i];
    }
  }

  /** `"\n".join(texts)` over the pages whose text is not blank. */
  function JoinedText(texts: seq<string>): (r: string)
    ensures IsBlank(r) <==> forall i :: 0 <= i < |texts| ==> IsBlank(texts[i])
  {
    NonBlankEmpty(texts);
    JoinBlankIff(NonBlank(texts), "\n");
    Join(NonBlank(texts), "\n")
  }

  /** The text of every page, an exception read as "". */
  function PageStrings(pages: seq<PageRead>): (r: seq<string>)
    ensures |r| == |pages|
    ensures forall i :: 0 <= i < |pages| ==> r[i] == PageString(pages[i])
  {
    seq(|pages|, i requires 0 <= i < |pages| => PageString(pages[i]))
  }

  /** What pdfplumber does with a file: page texts (a page that raises reads as ""), or an exception out of `open`. */
  datatype PlumberOutcome = PlumberPages(pages: seq<PageRead>) | PlumberRaised

  /**
   * `_try_pdfplumber(path)`: the non-blank page texts joined by newlines, or None
   * when the call raises.
   */
  function TryPlumber(o: PlumberOutcome): (r: Option<string>)
    ensures r.None? <==> o.PlumberRaised?
    ensures r.Some? ==> (IsBlank(r.value) <==> forall i :: 0 <= i < |o.pages| ==> IsBlank(PageString(o.pages[i])))
  {
    match o
    case PlumberRaised => None
    case PlumberPages(pages) => Some(JoinedText(PageStrings(pages)))
  }

  /** One PyMuPDF page: its text (a missing text is ""), and whether it holds images or drawings. */
  datatype MuPage = MuPage(text: string, hasImages: bool, hasDrawings: bool)

  /**
   * What PyMuPDF does with a file: unavailable (the import or `fitz.open` fails),
   * its pages, or an exception while reading them.
   */
  datatype MuOutcome = MuUnavailable | MuPages(pages: seq<MuPage>) | MuRaised

  /** The triple `_try_pymupdf` returns, or the exception it lets through. */
  datatype MuResult = MuReturned(text: string, imageHeavy: bool, ok: bool) | MuException

  /** A blank page that holds images or drawings: `image_pages` counts these. */
  predicate ImagePage(p: MuPage) {
    IsBlank(p.text) && (p.hasImages || p.hasDrawings)
  }

  /** `image_pages` after the page loop. */
  function ImagePages(pages: seq<MuPage>): (n: nat)
    ensures n <= |pages|
  {
    if pages == [] then 0
    else ImagePages(pages[..|pages| - 1]) + (if ImagePage(pages[|pages| - 1]) then 1 else 0)
  }

  /** Some page is counted exactly when some page is a blank page with images or drawings. */
  lemma {:induction false} ImagePagesPositive(pages: seq<MuPage>)
    ensures ImagePages(pages) > 0 <==> exists i :: 0 <= i < |pages| && ImagePage(pages[i])
  {
    if pages != [] {
      var p := pages[..|pages| - 1];
      ImagePagesPositive(p);
      if ImagePages(p) > 0 {
        var i :| 0 <= i < |p| && ImagePage(p[i]);
        assert pages[i] == p[i];
      } else if !ImagePage(pages[|pages| - 1]) {
        forall i | 0 <= i < |pages| ensures !ImagePage(pages[i]) {
          if i < |p| {
            assert pages[i] == p[i];
          }
        }
      }
    }
  }

  function MuTexts(pages: seq<MuPage>): (r: seq<string>)
    ensures |r| == |pages|
    ensures forall i :: 0 <= i < |pages| ==> r[i] == pages[i].text
  {
    seq(|pages|, i requires 0 <= i < |pages| => pages[i].text)
  }

  /**
   * `_try_pymupdf(path)`: ("", False, False) when PyMuPDF is unavailable; otherwise
   * the non-blank page texts joined by newlines, the image-heavy flag and True.
   */
  function TryMuPdf(o: MuOutcome): (r: MuResult)
    ensures o.MuUnavailable? ==> r == MuReturned("", false, false)
    ensures r.MuException? <==> o.MuRaised?
    ensures o.MuPages? ==> r.MuReturned? && r.ok
    ensures o.MuPages? ==> (IsBlank(r.text) <==> forall i :: 0 <= i < |o.pages| ==> IsBlank(o.pages[i].text))
    ensures o.MuPages? ==> (r.imageHeavy <==>
      (forall i :: 0 <= i < |o.pages| ==> IsBlank(o.pages[i].text)) &&
      (exists i :: 0 <= i < |o.pages| && (o.pages[i].hasImages || o.pages[i].hasDrawings)))
  {
    match o
    case MuUnavailable => MuReturned("", false, false)
    case MuRaised => MuException
    case MuPages(pages) =>
      var texts := MuTexts(pages);
      NonBlankEmpty(texts);
      ImagePagesPositive(pages);
      MuReturned(JoinedText(texts), NonBlank(texts) == [] && ImagePages(pages) > 0, true)
  }

  /**
   * Whether the ocrmypdf tool is absent, its temporary file cannot be created (the
   * exception escapes, since the creation is outside any `try`), the tool runs and
   * fails, or it writes the OCR'd copy.
   */
  datatype ToolOutcome = ToolAbsent | TempFailed | ToolFailed | ToolProduced

  /**
   * What pytesseract does: unavailable (an import or `fitz.open` fails), the text
   * of every rendered page (a page whose recognition raises reads as ""), or an
   * exception while rendering.
   */
  datatype TessOutcome = TessUnavailable | TessPages(pages: seq<PageRead>) | TessRaised

  /** `_ocr_with_pytesseract(path)`: the non-blank page texts joined by newlines, or None when it raises. */
  function TryTesseract(o: TessOutcome): (r: Option<string>)
    ensures r.None? <==> o.TessRaised?
    ensures o.TessUnavailable? ==> r == Some("")
    ensures o.TessPages? ==> (IsBlank(r.value) <==> forall i :: 0 <= i < |o.pages| ==> IsBlank(PageString(o.pages[i])))
  {
    match o
    case TessUnavailable => Some("")
    case TessRaised => None
    case TessPages(pages) => Some(JoinedText(PageStrings(pages)))
  }

  /**
   * The outcome of every library call the cascade may make: the two direct readers
   * on the file, the ocrmypdf tool, the two readers on the OCR'd copy, and pytesseract.
   */
  datatype Stages = Stages(
    plumber: PlumberOutcome,
    mu: MuOutcome,
    tool: ToolOutcome,
    ocrPlumber: PlumberOutcome,
    ocrMu: MuOutcome,
    tess: TessOutcome)

  /**
   * The observable steps of the cascade, in the order they happen. `TempUnlinked` is
   * the attempt to unlink the OCR'd copy; an error of the unlink itself is swallowed,
   * so the step says the removal was tried, not that it succeeded.
   */
  datatype Step = Plumber | MuPdf | OcrTool | TempCreated | TempUnlinked | OcrPlumber | OcrMuPdf | Tesseract

  /**
   * The result of `extract_text_from_pdf`: the text, the registry of failed PDFs
   * after the call and the steps taken, or an exception escaping with its steps.
   */
  datatype Outcome = Returned(text: string, failed: set<string>, steps: seq<Step>) | Raised(steps: seq<Step>)

  /** A stage result that ends the cascade with its text. */
  predicate Usable(t: Option<string>) {
    t.Some? && !IsBlank(t.value)
  }

  /** `extract_text_from_pdf(path)` with the registry `failed` before the call. */
  function ExtractTextFromPdf(path: string, st: Stages, failed: set<string>): (r: Outcome) {
    var p := TryPlumber(st.plumber);
    if Usable(p) then Returned(p.value, failed, [Plumber])
    else
      var m := TryMuPdf(st.mu);
      if m.MuReturned? && !IsBlank(m.text) then Returned(m.text, failed, [Plumber, MuPdf])
      else
        var txt2 := if m.MuReturned? then m.text else "";
        var imageHeavy := m.MuReturned? && m.imageHeavy;
        var ok := m.MuReturned? && m.ok;
        if IsBlank(txt2) || imageHeavy || !ok then OcrFileStage(path, st, failed, [Plumber, MuPdf])
        else TesseractStage(path, st.tess, failed, [Plumber, MuPdf])
  }

  /**
   * The ocrmypdf stage: run the tool; on success read the OCR'd copy with
   * pdfplumber (its exceptions swallowed) and then PyMuPDF (its exceptions escape),
   * removing the copy on every way out. A failed run removes its own temporary file;
   * a temporary file that cannot be created raises before anything is written.
   */
  function OcrFileStage(path: string, st: Stages, failed: set<string>, steps: seq<Step>): (r: Outcome) {
    match st.tool
    case ToolAbsent => TesseractStage(path, st.tess, failed, steps + [OcrTool])
    case TempFailed => Raised(steps + [OcrTool])
    case ToolFailed => TesseractStage(path, st.tess, failed, steps + [OcrTool, TempCreated, TempUnlinked])
    case ToolProduced =>
      var t := TryPlumber(st.ocrPlumber);
      var read := steps + [OcrTool, TempCreated, OcrPlumber];
      if Usable(t) then Returned(t.value, failed, read + [TempUnlinked])
      else
        var t2 := TryMuPdf(st.ocrMu);
        if t2.MuException? then Raised(read + [OcrMuPdf, TempUnlinked])
        else if !IsBlank(t2.text) then Returned(t2.text, failed, read + [OcrMuPdf, TempUnlinked])
        else TesseractStage(path, st.tess, failed, read + [OcrMuPdf, TempUnlinked])
  }

  /** The last stage: pytesseract (its exceptions swallowed), then registration of the failure. */
  function TesseractStage(path: string, tess: TessOutcome, failed: set<string>, steps: seq<Step>): (r: Outcome) {
    var t3 := TryTesseract(tess);
    if Usable(t3) then Returned(t3.value, failed, steps + [Tesseract])
    else Returned("", failed + {path}, steps + [Tesseract])
  }

  /** What one attempt gave: a text (a swallowed exception gives ""), or an exception that escapes. */
  datatype Attempt = Gave(text: string) | Threw

  /** The text an attempt with PyMuPDF gives when its exception is swallowed. */
  function MuText(m: MuResult): string {
    if m.MuReturned? then m.text else ""
  }

  /**
   * The attempts in cascade order: pdfplumber, PyMuPDF, the two readers on the
   * OCR'd copy when ocrmypdf produced one (or the exception of its temporary file),
   * and pytesseract.
   */
  function Attempts(st: Stages): seq<Attempt> {
    var ocrCopy :=
      if st.tool.ToolProduced? then
        [Gave(TryPlumber(st.ocrPlumber).GetOr("")), OcrMuAttempt(st)]
      else if st.tool.TempFailed? then [Threw]
      else [];
    [Gave(TryPlumber(st.plumber).GetOr("")), Gave(MuText(TryMuPdf(st.mu)))] + ocrCopy + [Gave(TryTesseract(st.tess).GetOr(""))]
  }

  /** An attempt that ends the cascade: an escaping exception or a non-blank text. */
  predicate Decisive(a: Attempt) {
    a.Threw? || !IsBlank(a.text)
  }

  /** The first decisive attempt, if any. */
  function FirstDecisive(attempts: seq<Attempt>): (r: Option<Attempt>)
    ensures r.Some? ==> r.value in attempts && Decisive(r.value)
    ensures r.None? <==> forall i :: 0 <= i < |attempts| ==> !Decisive(attempts[i])
  {
    if attempts == [] then None
    else if Decisive(attempts[0]) then Some(attempts[0])
    else
      var rest := FirstDecisive(attempts[1..]);
      assert forall i :: 1 <= i < |attempts| ==> attempts[i] == attempts[1..][i - 1];
      rest
  }

  /**
   * The outcome `r` is what the first decisive attempt `d` calls for: its text
   * with the registry unchanged, its exception escaping, or, when there is none,
   * "" with the path added to the registry.
   */
  predicate Agrees(r: Outcome, d: Option<Attempt>, path: string, failed: set<string>) {
    && (d.None? <==> r.Returned? && r.text == "" && r.failed == failed + {path})
    && (d == Some(Threw) <==> r.Raised?)
    && (d.Some? && d.value.Gave? ==> r.Returned? && r.text == d.value.text && r.failed == failed)
  }

  /** An attempt that does not decide the cascade is skipped. */
  lemma FirstDecisiveSkip(a: Attempt, rest: seq<Attempt>)
    requires !Decisive(a)
    ensures FirstDecisive([a] + rest) == FirstDecisive(rest)
  {
    assert ([a] + rest)[1..] == rest;
  }

  lemma TesseractStageAgrees(path: string, tess: TessOutcome, failed: set<string>, steps: seq<Step>)
    ensures Agrees(TesseractStage(path, tess, failed, steps), FirstDecisive([Gave(TryTesseract(tess).GetOr(""))]), path, failed)
  {
    assert [Gave(TryTesseract(tess).GetOr(""))][1..] == [];
  }

  /** What PyMuPDF reading the OCR'd copy gives to the cascade. */
  function OcrMuAttempt(st: Stages): Attempt {
    var t2 := TryMuPdf(st.ocrMu);
    if t2.MuException? then Threw else Gave(t2.text)
  }

  /** Once pdfplumber found the OCR'd copy blank, the rest of the stage follows PyMuPDF and then pytesseract. */
  lemma OcrMuAgrees(path: string, st: Stages, failed: set<string>, steps: seq<Step>)
    requires st.tool.ToolProduced? && !Usable(TryPlumber(st.ocrPlumber))
    ensures Agrees(OcrFileStage(path, st, failed, steps),
      FirstDecisive([OcrMuAttempt(st), Gave(TryTesseract(st.tess).GetOr(""))]), path, failed)
  {
    var tess := [Gave(TryTesseract(st.tess).GetOr(""))];
    var u := OcrMuAttempt(st);
    assert [u, tess[0]] == [u] + tess;
    if !Decisive(u) {
      FirstDecisiveSkip(u, tess);
      TesseractStageAgrees(path, st.tess, failed, steps + [OcrTool, TempCreated, OcrPlumber] + [OcrMuPdf, TempUnlinked]);
    }
  }

  /** The reads of the OCR'd copy return what their attempts call for. */
  lemma OcrCopyAgrees(path: string, st: Stages, failed: set<string>, steps: seq<Step>)
    requires st.tool.ToolProduced?
    ensures Agrees(OcrFileStage(path, st, failed, steps), FirstDecisive(Attempts(st)[2..]), path, failed)
  {
    var t := Gave(TryPlumber(st.ocrPlumber).GetOr(""));
    var rest := [OcrMuAttempt(st), Gave(TryTesseract(st.tess).GetOr(""))];
    assert Attempts(st)[2..] == [t] + rest;
    if !Decisive(t) {
      FirstDecisiveSkip(t, rest);
      OcrMuAgrees(path, st, failed, steps);
    }
  }

  /** The ocrmypdf stage returns what its own attempts call for. */
  lemma OcrFileStageAgrees(path: string, st: Stages, failed: set<string>, steps: seq<Step>)
    ensures Agrees(OcrFileStage(path, st, failed, steps), FirstDecisive(Attempts(st)[2..]), path, failed)
  {
    if st.tool.ToolProduced? {
      OcrCopyAgrees(path, st, failed, steps);
    } else if st.tool.TempFailed? {
      assert Attempts(st)[2..][0] == Threw;
    } else {
      assert Attempts(st)[2..] == [Gave(TryTesseract(st.tess).GetOr(""))];
      TesseractStageAgrees(path, st.tess, failed, steps + [OcrTool]);
      TesseractStageAgrees(path, st.tess, failed, steps + [OcrTool, TempCreated, TempUnlinked]);
    }
  }

  /**
   * The cascade returns the first decisive attempt: its text, with the registry
   * unchanged; or it lets its exception escape; or, when every attempt is blank,
   * it registers the path and returns "".
   */
  lemma ExtractIsFirstDecisive(path: string, st: Stages, failed: set<string>)
    ensures Agrees(ExtractTextFromPdf(path, st, failed), FirstDecisive(Attempts(st)), path, failed)
  {
    var a := Attempts(st);
    var p := a[0];
    var m := a[1];
    assert a == [p] + ([m] + a[2..]);
    if !Decisive(p) {
      FirstDecisiveSkip(p, [m] + a[2..]);
      if !Decisive(m) {
        FirstDecisiveSkip(m, a[2..]);
        var mu := TryMuPdf(st.mu);
        assert IsBlank(if mu.MuReturned? then mu.text else "");
        OcrFileStageAgrees(path, st, failed, [Plumber, MuPdf]);
      }
    }
  }

  /** A non-blank pdfplumber text is returned as it is, and nothing else runs. */
  lemma PlumberShortCircuits(path: string, st: Stages, failed: set<string>)
    requires Usable(TryPlumber(st.plumber))
    ensures ExtractTextFromPdf(path, st, failed) == Returned(TryPlumber(st.plumber).value, failed, [Plumber])
  {
  }

  /** The ocrmypdf stage records the tool step right after the steps before it. */
  lemma OcrFileStageSteps(path: string, st: Stages, failed: set<string>, steps: seq<Step>)
    ensures var r := OcrFileStage(path, st, failed, steps);
      |r.steps| > |steps| && r.steps[..|steps|] == steps && r.steps[|steps|] == OcrTool
  {
    var r := OcrFileStage(path, st, failed, steps);
    OcrFileStageShape(path, st, failed, steps);
    ShapesStartWithTool(r.steps[|steps|..]);
  }

  /** Every allowed step sequence of the ocrmypdf stage starts with the tool step. */
  lemma ShapesStartWithTool(tail: seq<Step>)
    requires tail in OcrStepShapes()
    ensures |tail| > 0 && tail[0] == OcrTool
  {
  }

  /**
   * Once both direct readers came back blank (or raised), the ocrmypdf stage is
   * always attempted: the guard in front of it cannot be false at that point.
   */
  lemma OcrToolTriedIffDirectReadersBlank(path: string, st: Stages, failed: set<string>)
    ensures var r := ExtractTextFromPdf(path, st, failed);
      OcrTool in r.steps <==>
        !Usable(TryPlumber(st.plumber)) && !(TryMuPdf(st.mu).MuReturned? && !IsBlank(TryMuPdf(st.mu).text))
  {
    var r := ExtractTextFromPdf(path, st, failed);
    if Usable(TryPlumber(st.plumber)) {
      assert r.steps == [Plumber];
    } else if TryMuPdf(st.mu).MuReturned? && !IsBlank(TryMuPdf(st.mu).text) {
      assert r.steps == [Plumber, MuPdf];
    } else {
      var m := TryMuPdf(st.mu);
      assert IsBlank(if m.MuReturned? then m.text else "");
      OcrFileStageSteps(path, st, failed, [Plumber, MuPdf]);
    }
  }

  /**
   * The steps of a run whose direct readers came back blank, after the two direct
   * readers: an unlink of the tool's own temporary file is attempted whenever it is
   * created, the OCR'd copy is read only before that attempt, and only pytesseract
   * may follow it; a temporary file that cannot be created ends the run at once.
   */
  function OcrStepShapes(): set<seq<Step>> {
    {[OcrTool],
     [OcrTool, Tesseract],
     [OcrTool, TempCreated, TempUnlinked, Tesseract],
     [OcrTool, TempCreated, OcrPlumber, TempUnlinked],
     [OcrTool, TempCreated, OcrPlumber, OcrMuPdf, TempUnlinked],
     [OcrTool, TempCreated, OcrPlumber, OcrMuPdf, TempUnlinked, Tesseract]}
  }

  lemma AppendSlices<T>(a: seq<T>, b: seq<T>)
    ensures (a + b)[..|a|] == a && (a + b)[|a|..] == b
  {
  }

  /**
   * The ocrmypdf stage appends one of the allowed step sequences; it raises either
   * when its temporary file cannot be created or from PyMuPDF, after the unlink.
   */
  lemma OcrFileStageShape(path: string, st: Stages, failed: set<string>, steps: seq<Step>)
    ensures var r := OcrFileStage(path, st, failed, steps);
      && |r.steps| >= |steps| && r.steps[..|steps|] == steps && r.steps[|steps|..] in OcrStepShapes()
      && (r.Raised? <==>
            (r.steps[|steps|..] == [OcrTool] ||
             (r.steps[|steps|..] == [OcrTool, TempCreated, OcrPlumber, OcrMuPdf, TempUnlinked] && TryMuPdf(st.ocrMu).MuException?)))
  {
    var r := OcrFileStage(path, st, failed, steps);
    var tail: seq<Step>;
    match st.tool {
      case ToolAbsent =>
        tail := [OcrTool, Tesseract];
      case TempFailed =>
        tail := [OcrTool];
      case ToolFailed =>
        tail := [OcrTool, TempCreated, TempUnlinked, Tesseract];
      case ToolProduced =>
        var t2 := TryMuPdf(st.ocrMu);
        if Usable(TryPlumber(st.ocrPlumber)) {
          tail := [OcrTool, TempCreated, OcrPlumber, TempUnlinked];
        } else if t2.MuException? || !IsBlank(t2.text) {
          tail := [OcrTool, TempCreated, OcrPlumber, OcrMuPdf, TempUnlinked];
        } else {
          tail := [OcrTool, TempCreated, OcrPlumber, OcrMuPdf, TempUnlinked, Tesseract];
        }
    }
    assert r.steps == steps + tail;
    AppendSlices(steps, tail);
  }

  /**
   * Every run of the cascade takes one of the step sequences allowed above, and
   * one that raises either stopped at the ocrmypdf temporary file or has read the
   * OCR'd copy with both readers and attempted to unlink it.
   */
  lemma StepShapes(path: string, st: Stages, failed: set<string>)
    ensures var r := ExtractTextFromPdf(path, st, failed);
      && (r.steps == [Plumber] || r.steps == [Plumber, MuPdf] ||
          (|r.steps| > 2 && r.steps[..2] == [Plumber, MuPdf] && r.steps[2..] in OcrStepShapes()))
      && (r.Raised? ==>
            (r.steps == [Plumber, MuPdf, OcrTool] ||
             r.steps == [Plumber, MuPdf, OcrTool, TempCreated, OcrPlumber, OcrMuPdf, TempUnlinked]))
  {
    if !Usable(TryPlumber(st.plumber)) {
      var m := TryMuPdf(st.mu);
      if !(m.MuReturned? && !IsBlank(m.text)) {
        assert IsBlank(if m.MuReturned? then m.text else "");
        OcrFileStageShape(path, st, failed, [Plumber, MuPdf]);
      }
    }
  }

  /** A step sequence in which the temporary file, once created, is unlinked and not read afterwards. */
  predicate TempHandled(steps: seq<Step>) {
    && (TempCreated in steps ==> TempUnlinked in steps)
    && (forall i, j :: 0 <= i < j < |steps| && steps[i] == TempUnlinked ==>
          steps[j] != OcrPlumber && steps[j] != OcrMuPdf)
  }

  lemma ShapesHandled(steps: seq<Step>)
    requires steps == [Plumber] || steps == [Plumber, MuPdf] ||
      (|steps| > 2 && steps[..2] == [Plumber, MuPdf] && steps[2..] in OcrStepShapes())
    ensures TempHandled(steps)
  {
    if |steps| > 2 {
      var tail := steps[2..];
      assert steps == [Plumber, MuPdf] + tail;
      if tail == [OcrTool] || tail == [OcrTool, Tesseract] {
        assert TempCreated !in steps;
      } else if tail == [OcrTool, TempCreated, TempUnlinked, Tesseract] {
        assert steps[4] == TempUnlinked;
      } else if tail == [OcrTool, TempCreated, OcrPlumber, TempUnlinked] {
        assert steps[5] == TempUnlinked;
      } else if tail == [OcrTool, TempCreated, OcrPlumber, OcrMuPdf, TempUnlinked] {
        assert steps[6] == TempUnlinked;
      } else {
        assert steps[6] == TempUnlinked;
      }
    }
  }

  /**
   * An unlink of the temporary file is attempted on every way out: whenever the
   * cascade creates it, an unlink step follows, and neither reader touches the OCR'd
   * copy afterwards. An exception escapes either before the temporary file exists
   * or from PyMuPDF reading the copy, after the unlink attempt.
   */
  lemma TempFileRemoved(path: string, st: Stages, failed: set<string>)
    ensures var r := ExtractTextFromPdf(path, st, failed);
      && TempHandled(r.steps)
      && (r.Raised? ==> TempCreated !in r.steps || r.steps[|r.steps| - 2..] == [OcrMuPdf, TempUnlinked])
  {
    StepShapes(path, st, failed);
    ShapesHandled(ExtractTextFromPdf(path, st, failed).steps);
  }
}

=== FILE: pdf_reader.dfy ===
/**
 * `activity_scanner/extractors/pdf_reader.py`: the text layer of every page plus
 * PaddleOCR lines, combined, with the failure registry. PyMuPDF and PaddleOCR are
 * replaced by their outcomes: page texts, recognised items, or exceptions.
 */
module PdfReader {
  import opened Wrappers
  import opened Strings

  /** What reading one page's text layer gave: its text (a missing text is ""), or an exception. */
  datatype PageRead = PageText(text: string) | PageRaised

  /** `page.get_text(...) or ""`, with an exception read as "". */
  function PageString(p: PageRead): string {
    if p.PageText? then p.text else ""
  }

  /** The stripped text of a page that is worth keeping. */
  predicate KeptPage(p: PageRead) {
    !IsBlank(PageString(p))
  }

  /** `_extract_vector_text(doc)`: the stripped text of every non-blank page, in page order. */
  function VectorTexts(pages: seq<PageRead>): (r: seq<string>)
    ensures |r| <= |pages|
  {
    if pages == [] then []
    else
      var rest := VectorTexts(pages[..|pages| - 1]);
      var last := pages[|pages| - 1];
      if KeptPage(last) then rest + [Strip(PageString(last))] else rest
  }

  /** No string in `lines` is blank. */
  predicate NoBlank(lines: seq<string>) {
    forall i :: 0 <= i < |lines| ==> !IsBlank(lines[i])
  }

  lemma {:induction false} VectorTextsNoBlank(pages: seq<PageRead>)
    ensures NoBlank(VectorTexts(pages))
  {
    if pages != [] {
      var last := pages[|pages| - 1];
      VectorTextsNoBlank(pages[..|pages| - 1]);
      StripKeepsBlank(PageString(last));
    }
  }

  /** What a page contributes to the vector pass: its stripped text when it is not blank. */
  function PageLine(p: PageRead): Option<string> {
    if KeptPage(p) then Some(Strip(PageString(p))) else None
  }

  /** A string is kept exactly when it is the stripped text of some non-blank page. */
  lemma {:induction false} VectorTextsMembers(pages: seq<PageRead>, x: string)
    ensures x in VectorTexts(pages) <==> exists i :: 0 <= i < |pages| && PageLine(pages[i]) == Some(x)
  {
    if pages != [] {
      var p := pages[..|pages| - 1];
      var last := pages[|pages| - 1];
      VectorTextsMembers(p, x);
      assert x in VectorTexts(pages) <==> x in VectorTexts(p) || PageLine(last) == Some(x);
      if x in VectorTexts(p) {
        var i :| 0 <= i < |p| && PageLine(p[i]) == Some(x);
        assert pages[i] == p[i];
        assert 0 <= i < |pages| && PageLine(pages[i]) == Some(x);
      } else if PageLine(last) == Some(x) {
        assert 0 <= |pages| - 1 < |pages| && PageLine(pages[|pages| - 1]) == Some(x);
      } else {
        forall i | 0 <= i < |pages| ensures PageLine(pages[i]) != Some(x) {
          if i < |p| {
            assert p[i] == pages[i];
          }
        }
      }
    }
  }

  /**
   * An item of PaddleOCR's result: a list of `arity` entries whose second entry's first
   * element is the text; a list whose second entry has no first element with a
   * `strip` method; or anything else.
   */
  datatype OcrItem = OcrLine(arity: nat, text: string) | BadEntry(arity: nat) | NotAList

  /** An item the loop reads but cannot strip: `item[1][0].strip()` raises, uncaught. */
  predicate RaisingItem(item: OcrItem) {
    item.BadEntry? && item.arity >= 2
  }

  /** Some recognised page holds an item whose text cannot be stripped. */
  predicate ItemLoopRaises(pages: seq<OcrPage>) {
    exists i, j :: 0 <= i < |pages| && pages[i].Recognised? && 0 <= j < |pages[i].items| && RaisingItem(pages[i].items[j])
  }

  /** How OCR of one page went: rendering raised, recognition raised, or the recognised items (`None` read as none). */
  datatype OcrPage = RenderRaised | RecognitionRaised | Recognised(items: seq<OcrItem>)

  /** The item filter: a list of at least two entries whose stripped text is non-empty. */
  predicate KeptItem(item: OcrItem) {
    item.OcrLine? && item.arity >= 2 && !IsBlank(item.text)
  }

  /** The stripped texts of the kept items of one page. */
  function ItemTexts(items: seq<OcrItem>): (r: seq<string>)
    ensures |r| <= |items|
  {
    if items == [] then []
    else
      var rest := ItemTexts(items[..|items| - 1]);
      var item := items[|items| - 1];
      if KeptItem(item) then rest + [Strip(item.text)] else rest
  }

  lemma {:induction false} ItemTextsNoBlank(items: seq<OcrItem>)
    ensures NoBlank(ItemTexts(items))
  {
    if items != [] {
      var item := items[|items| - 1];
      ItemTextsNoBlank(items[..|items| - 1]);
      if item.OcrLine? {
        StripKeepsBlank(item.text);
      }
    }
  }

  function ItemLine(item: OcrItem): Option<string> {
    if KeptItem(item) then Some(Strip(item.text)) else None
  }

  /** A string is kept exactly when it is the stripped text of some item with at least two entries and non-blank text. */
  lemma {:induction false} ItemTextsMembers(items: seq<OcrItem>, x: string)
    ensures x in ItemTexts(items) <==> exists i :: 0 <= i < |items| && ItemLine(items[i]) == Some(x)
  {
    if items != [] {
      var p := items[..|items| - 1];
      var last := items[|items| - 1];
      ItemTextsMembers(p, x);
      assert x in ItemTexts(items) <==> x in ItemTexts(p) || ItemLine(last) == Some(x);
      if x in ItemTexts(p) {
        var i :| 0 <= i < |p| && ItemLine(p[i]) == Some(x);
        assert items[i] == p[i];
      } else if ItemLine(last) == Some(x) {
        assert ItemLine(items[|items| - 1]) == Some(x);
      } else {
        forall i | 0 <= i < |items| ensures ItemLine(items[i]) != Some(x) {
          if i < |p| {
            assert p[i] == items[i];
          }
        }
      }
    }
  }

  /** The lines one page contributes: none when rendering or recognition raised. */
  function PageLines(page: OcrPage): seq<string> {
    if page.Recognised? then ItemTexts(page.items) else []
  }

  /** `_extract_with_paddle(doc)` once the engine is loaded: the lines of every page in page order. */
  function OcrTexts(pages: seq<OcrPage>): seq<string> {
    if pages == [] then [] else OcrTexts(pages[..|pages| - 1]) + PageLines(pages[|pages| - 1])
  }

  lemma {:induction false} OcrTextsNoBlank(pages: seq<OcrPage>)
    ensures NoBlank(OcrTexts(pages))
  {
    if pages != [] {
      var last := pages[|pages| - 1];
      OcrTextsNoBlank(pages[..|pages| - 1]);
      if last.Recognised? {
        ItemTextsNoBlank(last.items);
      }
    }
  }

  /**
   * A failing page does not abort the run: the lines of a document are the lines of
   * its parts, wherever a page failed.
   */
  lemma {:induction false} OcrTextsAppend(a: seq<OcrPage>, b: seq<OcrPage>)
    ensures OcrTexts(a + b) == OcrTexts(a) + OcrTexts(b)
  {
    if b == [] {
      assert a + b == a;
    } else {
      var front := b[..|b| - 1];
      var last := b[|b| - 1];
      assert (a + b)[..|a + b| - 1] == a + front;
      assert (a + b)[|a + b| - 1] == last;
      OcrTextsAppend(a, front);
      calc {
        OcrTexts(a + b);
        OcrTexts(a + front) + PageLines(last);
        OcrTexts(a) + OcrTexts(front) + PageLines(last);
        OcrTexts(a) + (OcrTexts(front) + PageLines(last));
      }
    }
  }

  /** A page whose rendering or recognition raised contributes nothing. */
  lemma FailedPageContributesNothing(page: OcrPage)
    requires !page.Recognised?
    ensures OcrTexts([page]) == []
  {
    assert [page][..0] == [];
  }

  /** How the vector pass over the document ended. */
  datatype VectorOutcome = VectorPages(pages: seq<PageRead>) | VectorRaised

  /** How the OCR pass ended: its pages, an `ImportError` (PaddleOCR missing), or another exception. */
  datatype OcrOutcome = OcrRun(pages: seq<OcrPage>) | OcrImportError | OcrPipelineError

  /** What opening the file gave: PyMuPDF missing, an open failure, or the two passes over the document. */
  datatype OpenOutcome = FitzMissing | OpenFailed | Opened(vector: VectorOutcome, ocr: OcrOutcome)

  /** The result of `read_pdf_text`: the text and the failure registry after the call, or an escaping `ImportError`. */
  datatype ReadResult = ReadOk(text: string, failed: set<string>) | ImportFailure

  /** The vector block, then the OCR block, each joined by newlines, empty blocks left out. */
  function Combine(vectorTexts: seq<string>, ocrTexts: seq<string>): (text: string)
    requires NoBlank(vectorTexts) && NoBlank(ocrTexts)
    ensures IsBlank(text) <==> vectorTexts == [] && ocrTexts == []
  {
    var parts := (if vectorTexts != [] then [Join(vectorTexts, "\n")] else [])
      + (if ocrTexts != [] then [Join(ocrTexts, "\n")] else []);
    JoinBlankIff(vectorTexts, "\n");
    JoinBlankIff(ocrTexts, "\n");
    JoinBlankIff(parts, "\n");
    Join(parts, "\n")
  }

  /** The two blocks together are every line in order, one per line. */
  lemma CombineIsAllLines(vectorTexts: seq<string>, ocrTexts: seq<string>)
    requires NoBlank(vectorTexts) && NoBlank(ocrTexts)
    ensures Combine(vectorTexts, ocrTexts) == Join(vectorTexts + ocrTexts, "\n")
  {
    var v := Join(vectorTexts, "\n");
    var o := Join(ocrTexts, "\n");
    if vectorTexts != [] && ocrTexts != [] {
      JoinAppend(vectorTexts, ocrTexts, "\n");
      assert Join([v, o], "\n") == v + "\n" + Join([o], "\n");
    } else if vectorTexts == [] {
      assert vectorTexts + ocrTexts == ocrTexts;
      if ocrTexts != [] {
        assert Join([o], "\n") == o;
      }
    } else {
      assert vectorTexts + ocrTexts == vectorTexts;
      assert Join([v], "\n") == v;
    }
  }

  /** The lines kept from the vector pass; an exception of the whole pass keeps none. */
  function VectorLines(v: VectorOutcome): (r: seq<string>)
    ensures NoBlank(r)
  {
    if v.VectorPages? then
      VectorTextsNoBlank(v.pages);
      VectorTexts(v.pages)
    else []
  }

  /**
   * The lines kept from the OCR pass. An exception other than `ImportError` keeps none,
   * and so does an item on any page that cannot be stripped: it leaves the item loop
   * uncaught, and the handler around the pass drops the lines of every page.
   */
  function OcrLines(o: OcrOutcome): (r: seq<string>)
    ensures NoBlank(r)
  {
    if o.OcrRun? && !ItemLoopRaises(o.pages) then
      OcrTextsNoBlank(o.pages);
      OcrTexts(o.pages)
    else []
  }

  /**
   * One item that cannot be stripped, on any page, discards the OCR lines of the whole
   * document, including those of the pages recognised before it.
   */
  lemma RaisingItemDiscardsAllPages(before: seq<OcrPage>, items: seq<OcrItem>, j: int, after: seq<OcrPage>)
    requires 0 <= j < |items| && RaisingItem(items[j])
    ensures OcrLines(OcrRun(before + [Recognised(items)] + after)) == []
  {
    var pages := before + [Recognised(items)] + after;
    assert pages[|before|] == Recognised(items);
  }

  /** Without an item that cannot be stripped, the OCR pass keeps the lines of every page, in page order. */
  lemma OcrLinesOfPages(pages: seq<OcrPage>, i: int)
    requires !ItemLoopRaises(pages) && 0 <= i < |pages|
    ensures OcrLines(OcrRun(pages)) == OcrTexts(pages[..i]) + PageLines(pages[i]) + OcrTexts(pages[i + 1..])
  {
    assert pages == pages[..i] + [pages[i]] + pages[i + 1..];
    OcrTextsAppend(pages[..i] + [pages[i]], pages[i + 1..]);
    OcrTextsAppend(pages[..i], [pages[i]]);
    assert OcrTexts([pages[i]]) == PageLines(pages[i]) by {
      assert [pages[i]][..0] == [];
    }
  }

  /**
   * `read_pdf_text(path)` with the registry `failed` before the call: a missing
   * PyMuPDF or PaddleOCR escapes as `ImportError`; a file that cannot be opened is
   * registered and gives ""; otherwise the combined text, registered when blank.
   */
  function ReadPdfText(path: string, source: OpenOutcome, failed: set<string>): (r: ReadResult)
    ensures r.ImportFailure? <==> source.FitzMissing? || (source.Opened? && source.ocr.OcrImportError?)
    ensures source.OpenFailed? ==> r == ReadOk("", failed + {path})
    ensures r.ReadOk? ==> failed <= r.failed <= failed + {path}
    ensures r.ReadOk? && source.Opened? ==> r.text == Join(VectorLines(source.vector) + OcrLines(source.ocr), "\n")
    ensures r.ReadOk? && source.Opened? ==> (path in r.failed <==> path in failed || IsBlank(r.text))
  {
    match source
    case FitzMissing => ImportFailure
    case OpenFailed => ReadOk("", failed + {path})
    case Opened(vector, ocr) =>
      if ocr.OcrImportError? then ImportFailure
      else
        var text := Combine(VectorLines(vector), OcrLines(ocr));
        CombineIsAllLines(VectorLines(vector), OcrLines(ocr));
        ReadOk(text, if IsBlank(text) then failed + {path} else failed)
  }

  /**
   * An opened document is registered as failed exactly when no page has a non-blank
   * text layer and OCR kept no line (the registry did not hold it before).
   */
  lemma ReadPdfFailsIffNothingRead(path: string, vector: VectorOutcome, ocr: OcrOutcome, failed: set<string>)
    requires !ocr.OcrImportError? && path !in failed
    ensures var r := ReadPdfText(path, Opened(vector, ocr), failed);
      path in r.failed <==> VectorLines(vector) == [] && OcrLines(ocr) == []
  {
  }

  /** A document with one non-blank text page is never registered. */
  lemma OneTextPageSuffices(path: string, pages: seq<PageRead>, i: int, ocr: OcrOutcome, failed: set<string>)
    requires 0 <= i < |pages| && KeptPage(pages[i])
    requires !ocr.OcrImportError? && path !in failed
    ensures var r := ReadPdfText(path, Opened(VectorPages(pages), ocr), failed);
      r.ReadOk? && !IsBlank(r.text) && path !in r.failed
  {
    VectorTextsMembers(pages, Strip(PageString(pages[i])));
    assert PageLine(pages[i]) == Some(Strip(PageString(pages[i])));
    ReadPdfFailsIffNothingRead(path, VectorPages(pages), ocr, failed);
  }

  // ---------------------------------------------------------------- the engine

  /** A PaddleOCR instance, told apart by the number of instances made before it. */
  datatype Engine = Engine(serial: nat)

  /** The module-level `_PADDLE_OCR` slot and the number of instances ever made. */
  datatype PaddleSlot = PaddleSlot(engine: Option<Engine>, made: nat)

  /**
   * `_load_paddle()`: the cached instance when there is one; otherwise a new one,
   * which is cached. `None` stands for the `ImportError` that escapes `_load_paddle`
   * when PaddleOCR cannot be imported; the slot is then left as it was.
   */
  function LoadPaddle(slot: PaddleSlot, importable: bool): (r: (Option<Engine>, PaddleSlot))
    ensures slot.engine.Some? ==> r == (slot.engine, slot)
    ensures slot.engine.None? && !importable ==> r == (None, slot)
    ensures slot.engine.None? && importable ==> r.0.Some? && r.1 == PaddleSlot(r.0, slot.made + 1)
  {
    if slot.engine.Some? then (slot.engine, slot)
    else if !importable then (None, slot)
    else
      var e := Engine(slot.made);
      (Some(e), PaddleSlot(Some(e), slot.made + 1))
  }

  /** Successive loads; `importable[k]` says whether the `k`-th load could import PaddleOCR. */
  function LoadMany(slot: PaddleSlot, importable: seq<bool>): (r: (seq<Option<Engine>>, PaddleSlot))
    ensures |r.0| == |importable|
    decreases |importable|
  {
    if importable == [] then ([], slot)
    else
      var (e, s) := LoadPaddle(slot, importable[0]);
      var (rest, s') := LoadMany(s, importable[1..]);
      ([e] + rest, s')
  }

  /** From a cached slot every load returns its engine, and the slot is left unchanged. */
  lemma {:induction false} LoadManyCached(slot: PaddleSlot, importable: seq<bool>)
    requires slot.engine.Some?
    ensures LoadMany(slot, importable).1 == slot
    ensures forall k :: 0 <= k < |importable| ==> LoadMany(slot, importable).0[k] == slot.engine
  {
    if importable != [] {
      LoadManyCached(slot, importable[1..]);
    }
  }

  /**
   * Singleton: from an empty slot at most one instance is ever made, and every
   * load that succeeds returns the same one.
   */
  lemma {:induction false} LoadManySingleton(importable: seq<bool>)
    ensures var (es, s) := LoadMany(PaddleSlot(None, 0), importable);
      s.made <= 1
      && forall j, k :: 0 <= j < |es| && 0 <= k < |es| && es[j].Some? && es[k].Some? ==> es[j] == es[k]
  {
    var slot := PaddleSlot(None, 0);
    if importable != [] {
      if importable[0] {
        var (e, s) := LoadPaddle(slot, true);
        LoadManyCached(s, importable[1..]);
      } else {
        LoadManySingleton(importable[1..]);
      }
    }
  }
}

=== FILE: report.dfy ===
/**
 * `activity_scanner/report_builder.py` (`build_report_tables` and the detail-sheet
 * preparation in `write_report_workbook`) and its older twin `reporting.py`
 * (`build_report_frames`). The pandas frames are sequences of records: the
 * per-activity table groups the student hits by (id, name, activity), the
 * per-person table groups that table by (id, name).
 */
module Report {
  import opened Wrappers
  import opened Strings
  import opened Seqs
  import opened Dicts
  import opened Sorting
  import opened Roster
  import opened DocumentScanner

  /** The separator `report_builder.py` joins a person's activities with. */
  const ActivityListSeparator: string := "、"

  // ---------------------------------------------------------------- student hits

  /** A row that counts as a student hit: status "OK", a positive count and a student match type. */
  predicate IsStudentHit(r: Row, studentTypes: set<string>) {
    r.status == StatusOk && r.count > 0 && r.matchType in studentTypes
  }

  /** A row listed among the class hits: status "OK" and the class-tag match type. */
  predicate IsClassHit(r: Row, classLabel: string) {
    r.status == StatusOk && r.matchType == classLabel
  }

  /** A row that needs its name filled from the roster: an empty name with a non-empty id. */
  predicate MissingName(r: Row) {
    r.studentName == "" && r.studentId != ""
  }

  /** The name fill: the roster's name for the id, or "" when the id is unknown. */
  function FillName(dir: Directory, r: Row): (f: Row)
    ensures f.(studentName := r.studentName) == r
    ensures !MissingName(r) ==> f == r
    ensures MissingName(r) && r.studentId in Keys(dir.idToName) ==> dir.ResolveName(r.studentId) == Some(f.studentName)
    ensures MissingName(r) && r.studentId !in Keys(dir.idToName) ==> f.studentName == ""
  {
    if MissingName(r) then r.(studentName := dir.ResolveName(r.studentId).GetOr("")) else r
  }

  /** Filling twice is filling once: a name the roster could not supply stays "". */
  lemma FillNameIdempotent(dir: Directory, r: Row)
    ensures FillName(dir, FillName(dir, r)) == FillName(dir, r)
  {
  }

  function FillNames(dir: Directory, rows: seq<Row>): (r: seq<Row>)
    ensures |r| == |rows|
  {
    seq(|rows|, i requires 0 <= i < |rows| => FillName(dir, rows[i]))
  }

  /** `student_hits` after the name fill. */
  function ReportHits(rows: seq<Row>, dir: Directory, studentTypes: set<string>): (hits: seq<Row>)
    ensures |hits| <= |rows|
  {
    FillNames(dir, Filter(rows, IsStudentHit, studentTypes))
  }

  /** `h` is the name fill of some student-hit row of `rows`. */
  predicate FilledFrom(h: Row, rows: seq<Row>, dir: Directory, studentTypes: set<string>) {
    exists j :: 0 <= j < |rows| && IsStudentHit(rows[j], studentTypes) && h == FillName(dir, rows[j])
  }

  /**
   * The hits are the student-hit rows, one for one, each with only its name possibly
   * filled: every hit is the fill of a student-hit row, every student-hit row's fill
   * is a hit, there are as many hits as student-hit rows, and every hit has a
   * positive count. `ReportHitsSnoc` adds that the rows' order is kept.
   */
  lemma ReportHitsSpec(rows: seq<Row>, dir: Directory, studentTypes: set<string>)
    ensures var hits := ReportHits(rows, dir, studentTypes);
      && (forall i :: 0 <= i < |hits| ==> hits[i].count > 0 && hits[i].status == StatusOk && hits[i].matchType in studentTypes)
      && (forall x :: x in rows && IsStudentHit(x, studentTypes) ==> FillName(dir, x) in hits)
      && (forall i :: 0 <= i < |hits| ==> FilledFrom(hits[i], rows, dir, studentTypes))
      && |hits| == CountIf(rows, x => IsStudentHit(x, studentTypes))
  {
    var f := Filter(rows, IsStudentHit, studentTypes);
    var hits := ReportHits(rows, dir, studentTypes);
    forall i | 0 <= i < |hits|
      ensures hits[i].count > 0 && hits[i].status == StatusOk && hits[i].matchType in studentTypes
      ensures FilledFrom(hits[i], rows, dir, studentTypes)
    {
      assert f[i] in f;
      assert hits[i] == FillName(dir, f[i]);
      var j :| 0 <= j < |rows| && rows[j] == f[i];
      assert IsStudentHit(rows[j], studentTypes) && hits[i] == FillName(dir, rows[j]);
    }
    forall x | x in rows && IsStudentHit(x, studentTypes) ensures FillName(dir, x) in hits {
      var i :| 0 <= i < |f| && f[i] == x;
      assert hits[i] == FillName(dir, x);
    }
    StudentHitCount(rows, studentTypes);
  }

  /** As many rows pass the student-hit filter as `CountIf` counts. */
  lemma {:induction false} StudentHitCount(rows: seq<Row>, studentTypes: set<string>)
    ensures |Filter(rows, IsStudentHit, studentTypes)| == CountIf(rows, x => IsStudentHit(x, studentTypes))
  {
    if rows != [] {
      StudentHitCount(rows[..|rows| - 1], studentTypes);
    }
  }

  /**
   * The hits keep the rows' order: no rows give no hits, and one more row adds its
   * fill at the end exactly when it is a student hit.
   */
  lemma ReportHitsSnoc(rows: seq<Row>, x: Row, dir: Directory, studentTypes: set<string>)
    ensures ReportHits([], dir, studentTypes) == []
    ensures ReportHits(rows + [x], dir, studentTypes) ==
      ReportHits(rows, dir, studentTypes) + (if IsStudentHit(x, studentTypes) then [FillName(dir, x)] else [])
  {
    FilterSnoc(rows, x, IsStudentHit, studentTypes);
  }

  // ---------------------------------------------------------------- per activity

  /** The per-activity grouping key. */
  datatype ActivityKey = ActivityKey(studentId: string, studentName: string, activity: string)

  function KeyOfRow(r: Row): ActivityKey {
    ActivityKey(r.studentId, r.studentName, r.activity)
  }

  predicate InGroup(r: Row, k: ActivityKey) {
    KeyOfRow(r) == k
  }

  /** The order pandas lists groups in: by id, then name, then activity. */
  function ActivitySortKey(k: ActivityKey): seq<string> {
    [k.studentId, k.studentName, k.activity]
  }

  function RowKeys(hits: seq<Row>): (ks: seq<ActivityKey>)
    ensures |ks| == |hits|
    ensures forall i :: 0 <= i < |hits| ==> ks[i] == KeyOfRow(hits[i])
  {
    seq(|hits|, i requires 0 <= i < |hits| => KeyOfRow(hits[i]))
  }

  function PathsOf(rows: seq<Row>): (ps: seq<string>)
    ensures |ps| == |rows|
    ensures forall i :: 0 <= i < |rows| ==> ps[i] == rows[i].path
  {
    seq(|rows|, i requires 0 <= i < |rows| => rows[i].path)
  }

  /** `sum` of the match counts. */
  function SumCounts(rows: seq<Row>): nat {
    if rows == [] then 0 else SumCounts(rows[..|rows| - 1]) + rows[|rows| - 1].count
  }

  /** One per-activity row: the number of distinct files and the total match count. */
  datatype ActivityRow = ActivityRow(studentId: string, studentName: string, activity: string, fileCount: nat, total: nat)

  function KeyOfActivity(a: ActivityRow): ActivityKey {
    ActivityKey(a.studentId, a.studentName, a.activity)
  }

  function ActivityRowFor(hits: seq<Row>, k: ActivityKey): (a: ActivityRow)
    ensures KeyOfActivity(a) == k
  {
    var g := Filter(hits, InGroup, k);
    ActivityRow(k.studentId, k.studentName, k.activity, |Dedup(PathsOf(g))|, SumCounts(g))
  }

  function RowsFor(hits: seq<Row>, keys: seq<ActivityKey>): (t: seq<ActivityRow>)
    ensures |t| == |keys|
    ensures forall i :: 0 <= i < |keys| ==> t[i] == ActivityRowFor(hits, keys[i])
  {
    if keys == [] then [] else [ActivityRowFor(hits, keys[0])] + RowsFor(hits, keys[1..])
  }

  /** The distinct keys of the hits in group order. */
  function ActivityGroupKeys(hits: seq<Row>): (keys: seq<ActivityKey>) {
    SortBy(Dedup(RowKeys(hits)), ActivitySortKey)
  }

  /** `per_activity`: `groupby([id, name, activity]).agg({path: "nunique", count: "sum"})`. */
  function ActivityTable(hits: seq<Row>): (t: seq<ActivityRow>) {
    RowsFor(hits, ActivityGroupKeys(hits))
  }

  lemma ActivitySortKeyInjective()
    ensures Injective(ActivitySortKey)
  {
    forall a, b | ActivitySortKey(a) == ActivitySortKey(b) ensures a == b {
      assert ActivitySortKey(a)[0] == a.studentId && ActivitySortKey(a)[1] == a.studentName;
      assert ActivitySortKey(a)[2] == a.activity;
    }
  }

  /** The group keys are exactly the distinct keys of the hits, each once, in strictly increasing order. */
  lemma ActivityGroupKeysFacts(hits: seq<Row>)
    ensures var keys := ActivityGroupKeys(hits);
      && NoDup(keys)
      && (forall k :: k in keys <==> k in RowKeys(hits))
      && (forall i, j :: 0 <= i < j < |keys| ==> KeyLess(ActivitySortKey(keys[i]), ActivitySortKey(keys[j])))
  {
    ActivitySortKeyInjective();
    SortUniqueFacts(RowKeys(hits), ActivitySortKey);
  }

  /** The keys of the per-activity rows, in table order. */
  function TableKeys(t: seq<ActivityRow>): (ks: seq<ActivityKey>)
    ensures |ks| == |t|
    ensures forall i :: 0 <= i < |t| ==> ks[i] == KeyOfActivity(t[i])
  {
    seq(|t|, i requires 0 <= i < |t| => KeyOfActivity(t[i]))
  }

  /**
   * One per-activity row per distinct (id, name, activity) among the hits, in
   * strictly increasing key order.
   */
  lemma ActivityTableKeys(hits: seq<Row>)
    ensures var ks := TableKeys(ActivityTable(hits));
      && NoDup(ks)
      && (forall k :: k in ks <==> k in RowKeys(hits))
      && (forall i, j :: 0 <= i < j < |ks| ==> KeyLess(ActivitySortKey(ks[i]), ActivitySortKey(ks[j])))
  {
    assert TableKeys(ActivityTable(hits)) == ActivityGroupKeys(hits);
    ActivityGroupKeysFacts(hits);
  }

  /** The rows of a group are the hits with its key; a key taken from the hits has at least one. */
  lemma GroupNonEmpty(hits: seq<Row>, k: ActivityKey)
    requires k in RowKeys(hits)
    ensures Filter(hits, InGroup, k) != []
  {
    var i :| 0 <= i < |hits| && RowKeys(hits)[i] == k;
    assert hits[i] in Filter(hits, InGroup, k);
  }

  /** A sum of positive counts is at least the number of rows. */
  lemma {:induction false} SumCountsAtLeastLength(rows: seq<Row>)
    requires forall i :: 0 <= i < |rows| ==> rows[i].count > 0
    ensures SumCounts(rows) >= |rows|
  {
    if rows != [] {
      SumCountsAtLeastLength(rows[..|rows| - 1]);
    }
  }

  /** Every hit of the report has a positive count. */
  lemma HitsPositive(rows: seq<Row>, dir: Directory, studentTypes: set<string>)
    ensures var hits := ReportHits(rows, dir, studentTypes);
      forall i :: 0 <= i < |hits| ==> hits[i].count > 0
  {
    var f := Filter(rows, IsStudentHit, studentTypes);
    forall i | 0 <= i < |f| ensures f[i].count > 0 {
      assert f[i] in f;
    }
  }

  /** A group of positive-count hits names at least one file and sums to at least its number of files. */
  lemma GroupBounds(hits: seq<Row>, k: ActivityKey)
    requires k in RowKeys(hits)
    requires forall i :: 0 <= i < |hits| ==> hits[i].count > 0
    ensures var g := Filter(hits, InGroup, k); 1 <= |Dedup(PathsOf(g))| <= SumCounts(g)
  {
    var g := Filter(hits, InGroup, k);
    GroupNonEmpty(hits, k);
    assert PathsOf(g)[0] in Dedup(PathsOf(g));
    forall j | 0 <= j < |g| ensures g[j].count > 0 {
      assert g[j] in hits;
    }
    SumCountsAtLeastLength(g);
  }

  /**
   * Every per-activity row of the report names at least one file, and its total is
   * at least its number of files (every student hit has a positive count).
   */
  lemma ActivityRowBounds(rows: seq<Row>, dir: Directory, studentTypes: set<string>, i: int)
    requires 0 <= i < |ActivityTable(ReportHits(rows, dir, studentTypes))|
    ensures var a := ActivityTable(ReportHits(rows, dir, studentTypes))[i];
      1 <= a.fileCount <= a.total
  {
    var hits := ReportHits(rows, dir, studentTypes);
    var keys := ActivityGroupKeys(hits);
    ActivityGroupKeysFacts(hits);
    assert keys[i] in keys;
    HitsPositive(rows, dir, studentTypes);
    GroupBounds(hits, keys[i]);
  }

  /** The count sum over the groups listed in `keys`. */
  function SumOver(hits: seq<Row>, keys: seq<ActivityKey>): nat {
    if keys == [] then 0 else SumCounts(Filter(hits, InGroup, keys[0])) + SumOver(hits, keys[1..])
  }

  function SumTotals(t: seq<ActivityRow>): nat {
    if t == [] then 0 else t[0].total + SumTotals(t[1..])
  }

  lemma {:induction false} SumTotalsRowsFor(hits: seq<Row>, keys: seq<ActivityKey>)
    ensures SumTotals(RowsFor(hits, keys)) == SumOver(hits, keys)
  {
    if keys != [] {
      SumTotalsRowsFor(hits, keys[1..]);
      assert RowsFor(hits, keys)[1..] == RowsFor(hits, keys[1..]);
    }
  }

  /** One more hit adds its count to its own group. */
  lemma GroupSumSnoc(hits: seq<Row>, h: Row, k: ActivityKey)
    ensures SumCounts(Filter(hits + [h], InGroup, k)) == SumCounts(Filter(hits, InGroup, k)) + (if InGroup(h, k) then h.count else 0)
  {
    FilterSnoc(hits, h, InGroup, k);
    var g := Filter(hits, InGroup, k);
    if InGroup(h, k) {
      assert (g + [h])[..|g|] == g;
      assert SumCounts(g + [h]) == SumCounts(g) + h.count;
    } else {
      assert g + [] == g;
    }
  }

  /** One more hit adds its count to the one group of distinct `keys` that has its key. */
  lemma {:induction false} SumOverSnoc(hits: seq<Row>, h: Row, keys: seq<ActivityKey>)
    requires NoDup(keys)
    ensures SumOver(hits + [h], keys) == SumOver(hits, keys) + (if KeyOfRow(h) in keys then h.count else 0)
  {
    if keys != [] {
      NoDupTail(keys);
      SumOverSnoc(hits, h, keys[1..]);
      GroupSumSnoc(hits, h, keys[0]);
      assert keys == [keys[0]] + keys[1..];
    }
  }

  /** Summing per group over distinct keys that cover every hit sums every hit once. */
  lemma {:induction false} SumOverAll(hits: seq<Row>, keys: seq<ActivityKey>)
    requires NoDup(keys)
    requires forall i :: 0 <= i < |hits| ==> KeyOfRow(hits[i]) in keys
    ensures SumOver(hits, keys) == SumCounts(hits)
  {
    if hits == [] {
      SumOverEmpty(keys);
    } else {
      var p := hits[..|hits| - 1];
      forall i | 0 <= i < |p| ensures KeyOfRow(p[i]) in keys {
        assert p[i] == hits[i];
      }
      SumOverAll(p, keys);
      SumOverStep(p, hits[|hits| - 1], keys);
      assert hits == p + [hits[|hits| - 1]];
    }
  }

  /** One more covered hit adds its count on both sides. */
  lemma SumOverStep(p: seq<Row>, h: Row, keys: seq<ActivityKey>)
    requires NoDup(keys) && KeyOfRow(h) in keys
    requires SumOver(p, keys) == SumCounts(p)
    ensures SumOver(p + [h], keys) == SumCounts(p + [h])
  {
    SumOverSnoc(p, h, keys);
    assert (p + [h])[..|p|] == p;
  }

  lemma {:induction false} SumOverEmpty(keys: seq<ActivityKey>)
    ensures SumOver([], keys) == 0
  {
    if keys != [] {
      SumOverEmpty(keys[1..]);
    }
  }

  /** The per-activity totals add up to the sum of the hits' counts. */
  lemma ActivityTotalsSum(hits: seq<Row>)
    ensures SumTotals(ActivityTable(hits)) == SumCounts(hits)
  {
    var keys := ActivityGroupKeys(hits);
    ActivityGroupKeysFacts(hits);
    SumTotalsRowsFor(hits, keys);
    forall i | 0 <= i < |hits| ensures KeyOfRow(hits[i]) in keys {
      assert RowKeys(hits)[i] == KeyOfRow(hits[i]);
    }
    SumOverAll(hits, keys);
  }

  // ---------------------------------------------------------------- per person

  /** The per-person grouping key. */
  datatype PersonKey = PersonKey(studentId: string, studentName: string)

  function PersonOf(a: ActivityRow): PersonKey {
    PersonKey(a.studentId, a.studentName)
  }

  predicate OfPerson(a: ActivityRow, p: PersonKey) {
    PersonOf(a) == p
  }

  function PersonSortKey(p: PersonKey): seq<string> {
    [p.studentId, p.studentName]
  }

  function PersonKeys(t: seq<ActivityRow>): (ps: seq<PersonKey>)
    ensures |ps| == |t|
    ensures forall i :: 0 <= i < |t| ==> ps[i] == PersonOf(t[i])
  {
    seq(|t|, i requires 0 <= i < |t| => PersonOf(t[i]))
  }

  function ActivitiesOf(t: seq<ActivityRow>): (acts: seq<string>)
    ensures |acts| == |t|
    ensures forall i :: 0 <= i < |t| ==> acts[i] == t[i].activity
  {
    seq(|t|, i requires 0 <= i < |t| => t[i].activity)
  }

  /** The activities of one person's per-activity rows. */
  function PersonActivities(t: seq<ActivityRow>, p: PersonKey): seq<string> {
    ActivitiesOf(Filter(t, OfPerson, p))
  }

  /** One per-person row: the number of distinct activities and their sorted list, joined. */
  datatype PersonRow = PersonRow(studentId: string, studentName: string, activityCount: nat, activityList: string)

  function PersonRowFor(t: seq<ActivityRow>, p: PersonKey, sep: string): PersonRow {
    var acts := PersonActivities(t, p);
    PersonRow(p.studentId, p.studentName, |Dedup(acts)|, Join(SortedUnique(acts), sep))
  }

  function PersonRowsFor(t: seq<ActivityRow>, ps: seq<PersonKey>, sep: string): (r: seq<PersonRow>)
    ensures |r| == |ps|
    ensures forall i :: 0 <= i < |ps| ==> r[i] == PersonRowFor(t, ps[i], sep)
  {
    if ps == [] then [] else [PersonRowFor(t, ps[0], sep)] + PersonRowsFor(t, ps[1..], sep)
  }

  function PersonGroupKeys(t: seq<ActivityRow>): seq<PersonKey> {
    SortBy(Dedup(PersonKeys(t)), PersonSortKey)
  }

  /**
   * `per_person`: `per_activity.groupby([id, name])` with the number of distinct
   * activities and `sep.join(sorted(set(activities)))`.
   */
  function PersonTable(t: seq<ActivityRow>, sep: string): seq<PersonRow> {
    PersonRowsFor(t, PersonGroupKeys(t), sep)
  }

  lemma PersonSortKeyInjective()
    ensures Injective(PersonSortKey)
  {
    forall a, b | PersonSortKey(a) == PersonSortKey(b) ensures a == b {
      assert PersonSortKey(a)[0] == a.studentId && PersonSortKey(a)[1] == a.studentName;
    }
  }

  function PersonRowKey(r: PersonRow): PersonKey {
    PersonKey(r.studentId, r.studentName)
  }

  /** The keys of the per-person rows, in table order. */
  function PersonTableKeys(r: seq<PersonRow>): (ps: seq<PersonKey>)
    ensures |ps| == |r|
    ensures forall i :: 0 <= i < |r| ==> ps[i] == PersonRowKey(r[i])
  {
    seq(|r|, i requires 0 <= i < |r| => PersonRowKey(r[i]))
  }

  /** One per-person row per distinct (id, name), in strictly increasing key order. */
  lemma PersonTableFacts(t: seq<ActivityRow>, sep: string)
    ensures var ps := PersonTableKeys(PersonTable(t, sep));
      && NoDup(ps)
      && (forall p :: p in ps <==> p in PersonKeys(t))
      && (forall i, j :: 0 <= i < j < |ps| ==> KeyLess(PersonSortKey(ps[i]), PersonSortKey(ps[j])))
  {
    assert PersonTableKeys(PersonTable(t, sep)) == PersonGroupKeys(t);
    PersonSortKeyInjective();
    SortUniqueFacts(PersonKeys(t), PersonSortKey);
  }

  /** An activity is one of a person's exactly when the table has a row for that person and activity. */
  lemma PersonActivitiesMember(t: seq<ActivityRow>, p: PersonKey, a: string)
    ensures a in PersonActivities(t, p) <==> ActivityKey(p.studentId, p.studentName, a) in TableKeys(t)
  {
    var f := Filter(t, OfPerson, p);
    var k := ActivityKey(p.studentId, p.studentName, a);
    if a in PersonActivities(t, p) {
      var i :| 0 <= i < |f| && f[i].activity == a;
      assert f[i] in t && OfPerson(f[i], p);
      var j :| 0 <= j < |t| && t[j] == f[i];
      assert TableKeys(t)[j] == k;
    }
    if k in TableKeys(t) {
      var i :| 0 <= i < |t| && KeyOfActivity(t[i]) == k;
      assert t[i] in f;
      var j :| 0 <= j < |f| && f[j] == t[i];
      assert PersonActivities(t, p)[j] == a;
    }
  }

  /**
   * A person's activity list names, once each and in increasing order, exactly the
   * activities of the hits with that person's id and name; the activity count is
   * the length of that list.
   */
  lemma PersonActivitiesSpec(hits: seq<Row>, p: PersonKey)
    ensures var acts := SortedUnique(PersonActivities(ActivityTable(hits), p));
      && (forall a :: a in acts <==> ActivityKey(p.studentId, p.studentName, a) in RowKeys(hits))
      && (forall i, j :: 0 <= i < j < |acts| ==> StrLess(acts[i], acts[j]))
      && |acts| == |Dedup(PersonActivities(ActivityTable(hits), p))|
  {
    var t := ActivityTable(hits);
    SortedUniqueFacts(PersonActivities(t, p));
    ActivityTableKeys(hits);
    forall a ensures a in PersonActivities(t, p) <==> ActivityKey(p.studentId, p.studentName, a) in RowKeys(hits) {
      PersonActivitiesMember(t, p, a);
    }
  }

  // ---------------------------------------------------------------- the report

  /** The four frames: the detail rows, the two groupings and the class hits. */
  datatype ReportTables = ReportTables(
    detail: seq<Row>, perActivity: seq<ActivityRow>, perPerson: seq<PersonRow>, classHits: seq<Row>)

  /**
   * `build_report_tables` (separator "、") and reporting.py's `build_report_frames`
   * (whose separator literal is two replacement characters), as intended: an empty
   * row list gives four empty tables.
   */
  function BuildReportTables(rows: seq<Row>, dir: Directory, studentTypes: set<string>, classLabel: string, sep: string): (r: ReportTables)
    ensures r.detail == rows
    ensures forall x :: x in r.classHits <==> x in rows && IsClassHit(x, classLabel)
    ensures |r.classHits| == CountIf(rows, x => IsClassHit(x, classLabel))
    ensures r.perActivity == [] <==> Filter(rows, IsStudentHit, studentTypes) == []
    ensures r.perPerson == [] <==> r.perActivity == []
  {
    var hits := ReportHits(rows, dir, studentTypes);
    var t := ActivityTable(hits);
    EmptyTables(hits, sep);
    ClassHitCount(rows, classLabel);
    ReportTables(rows, t, PersonTable(t, sep), Filter(rows, IsClassHit, classLabel))
  }

  /** As many rows pass the class-hit filter as `CountIf` counts. */
  lemma {:induction false} ClassHitCount(rows: seq<Row>, classLabel: string)
    ensures |Filter(rows, IsClassHit, classLabel)| == CountIf(rows, x => IsClassHit(x, classLabel))
  {
    if rows != [] {
      ClassHitCount(rows[..|rows| - 1], classLabel);
    }
  }

  /**
   * The class hits keep the rows' order: no rows give no class hits, and one more
   * row is appended to them exactly when it is a class hit.
   */
  lemma ClassHitsSnoc(rows: seq<Row>, x: Row, dir: Directory, studentTypes: set<string>, classLabel: string, sep: string)
    ensures BuildReportTables([], dir, studentTypes, classLabel, sep).classHits == []
    ensures BuildReportTables(rows + [x], dir, studentTypes, classLabel, sep).classHits ==
      BuildReportTables(rows, dir, studentTypes, classLabel, sep).classHits + (if IsClassHit(x, classLabel) then [x] else [])
  {
    FilterSnoc(rows, x, IsClassHit, classLabel);
  }

  /** No hits, no groups; and no per-activity rows, no persons. */
  lemma EmptyTables(hits: seq<Row>, sep: string)
    ensures ActivityTable(hits) == [] <==> hits == []
    ensures PersonTable(ActivityTable(hits), sep) == [] <==> hits == []
  {
    var t := ActivityTable(hits);
    ActivityTableKeys(hits);
    PersonTableFacts(t, sep);
    if hits != [] {
      assert RowKeys(hits)[0] in RowKeys(hits);
      assert |TableKeys(t)| > 0;
      assert PersonKeys(t)[0] in PersonKeys(t);
    }
  }

  /**
   * `build_report_tables` as written: the frame built from an empty row list has
   * no columns, so selecting the status column raises (None here).
   */
  function BuildReportTablesAsWritten(rows: seq<Row>, dir: Directory, studentTypes: set<string>, classLabel: string): (r: Option<ReportTables>)
    ensures r.Some? ==> r.value == BuildReportTables(rows, dir, studentTypes, classLabel, ActivityListSeparator)
  {
    if rows == [] then None else Some(BuildReportTables(rows, dir, studentTypes, classLabel, ActivityListSeparator))
  }

  /** A run whose every document scanned cleanly and produced no row reaches the column lookup with no rows and fails. */
  lemma NoRowsRaises(dir: Directory, studentTypes: set<string>, classLabel: string)
    ensures BuildReportTablesAsWritten([], dir, studentTypes, classLabel).None?
    ensures BuildReportTables([], dir, studentTypes, classLabel, ActivityListSeparator) == ReportTables([], [], [], [])
  {
    EmptyTables([], ActivityListSeparator);
  }

  // ---------------------------------------------------------------- the detail sheet

  /** The columns of the detail frame; any further column is `Other`. */
  datatype Column = FilePathColumn | ActivityColumn | StatusColumn | MatchTypeColumn | MatchValueColumn
    | StudentIdColumn | StudentNameColumn | SnippetColumn | MatchCountColumn | Other(name: string)

  /** Columns moved to the front, in this order, when present. */
  const LeadColumns: seq<Column> := [StudentNameColumn, ActivityColumn, FilePathColumn]

  /** Columns hidden in the sheet, moved to the end in this order when present. */
  const HiddenColumns: seq<Column> := [StatusColumn, SnippetColumn, MatchTypeColumn, MatchValueColumn, StudentIdColumn, MatchCountColumn]

  predicate IsPresent(c: Column, existing: seq<Column>) {
    c in existing
  }

  predicate IsRest(c: Column, lead: seq<Column>) {
    c !in lead && c !in HiddenColumns
  }

  /** `ordered_cols`: the present lead columns, the other columns in frame order, the present hidden columns. */
  function OrderColumns(existing: seq<Column>): (r: seq<Column>) {
    var lead := Filter(LeadColumns, IsPresent, existing);
    if existing == [] then existing
    else lead + Filter(existing, IsRest, lead) + Filter(HiddenColumns, IsPresent, existing)
  }

  /** The lead and hidden columns are distinct and have none in common. */
  lemma FixedColumnsDisjoint()
    ensures NoDup(LeadColumns) && NoDup(HiddenColumns)
    ensures forall c :: c in LeadColumns ==> c !in HiddenColumns
  {
  }

  /**
   * The reordering is a permutation of the frame's (distinct) columns: every
   * column appears exactly once, none is lost or added.
   */
  lemma OrderColumnsPermutation(existing: seq<Column>)
    requires NoDup(existing)
    ensures var r := OrderColumns(existing);
      && NoDup(r)
      && (forall c :: c in r <==> c in existing)
      && |r| == |existing|
  {
    var r := OrderColumns(existing);
    if existing != [] {
      var lead := Filter(LeadColumns, IsPresent, existing);
      var rest := Filter(existing, IsRest, lead);
      var tail := Filter(HiddenColumns, IsPresent, existing);
      FixedColumnsDisjoint();
      FilterNoDup(LeadColumns, IsPresent, existing);
      FilterNoDup(existing, IsRest, lead);
      FilterNoDup(HiddenColumns, IsPresent, existing);
      NoDupConcat(lead, rest);
      NoDupConcat(lead + rest, tail);
      assert r == lead + rest + tail;
      assert (set c | c in r) == (set c | c in existing);
      NoDupCard(r);
      NoDupCard(existing);
    }
  }

  /** The sort key of a detail row: name, then activity, then path. */
  function DetailSortKey(r: Row): seq<string> {
    [r.studentName, r.activity, r.path]
  }

  /** `detail.sort_values(by=[name, activity, path], kind="mergesort")` */
  function SortDetail(rows: seq<Row>): (r: seq<Row>)
    ensures multiset(r) == multiset(rows)
  {
    SortBy(rows, DetailSortKey)
  }

  /**
   * The sorted detail sheet is a permutation of the rows, ordered by name, activity
   * and path, and rows with equal keys keep their relative order.
   */
  lemma SortDetailSpec(rows: seq<Row>, k: seq<string>)
    ensures var r := SortDetail(rows);
      && (forall i, j :: 0 <= i < j < |r| ==> !KeyLess(DetailSortKey(r[j]), DetailSortKey(r[i])))
      && WithKey(r, DetailSortKey, k) == WithKey(rows, DetailSortKey, k)
  {
    SortBySorted(rows, DetailSortKey);
    SortByStable(rows, DetailSortKey, k);
  }
}

=== FILE: roster.dfy ===
/**
 * The roster directory: a name → student-id map (in configuration order) and the
 * lookups derived from it — the dot-tolerant variant lookup, the list of names to
 * search for, and the id → name inverse.
 */
module Roster {
  import opened Wrappers
  import opened Strings
  import opened Dicts
  import opened Seqs

  /** The middle dot used in transliterated names ("阿依·买买提"). */
  const Dot: char := '·'

  /** The configured roster: (name, student id) entries with distinct names. */
  type StudentMap = Dict<string, string>

  /** `name.replace("·", "")` */
  function Dotless(name: string): (r: string)
    ensures Dot !in r
    ensures Dot in name ==> r != name
    ensures Dot !in name ==> r == name
  {
    RemoveChar(name, Dot)
  }

  /** The variant-lookup keys a roster entry offers: its name, and its dotless form when dotted. */
  predicate Introduces(e: (string, string), k: string) {
    e.0 == k || (Dot in e.0 && Dotless(e.0) == k)
  }

  /** One iteration of `build_variant_lookup`: two `setdefault` calls. */
  function VariantStep(d: Dict<string, string>, e: (string, string)): Dict<string, string> {
    var d1 := SetDefault(d, e.0, e.1);
    if Dot in e.0 then SetDefault(d1, Dotless(e.0), e.1) else d1
  }

  /** `build_variant_lookup(student_map)` */
  function VariantLookup(m: StudentMap): (r: Dict<string, string>)
    ensures DistinctKeys(r)
  {
    if m == [] then [] else VariantStep(VariantLookup(m[..|m| - 1]), m[|m| - 1])
  }

  /** The effect of one entry on a single key: an existing key keeps its id. */
  lemma VariantStepGet(d: Dict<string, string>, e: (string, string), k: string)
    ensures Get(VariantStep(d, e), k) ==
      if Get(d, k).Some? then Get(d, k) else if Introduces(e, k) then Some(e.1) else None
  {
    var d1 := SetDefault(d, e.0, e.1);
    SetDefaultGet(d, e.0, e.1, k);
    if Dot in e.0 {
      SetDefaultGet(d1, Dotless(e.0), e.1, k);
    }
  }

  /**
   * First writer wins: a key maps to the id of the earliest roster entry that
   * introduces it, and keys no entry introduces are absent.
   */
  lemma {:induction false} VariantLookupFirstWriter(m: StudentMap, k: string, i: int)
    requires 0 <= i < |m| && Introduces(m[i], k)
    requires forall j :: 0 <= j < i ==> !Introduces(m[j], k)
    ensures Get(VariantLookup(m), k) == Some(m[i].1)
  {
    var p := m[..|m| - 1];
    if i < |p| {
      assert p[i] == m[i];
      assert forall j :: 0 <= j < i ==> !Introduces(p[j], k);
      VariantLookupFirstWriter(p, k, i);
      VariantLookupLastStep(m, p, k);
    } else {
      assert i == |m| - 1;
      assert forall j :: 0 <= j < |p| ==> !Introduces(p[j], k);
      VariantLookupAbsent(p, k);
      VariantLookupLastStep(m, p, k);
    }
  }

  /** How the last roster entry changes the lookup of one key. */
  lemma VariantLookupLastStep(m: StudentMap, p: StudentMap, k: string)
    requires m != [] && p == m[..|m| - 1]
    ensures Get(VariantLookup(p), k).Some? ==> Get(VariantLookup(m), k) == Get(VariantLookup(p), k)
    ensures Get(VariantLookup(p), k).None? && Introduces(m[|m| - 1], k) ==> Get(VariantLookup(m), k) == Some(m[|m| - 1].1)
  {
    assert VariantLookup(m) == VariantStep(VariantLookup(p), m[|m| - 1]);
    VariantStepGet(VariantLookup(p), m[|m| - 1], k);
  }

  /** A key is absent from the variant lookup exactly when no roster entry introduces it. */
  lemma {:induction false} VariantLookupAbsent(m: StudentMap, k: string)
    ensures Get(VariantLookup(m), k).None? <==> forall i :: 0 <= i < |m| ==> !Introduces(m[i], k)
  {
    if m != [] {
      var p := m[..|m| - 1];
      VariantLookupAbsent(p, k);
      VariantStepGet(VariantLookup(p), m[|m| - 1], k);
      IntroducesSnoc(m, p, k);
    }
  }

  /** No entry of `m` introduces `k` iff no entry of its prefix `p` does and its last entry does not. */
  lemma IntroducesSnoc(m: StudentMap, p: StudentMap, k: string)
    requires m != [] && p == m[..|m| - 1]
    ensures (forall i :: 0 <= i < |m| ==> !Introduces(m[i], k)) <==>
      (forall i :: 0 <= i < |p| ==> !Introduces(p[i], k)) && !Introduces(m[|m| - 1], k)
  {
    assert forall i :: 0 <= i < |p| ==> p[i] == m[i];
  }

  /** The variant-lookup keys are the roster names plus the dotless form of every dotted name. */
  lemma VariantLookupKeys(m: StudentMap, k: string)
    ensures k in Keys(VariantLookup(m)) <==>
      k in Keys(m) || exists i :: 0 <= i < |m| && Dot in m[i].0 && Dotless(m[i].0) == k
  {
    var d := VariantLookup(m);
    VariantLookupAbsent(m, k);
    InKeys(d, k);
    InKeys(m, k);
    if Get(d, k).Some? {
      var i :| 0 <= i < |m| && Introduces(m[i], k);
      if m[i].0 == k {
        assert Get(m, k).Some?;
      }
    }
    if Get(m, k).Some? {
      assert (k, Get(m, k).value) in m;
      var i :| 0 <= i < |m| && m[i] == (k, Get(m, k).value);
      assert Introduces(m[i], k);
    }
  }

  /**
   * A roster name finds its own id unless an earlier dotted name strips to it, in
   * which case that earlier entry's id shadows it.
   */
  lemma NameFindsOwnId(m: StudentMap, i: int)
    requires 0 <= i < |m| && DistinctKeys(m)
    requires forall j :: 0 <= j < i ==> !(Dot in m[j].0 && Dotless(m[j].0) == m[i].0)
    ensures Get(VariantLookup(m), m[i].0) == Some(m[i].1)
  {
    VariantLookupFirstWriter(m, m[i].0, i);
  }

  /** The dotless forms of the dotted names in `names` that are not in `all`. */
  function DotlessExtras(names: seq<string>, all: seq<string>): (r: seq<string>)
    ensures forall x :: x in r ==> Dot !in x && x !in all
    ensures forall x :: x in r <==> exists i :: 0 <= i < |names| && Dot in names[i] && Dotless(names[i]) == x && x !in all
  {
    if names == [] then []
    else
      var rest := DotlessExtras(names[1..], all);
      assert forall i :: 1 <= i < |names| ==> names[i] == names[1..][i - 1];
      var head := names[0];
      if Dot in head && Dotless(head) !in all then [Dotless(head)] + rest else rest
  }

  /**
   * `build_search_candidates(student_map)`: every roster name in map order, then the
   * dotless forms of dotted names that are not themselves roster names.
   */
  function SearchCandidates(m: StudentMap): (r: seq<string>)
    ensures |r| >= |m| && r[..|m|] == Keys(m)
    ensures forall j :: |m| <= j < |r| ==> Dot !in r[j] && r[j] !in Keys(m)
    ensures forall x :: x in r[|m|..] <==>
      x !in Keys(m) && exists i :: 0 <= i < |m| && Dot in m[i].0 && Dotless(m[i].0) == x
  {
    var names := Keys(m);
    var extras := DotlessExtras(names, names);
    assert (names + extras)[|m|..] == extras;
    names + extras
  }

  /** `{student_id: name for name, student_id in student_map.items()}` */
  function InvertIds(m: StudentMap): (r: Dict<string, string>)
    ensures DistinctKeys(r)
  {
    if m == [] then [] else Put(InvertIds(m[..|m| - 1]), m[|m| - 1].1, m[|m| - 1].0)
  }

  /** The student ids of the roster in map order (duplicates kept). */
  function Ids(m: StudentMap): (ids: seq<string>)
    ensures |ids| == |m|
    ensures forall i :: 0 <= i < |m| ==> ids[i] == m[i].1
  {
    if m == [] then [] else Ids(m[..|m| - 1]) + [m[|m| - 1].1]
  }

  /** The inverse lists each id once, where it first appears in the roster. */
  lemma {:induction false} InvertIdsKeys(m: StudentMap)
    ensures Keys(InvertIds(m)) == Dedup(Ids(m))
  {
    if m != [] {
      var p := m[..|m| - 1];
      var e := m[|m| - 1];
      InvertIdsKeys(p);
      PutKeys(InvertIds(p), e.1, e.0);
      assert Ids(m) == Ids(p) + [e.1];
      DedupSnoc(Ids(p), e.1);
    }
  }

  /** Last writer wins: an id maps to the name of the last roster entry carrying it. */
  lemma {:induction false} InvertIdsLastWriter(m: StudentMap, id: string, i: int)
    requires 0 <= i < |m| && m[i].1 == id
    requires forall j :: i < j < |m| ==> m[j].1 != id
    ensures Get(InvertIds(m), id) == Some(m[i].0)
  {
    var p := m[..|m| - 1];
    InvertStepGet(InvertIds(p), m[|m| - 1], id);
    if i < |m| - 1 {
      assert p[i] == m[i];
      assert forall j :: i < j < |p| ==> p[j].1 != id;
      InvertIdsLastWriter(p, id, i);
    } else {
      assert i == |m| - 1;
    }
  }

  /** The effect of one entry on a single id: the entry's name replaces any earlier one. */
  lemma InvertStepGet(d: Dict<string, string>, e: (string, string), id: string)
    ensures Get(Put(d, e.1, e.0), id) == if e.1 == id then Some(e.0) else Get(d, id)
  {
    PutGet(d, e.1, e.0, id);
  }

  /** An id is absent from the inverse exactly when no roster entry carries it. */
  lemma {:induction false} InvertIdsAbsent(m: StudentMap, id: string)
    ensures Get(InvertIds(m), id).None? <==> id !in Ids(m)
  {
    if m != [] {
      var p := m[..|m| - 1];
      var e := m[|m| - 1];
      InvertIdsAbsent(p, id);
      InvertStepGet(InvertIds(p), e, id);
      assert Ids(m) == Ids(p) + [e.1];
    }
  }

  /** `StudentDirectory`: the four lookups built from one roster. */
  datatype Directory = Directory(
    nameToId: StudentMap,
    idToName: Dict<string, string>,
    searchableNames: seq<string>,
    variantLookup: Dict<string, string>)
  {
    /** `find_student_id(name)`: the variant lookup, None when absent. */
    function FindStudentId(name: string): (r: Option<string>)
      ensures r.None? <==> name !in Keys(variantLookup)
    {
      Get(variantLookup, name)
    }

    /** `resolve_name(student_id)`: the inverse map, None when absent. */
    function ResolveName(id: string): (r: Option<string>)
      ensures r.None? <==> id !in Keys(idToName)
    {
      Get(idToName, id)
    }

    /** `student_names()`: the roster names in map order. */
    function StudentNames(): seq<string> {
      Keys(nameToId)
    }

    /** `student_ids()`: the distinct ids in first-appearance order. */
    function StudentIds(): seq<string> {
      Keys(idToName)
    }
  }

  /** `StudentDirectory.from_mapping(student_map)` */
  function FromMapping(m: StudentMap): (dir: Directory)
    ensures dir.nameToId == m
    ensures dir.StudentIds() == Dedup(Ids(m))
    ensures DistinctKeys(dir.idToName) && DistinctKeys(dir.variantLookup)
    ensures forall i :: 0 <= i < |m| ==> dir.ResolveName(m[i].1).Some?
    ensures forall i :: 0 <= i < |m| ==> dir.FindStudentId(m[i].0).Some?
    ensures |dir.searchableNames| >= |m| && dir.searchableNames[..|m|] == Keys(m)
  {
    InvertIdsKeys(m);
    forall i | 0 <= i < |m| ensures Get(InvertIds(m), m[i].1).Some? {
      InvertIdsAbsent(m, m[i].1);
      assert Ids(m)[i] == m[i].1;
    }
    forall i | 0 <= i < |m| ensures Get(VariantLookup(m), m[i].0).Some? {
      VariantLookupAbsent(m, m[i].0);
      assert Introduces(m[i], m[i].0);
    }
    Directory(m, InvertIds(m), SearchCandidates(m), VariantLookup(m))
  }
}

=== FILE: search.dfy ===
/**
 * Literal substring search: `str.find`, `in`, the non-overlapping leftmost-greedy
 * occurrence list of `find_occurrences` and the snippet window of `get_text_context`.
 */
module Search {
  import opened Strings

  /** `tok` occurs in `text` starting at index `i`. */
  predicate OccursAt(text: string, tok: string, i: int) {
    0 <= i && i + |tok| <= |text| && text[i..i + |tok|] == tok
  }

  /** `text.find(tok, start)`: the leftmost occurrence at or after `start`, or -1. */
  function Find(text: string, tok: string, start: nat): (r: int)
    requires start <= |text|
    ensures r == -1 || (start <= r && OccursAt(text, tok, r))
    ensures r == -1 ==> forall p :: start <= p ==> !OccursAt(text, tok, p)
    ensures r >= 0 ==> forall p :: start <= p < r ==> !OccursAt(text, tok, p)
    decreases |text| - start
  {
    if start + |tok| > |text| then -1
    else if text[start..start + |tok|] == tok then start
    else Find(text, tok, start + 1)
  }

  /** `tok in text` */
  function Contains(text: string, tok: string): (b: bool)
    ensures b <==> exists i :: OccursAt(text, tok, i)
  {
    Find(text, tok, 0) >= 0
  }

  /** No occurrence of `tok` starts in `[lo, hi)`. */
  ghost predicate NoneBetween(text: string, tok: string, lo: int, hi: int) {
    forall p :: lo <= p < hi ==> !OccursAt(text, tok, p)
  }

  /** No occurrence of `tok` starts at or after `lo`. */
  ghost predicate NoneFrom(text: string, tok: string, lo: int) {
    forall p :: lo <= p ==> !OccursAt(text, tok, p)
  }

  /**
   * `r` is what scanning `text` for `tok` from `start` yields when the scan takes
   * the leftmost occurrence each time and resumes right after its end: the first
   * entry is the first occurrence at or after `start`, the rest is the scan from
   * that occurrence's end, and the scan stops once no occurrence remains.
   */
  ghost predicate IsGreedyScan(text: string, tok: string, start: int, r: seq<nat>)
    decreases |r|
  {
    if |r| == 0 then NoneFrom(text, tok, start)
    else
      && start <= r[0]
      && OccursAt(text, tok, r[0])
      && NoneBetween(text, tok, start, r[0])
      && IsGreedyScan(text, tok, r[0] + |tok|, r[1..])
  }

  /** The loop of `find_occurrences` from position `start` on. */
  function OccurrencesFrom(text: string, tok: string, start: nat): seq<nat>
    requires |tok| > 0 && start <= |text|
    decreases |text| - start
  {
    var i := Find(text, tok, start);
    if i < 0 then []
    else [i] + OccurrencesFrom(text, tok, i + |tok|)
  }

  /** The loop performs a greedy scan. */
  lemma {:induction false} OccurrencesFromGreedy(text: string, tok: string, start: nat)
    requires |tok| > 0 && start <= |text|
    ensures IsGreedyScan(text, tok, start, OccurrencesFrom(text, tok, start))
    decreases |text| - start
  {
    var i := Find(text, tok, start);
    if i >= 0 {
      OccurrencesFromGreedy(text, tok, i + |tok|);
      var r := OccurrencesFrom(text, tok, start);
      assert r[1..] == OccurrencesFrom(text, tok, i + |tok|);
    }
  }

  /**
   * `find_occurrences(text, token)` (and `find_all_indices`): an empty token gives [];
   * otherwise every entry is a true occurrence, later entries start after earlier
   * ones end, and no occurrence is skipped between them.
   */
  function Occurrences(text: string, tok: string): (r: seq<nat>)
    ensures tok == [] ==> r == []
    ensures tok != [] ==> IsGreedyScan(text, tok, 0, r)
    ensures forall k :: 0 <= k < |r| ==> OccursAt(text, tok, r[k])
    ensures forall j, k :: 0 <= j < k < |r| ==> r[j] + |tok| <= r[k] && r[j] < r[k]
  {
    if tok == [] then []
    else
      var r := OccurrencesFrom(text, tok, 0);
      OccurrencesFromGreedy(text, tok, 0);
      GreedyScanFacts(text, tok, 0, r);
      r
  }

  /** A non-empty token yields no occurrence index exactly when it does not occur in the text. */
  lemma OccurrencesEmptyIff(text: string, tok: string)
    requires tok != []
    ensures Occurrences(text, tok) == [] <==> !Contains(text, tok)
  {
    var r := Occurrences(text, tok);
    if r != [] {
      assert OccursAt(text, tok, r[0]);
    }
  }

  /** Flat consequences of a greedy scan: true occurrences, non-overlapping, in order. */
  lemma {:induction false} GreedyScanFacts(text: string, tok: string, start: int, r: seq<nat>)
    requires |tok| > 0
    requires IsGreedyScan(text, tok, start, r)
    ensures forall k :: 0 <= k < |r| ==> start <= r[k] && OccursAt(text, tok, r[k])
    ensures forall j, k :: 0 <= j < k < |r| ==> r[j] + |tok| <= r[k]
    decreases |r|
  {
    if |r| > 0 {
      var rest := r[1..];
      GreedyScanFacts(text, tok, r[0] + |tok|, rest);
      forall k | 0 < k < |r| ensures r[0] + |tok| <= r[k] && OccursAt(text, tok, r[k]) {
        assert r[k] == rest[k - 1];
      }
      forall j, k | 0 <= j < k < |r| ensures r[j] + |tok| <= r[k] {
        if j > 0 {
          assert r[j] == rest[j - 1] && r[k] == rest[k - 1];
        }
      }
    }
  }

  /** Every occurrence at or after `start` is covered by a span of the scan or was never reachable. */
  lemma {:induction false} GreedyScanComplete(text: string, tok: string, start: int, r: seq<nat>, p: int)
    requires |tok| > 0
    requires IsGreedyScan(text, tok, start, r)
    requires start <= p && OccursAt(text, tok, p)
    ensures exists k :: 0 <= k < |r| && r[k] <= p < r[k] + |tok|
    decreases |r|
  {
    if |r| > 0 {
      if p >= r[0] + |tok| {
        GreedyScanComplete(text, tok, r[0] + |tok|, r[1..], p);
        var k :| 0 <= k < |r[1..]| && r[1..][k] <= p < r[1..][k] + |tok|;
        assert r[k + 1] == r[1..][k];
      } else {
        assert r[0] <= p;
      }
    }
  }

  /** The greedy-scan property determines the scan result: it is the only such list. */
  lemma {:induction false} GreedyScanUnique(text: string, tok: string, start: nat, r: seq<nat>)
    requires |tok| > 0 && start <= |text|
    requires IsGreedyScan(text, tok, start, r)
    ensures r == OccurrencesFrom(text, tok, start)
    decreases |text| - start
  {
    if |r| == 0 {
      FindNone(text, tok, start);
    } else {
      var next := r[0] + |tok|;
      assert OccursAt(text, tok, r[0]) && IsGreedyScan(text, tok, next, r[1..]);
      assert next <= |text|;
      FindFirst(text, tok, start, r[0]);
      GreedyScanUnique(text, tok, next, r[1..]);
      assert OccurrencesFrom(text, tok, start) == [r[0]] + OccurrencesFrom(text, tok, next);
      assert r == [r[0]] + r[1..];
    }
  }

  /** Without an occurrence at or after `start`, `find` reports -1. */
  lemma FindNone(text: string, tok: string, start: nat)
    requires start <= |text| && NoneFrom(text, tok, start)
    ensures Find(text, tok, start) == -1
  {
    var f := Find(text, tok, start);
    assert f >= 0 ==> OccursAt(text, tok, f);
  }

  /** `find` reports the first occurrence at or after `start`. */
  lemma FindFirst(text: string, tok: string, start: nat, q: int)
    requires start <= q && start <= |text| && OccursAt(text, tok, q) && NoneBetween(text, tok, start, q)
    ensures Find(text, tok, start) == q
  {
    var f := Find(text, tok, start);
    assert f != -1 by {
      assert f == -1 ==> !OccursAt(text, tok, q);
    }
    assert f >= q by {
      assert f < q ==> !OccursAt(text, tok, f);
    }
    assert f <= q by {
      assert f > q ==> !OccursAt(text, tok, q);
    }
  }

  /** Default snippet half-width of `get_text_context`. */
  const ContextSpan: nat := 20

  function Max(a: int, b: int): int { if a < b then b else a }
  function Min(a: int, b: int): int { if a < b then a else b }

  /**
   * `get_text_context(text, index, length, span)`: the window
   * `text[max(0, index - span) : min(len(text), index + length + span)]` with every
   * newline replaced by a space.
   */
  function Context(text: string, index: nat, length: nat, span: nat): (r: string)
    ensures '\n' !in r
    ensures |r| <= length + 2 * span
    ensures var lo := Max(0, index - span); var hi := Min(|text|, index + length + span);
      && |r| == (if lo < hi then hi - lo else 0)
      && forall k :: 0 <= k < |r| ==> r[k] == Flatten(text[lo + k])
  {
    var lo := Max(0, index - span);
    var hi := Min(|text|, index + length + span);
    var window := if lo < hi then text[lo..hi] else [];
    var r := ReplaceChar(window, '\n', ' ');
    assert forall k :: 0 <= k < |r| ==> r[k] != '\n';
    assert forall k :: 0 <= k < |r| ==> r[k] == Flatten(window[k]);
    r
  }

  /** A snippet character: newlines become spaces. */
  function Flatten(c: char): char {
    if c == '\n' then ' ' else c
  }

  /** The snippet around an occurrence shows the token, newlines flattened, at offset `index - lo`. */
  lemma ContextShowsToken(text: string, tok: string, index: nat, span: nat)
    requires OccursAt(text, tok, index)
    ensures var r := Context(text, index, |tok|, span); var off := index - Max(0, index - span);
      && 0 <= off && off + |tok| <= |r|
      && forall k :: 0 <= k < |tok| ==> r[off + k] == Flatten(tok[k])
  {
    ContextWindowAt(text, tok, index, span, Context(text, index, |tok|, span), Max(0, index - span));
  }

  lemma ContextWindowAt(text: string, tok: string, index: nat, span: nat, r: string, lo: int)
    requires index + |tok| <= |text| && text[index..index + |tok|] == tok
    requires lo == Max(0, index - span)
    requires |r| == Min(|text|, index + |tok| + span) - lo
    requires forall k :: 0 <= k < |r| ==> r[k] == Flatten(text[lo + k])
    ensures 0 <= index - lo && index - lo + |tok| <= |r|
    ensures forall k :: 0 <= k < |tok| ==> r[index - lo + k] == Flatten(tok[k])
  {
    forall k | 0 <= k < |tok| ensures r[index - lo + k] == Flatten(tok[k]) {
      assert text[index + k] == text[index..index + |tok|][k];
    }
  }
}

=== FILE: seqs.dfy ===
/** Sequence helpers shared by the scanner and the report: de-duplication in first-appearance order. */
module Seqs {

  /** No element is listed twice. */
  predicate NoDup<T(==)>(s: seq<T>) {
    forall i, j :: 0 <= i < j < |s| ==> s[i] != s[j]
  }

  /** `if x not in s: s.append(x)` */
  function AppendNew<T(==,!new)>(s: seq<T>, x: T): (r: seq<T>)
    ensures NoDup(s) ==> NoDup(r)
    ensures forall y :: y in r <==> y in s || y == x
    ensures x in r
  {
    if x in s then s else s + [x]
  }

  /** The distinct elements of `s`, each where it first appears. */
  function Dedup<T(==,!new)>(s: seq<T>): (r: seq<T>)
    ensures NoDup(r)
    ensures forall x :: x in r <==> x in s
    ensures |r| <= |s|
  {
    if s == [] then [] else AppendNew(Dedup(s[..|s| - 1]), s[|s| - 1])
  }

  /** De-duplicating one more element appends it if new. */
  lemma DedupSnoc<T(!new)>(s: seq<T>, x: T)
    ensures Dedup(s + [x]) == AppendNew(Dedup(s), x)
  {
    assert (s + [x])[..|s|] == s;
  }

  /** Index of the first `x` in `s`, or `|s|`. */
  function FirstIndex<T(==)>(s: seq<T>, x: T): (i: nat)
    ensures i <= |s|
    ensures i < |s| ==> s[i] == x
    ensures forall j :: 0 <= j < i ==> s[j] != x
  {
    if s == [] then 0 else if s[0] == x then 0 else 1 + FirstIndex(s[1..], x)
  }

  /** `Dedup` lists the distinct elements in the order of their first appearance. */
  lemma {:induction false} DedupFirstAppearance<T(!new)>(s: seq<T>, i: int, j: int)
    requires 0 <= i < j < |Dedup(s)|
    ensures FirstIndex(s, Dedup(s)[i]) < FirstIndex(s, Dedup(s)[j])
  {
    var p := s[..|s| - 1];
    var x := s[|s| - 1];
    var d := Dedup(p);
    FirstIndexPrefix(s, Dedup(s)[i]);
    FirstIndexPrefix(s, Dedup(s)[j]);
    if j < |d| {
      DedupFirstAppearance(p, i, j);
    } else {
      assert Dedup(s)[j] == x && x !in p;
      assert Dedup(s)[i] == d[i] && d[i] in p;
    }
  }

  /** Extending a sequence leaves the first index of anything already present unchanged. */
  lemma FirstIndexPrefix<T>(s: seq<T>, y: T)
    requires |s| > 0
    ensures y in s[..|s| - 1] ==> FirstIndex(s, y) == FirstIndex(s[..|s| - 1], y) < |s| - 1
    ensures y !in s[..|s| - 1] && y == s[|s| - 1] ==> FirstIndex(s, y) == |s| - 1
  {
    var p := s[..|s| - 1];
    var i := FirstIndex(s, y);
    var k := FirstIndex(p, y);
    if y in p {
      assert p[k] == s[k];
      assert forall m :: 0 <= m < k ==> s[m] == p[m];
    } else if y == s[|s| - 1] {
      assert forall m :: 0 <= m < |p| ==> s[m] == p[m];
    }
  }

  /** Number of elements of `s` satisfying `keep`. */
  function CountIf<T>(s: seq<T>, keep: T -> bool): (n: nat)
    ensures n <= |s|
  {
    if s == [] then 0 else CountIf(s[..|s| - 1], keep) + (if keep(s[|s| - 1]) then 1 else 0)
  }

  /** The elements of `s` that `keep(_, p)` accepts, in order (a list comprehension with a condition). */
  function Filter<T(!new), P>(s: seq<T>, keep: (T, P) -> bool, p: P): (r: seq<T>)
    ensures |r| <= |s|
    ensures forall x :: x in r <==> x in s && keep(x, p)
  {
    if s == [] then []
    else
      var q := s[..|s| - 1];
      assert s == q + [s[|s| - 1]];
      Filter(q, keep, p) + (if keep(s[|s| - 1], p) then [s[|s| - 1]] else [])
  }

  /** Filtering one more element appends it when it is kept. */
  lemma FilterSnoc<T(!new), P>(s: seq<T>, x: T, keep: (T, P) -> bool, p: P)
    ensures Filter(s + [x], keep, p) == Filter(s, keep, p) + (if keep(x, p) then [x] else [])
  {
    assert (s + [x])[..|s|] == s;
  }

  /** Filtering distributes over concatenation. */
  lemma {:induction false} FilterAppend<T(!new), P>(a: seq<T>, b: seq<T>, keep: (T, P) -> bool, p: P)
    ensures Filter(a + b, keep, p) == Filter(a, keep, p) + Filter(b, keep, p)
    decreases |b|
  {
    if b == [] {
      assert a + b == a;
    } else {
      var q := b[..|b| - 1];
      var x := b[|b| - 1];
      var kept := if keep(x, p) then [x] else [];
      assert a + b == (a + q) + [x];
      assert b == q + [x];
      FilterSnoc(a + q, x, keep, p);
      FilterSnoc(q, x, keep, p);
      FilterAppend(a, q, keep, p);
      calc {
        Filter(a + b, keep, p);
        Filter(a + q, keep, p) + kept;
        (Filter(a, keep, p) + Filter(q, keep, p)) + kept;
        Filter(a, keep, p) + (Filter(q, keep, p) + kept);
        Filter(a, keep, p) + Filter(b, keep, p);
      }
    }
  }

  /** A filter that accepts every element keeps the whole sequence. */
  lemma {:induction false} FilterAll<T(!new), P>(s: seq<T>, keep: (T, P) -> bool, p: P)
    requires forall i :: 0 <= i < |s| ==> keep(s[i], p)
    ensures Filter(s, keep, p) == s
  {
    if s != [] {
      var q := s[..|s| - 1];
      var x := s[|s| - 1];
      assert forall i :: 0 <= i < |q| ==> q[i] == s[i];
      FilterAll(q, keep, p);
      assert s == q + [x];
      FilterSnoc(q, x, keep, p);
      assert keep(x, p);
    }
  }

  /** A filter that accepts no element keeps nothing. */
  lemma {:induction false} FilterNone<T(!new), P>(s: seq<T>, keep: (T, P) -> bool, p: P)
    requires forall i :: 0 <= i < |s| ==> !keep(s[i], p)
    ensures Filter(s, keep, p) == []
  {
    if s != [] {
      var q := s[..|s| - 1];
      FilterNone(q, keep, p);
      assert s == q + [s[|s| - 1]];
    }
  }

  /** Dropping the head keeps a sequence duplicate-free. */
  lemma NoDupTail<T>(s: seq<T>)
    requires NoDup(s) && s != []
    ensures NoDup(s[1..]) && s[0] !in s[1..]
  {
    assert forall i :: 0 <= i < |s| - 1 ==> s[1..][i] == s[i + 1];
  }

  /** Dropping the last element keeps a sequence duplicate-free. */
  lemma NoDupPrefix<T>(s: seq<T>)
    requires NoDup(s) && s != []
    ensures NoDup(s[..|s| - 1]) && s[|s| - 1] !in s[..|s| - 1]
  {
    assert forall i :: 0 <= i < |s| - 1 ==> s[..|s| - 1][i] == s[i];
  }

  /** Two duplicate-free sequences with no common element concatenate to a duplicate-free one. */
  lemma NoDupConcat<T>(a: seq<T>, b: seq<T>)
    requires NoDup(a) && NoDup(b)
    requires forall x :: x in a ==> x !in b
    ensures NoDup(a + b)
  {
    var c := a + b;
    forall i, j | 0 <= i < j < |c| ensures c[i] != c[j] {
      if j < |a| {
        assert c[i] == a[i] && c[j] == a[j];
      } else if i >= |a| {
        assert c[i] == b[i - |a|] && c[j] == b[j - |a|];
      } else {
        assert c[i] in a && c[j] == b[j - |a|];
      }
    }
  }

  /** A duplicate-free sequence has as many elements as its set. */
  lemma {:induction false} NoDupCard<T>(s: seq<T>)
    requires NoDup(s)
    ensures |set x | x in s| == |s|
  {
    if s != [] {
      var p := s[..|s| - 1];
      NoDupPrefix(s);
      NoDupCard(p);
      assert s == p + [s[|s| - 1]];
      assert (set x | x in s) == (set x | x in p) + {s[|s| - 1]};
    }
  }

  /** Filtering keeps a sequence duplicate-free. */
  lemma {:induction false} FilterNoDup<T(!new), P>(s: seq<T>, keep: (T, P) -> bool, p: P)
    requires NoDup(s)
    ensures NoDup(Filter(s, keep, p))
  {
    if s != [] {
      var q := s[..|s| - 1];
      NoDupPrefix(s);
      FilterNoDup(q, keep, p);
      assert s == q + [s[|s| - 1]];
    }
  }

  /** The concatenation of `f(x, p)` over the elements `x` of `s`, in order. */
  function FlatMap<T, P, U>(s: seq<T>, f: (T, P) -> seq<U>, p: P): seq<U> {
    if s == [] then [] else FlatMap(s[..|s| - 1], f, p) + f(s[|s| - 1], p)
  }

  /** A `FlatMap` starts with the piece of the first element. */
  lemma {:induction false} FlatMapCons<T, P, U>(s: seq<T>, f: (T, P) -> seq<U>, p: P)
    requires s != []
    ensures FlatMap(s, f, p) == f(s[0], p) + FlatMap(s[1..], f, p)
  {
    var n := |s|;
    if n > 1 {
      var q := s[..n - 1];
      FlatMapCons(q, f, p);
      assert q[1..] == s[1..][..n - 2];
      assert s[1..][n - 2] == s[n - 1];
    }
  }

  /** An element of a `FlatMap` comes from one of the pieces, and every piece's elements are in it. */
  lemma {:induction false} FlatMapMembers<T, P, U>(s: seq<T>, f: (T, P) -> seq<U>, p: P, x: U)
    ensures x in FlatMap(s, f, p) <==> exists i :: 0 <= i < |s| && x in f(s[i], p)
  {
    if s != [] {
      var q := s[..|s| - 1];
      var last := |s| - 1;
      FlatMapMembers(q, f, p, x);
      if x in FlatMap(s, f, p) && x in FlatMap(q, f, p) {
        var i :| 0 <= i < |q| && x in f(q[i], p);
        assert s[i] == q[i];
      }
      if exists i :: 0 <= i < |s| && x in f(s[i], p) {
        var i :| 0 <= i < |s| && x in f(s[i], p);
        if i < last {
          assert s[i] == q[i];
        }
      }
    }
  }
}

=== FILE: sorting.dfy ===
/**
 * Python's `sorted` and pandas' stable `sort_values(kind="mergesort")` over rows
 * whose sort key is a tuple of strings, compared lexicographically by code point.
 * The sort is an insertion sort that keeps equal keys in their input order.
 */
module Sorting {
  import opened Strings
  import opened Seqs

  /** Python's `<` on tuples of strings: the first differing component decides, a proper prefix first. */
  predicate KeyLess(a: seq<string>, b: seq<string>) {
    if a == [] then b != []
    else b != [] && (StrLess(a[0], b[0]) || (a[0] == b[0] && KeyLess(a[1..], b[1..])))
  }

  lemma {:induction false} KeyLessIrreflexive(a: seq<string>)
    ensures !KeyLess(a, a)
  {
    if a != [] {
      StrLessIrreflexive(a[0]);
      KeyLessIrreflexive(a[1..]);
    }
  }

  lemma {:induction false} KeyLessTransitive(a: seq<string>, b: seq<string>, c: seq<string>)
    requires KeyLess(a, b) && KeyLess(b, c)
    ensures KeyLess(a, c)
  {
    if a != [] {
      if StrLess(a[0], b[0]) && StrLess(b[0], c[0]) {
        StrLessTransitive(a[0], b[0], c[0]);
      } else if a[0] == b[0] && b[0] == c[0] {
        KeyLessTransitive(a[1..], b[1..], c[1..]);
      }
    }
  }

  lemma {:induction false} KeyLessTotal(a: seq<string>, b: seq<string>)
    requires a != b
    ensures KeyLess(a, b) || KeyLess(b, a)
  {
    if a != [] && b != [] {
      if a[0] != b[0] {
        StrLessTotal(a[0], b[0]);
      } else {
        assert a == [a[0]] + a[1..] && b == [b[0]] + b[1..];
        KeyLessTotal(a[1..], b[1..]);
      }
    }
  }

  /** No element's key is smaller than the key of an element before it. */
  predicate SortedBy<T>(s: seq<T>, key: T -> seq<string>) {
    forall i, j :: 0 <= i < j < |s| ==> !KeyLess(key(s[j]), key(s[i]))
  }

  /** Puts `x` in front of the first element whose key is not smaller than its own. */
  function Insert<T>(x: T, s: seq<T>, key: T -> seq<string>): (r: seq<T>)
    ensures multiset(r) == multiset(s) + multiset{x}
    ensures |r| == |s| + 1
  {
    if s == [] then [x]
    else if KeyLess(key(s[0]), key(x)) then
      assert s == [s[0]] + s[1..];
      [s[0]] + Insert(x, s[1..], key)
    else [x] + s
  }

  /** The stable sort of `s` by `key`. */
  function SortBy<T>(s: seq<T>, key: T -> seq<string>): (r: seq<T>)
    ensures multiset(r) == multiset(s)
    ensures |r| == |s|
  {
    if s == [] then []
    else
      assert s == [s[0]] + s[1..];
      Insert(s[0], SortBy(s[1..], key), key)
  }

  /** Every element of a sorted sequence is at least as large as its head. */
  lemma SortedHead<T>(s: seq<T>, key: T -> seq<string>, y: T)
    requires SortedBy(s, key) && s != [] && y in s
    ensures !KeyLess(key(y), key(s[0]))
  {
    var j :| 0 <= j < |s| && s[j] == y;
    if j > 0 {
      assert !KeyLess(key(s[j]), key(s[0]));
    } else {
      KeyLessIrreflexive(key(s[0]));
    }
  }

  /** `x` may go before `y` when `y` is not smaller than an element that is not smaller than `x`. */
  lemma NotLessChain(x: seq<string>, h: seq<string>, y: seq<string>)
    requires !KeyLess(h, x) && !KeyLess(y, h)
    ensures !KeyLess(y, x)
  {
    if KeyLess(y, x) && h != x {
      KeyLessTotal(h, x);
      KeyLessTransitive(y, x, h);
    }
  }

  lemma {:induction false} InsertSorted<T>(x: T, s: seq<T>, key: T -> seq<string>)
    requires SortedBy(s, key)
    ensures SortedBy(Insert(x, s, key), key)
  {
    var r := Insert(x, s, key);
    if s == [] {
    } else if KeyLess(key(s[0]), key(x)) {
      var t := Insert(x, s[1..], key);
      InsertSorted(x, s[1..], key);
      assert r == [s[0]] + t;
      forall j | 0 < j < |r| ensures !KeyLess(key(r[j]), key(s[0])) {
        assert r[j] in multiset(t);
        if r[j] == x {
          if KeyLess(key(x), key(s[0])) {
            KeyLessTransitive(key(x), key(s[0]), key(x));
            KeyLessIrreflexive(key(x));
          }
        } else {
          assert r[j] in s[1..];
          SortedHead(s, key, r[j]);
        }
      }
    } else {
      assert r == [x] + s;
      forall j | 0 < j < |r| ensures !KeyLess(key(r[j]), key(x)) {
        SortedHead(s, key, r[j]);
        NotLessChain(key(x), key(s[0]), key(r[j]));
      }
    }
  }

  /** The result of `SortBy` is sorted. */
  lemma {:induction false} SortBySorted<T>(s: seq<T>, key: T -> seq<string>)
    ensures SortedBy(SortBy(s, key), key)
  {
    if s != [] {
      SortBySorted(s[1..], key);
      InsertSorted(s[0], SortBy(s[1..], key), key);
    }
  }

  /** The elements of `s` whose key is `k`, in order. */
  function WithKey<T>(s: seq<T>, key: T -> seq<string>, k: seq<string>): seq<T> {
    if s == [] then []
    else (if key(s[0]) == k then [s[0]] else []) + WithKey(s[1..], key, k)
  }

  lemma WithKeyCons<T>(a: T, t: seq<T>, key: T -> seq<string>, k: seq<string>)
    ensures WithKey([a] + t, key, k) == (if key(a) == k then [a] else []) + WithKey(t, key, k)
  {
    assert ([a] + t)[1..] == t;
  }

  lemma {:induction false} InsertWithKey<T>(x: T, s: seq<T>, key: T -> seq<string>, k: seq<string>)
    ensures WithKey(Insert(x, s, key), key, k) == (if key(x) == k then [x] else []) + WithKey(s, key, k)
  {
    if s != [] && KeyLess(key(s[0]), key(x)) {
      InsertWithKey(x, s[1..], key, k);
      InsertPastHead(x, s, key, k);
    } else {
      WithKeyCons(x, s, key, k);
      assert Insert(x, s, key) == [x] + s;
    }
  }

  /** Inserting past a smaller head keeps the head in front. */
  lemma InsertPastHead<T>(x: T, s: seq<T>, key: T -> seq<string>, k: seq<string>)
    requires s != [] && KeyLess(key(s[0]), key(x))
    requires WithKey(Insert(x, s[1..], key), key, k) == (if key(x) == k then [x] else []) + WithKey(s[1..], key, k)
    ensures WithKey(Insert(x, s, key), key, k) == (if key(x) == k then [x] else []) + WithKey(s, key, k)
  {
    var t := Insert(x, s[1..], key);
    assert Insert(x, s, key) == [s[0]] + t;
    assert s == [s[0]] + s[1..];
    KeyLessIrreflexive(key(x));
    PastHeadCase(x, s[0], t, s[1..], key, k);
  }

  lemma PastHeadCase<T>(x: T, h: T, t: seq<T>, rest: seq<T>, key: T -> seq<string>, k: seq<string>)
    requires key(h) != key(x)
    requires WithKey(t, key, k) == (if key(x) == k then [x] else []) + WithKey(rest, key, k)
    ensures WithKey([h] + t, key, k) == (if key(x) == k then [x] else []) + WithKey([h] + rest, key, k)
  {
    WithKeyCons(h, t, key, k);
    WithKeyCons(h, rest, key, k);
    var w := WithKey(rest, key, k);
    if key(x) == k {
      assert WithKey([h] + t, key, k) == WithKey(t, key, k) == [x] + w;
      assert WithKey([h] + rest, key, k) == w;
    } else if key(h) == k {
      assert WithKey(t, key, k) == w;
    } else {
      assert WithKey([h] + t, key, k) == WithKey(t, key, k) == w;
    }
  }

  /** Stability: the elements with any one key keep their input order. */
  lemma {:induction false} SortByStable<T>(s: seq<T>, key: T -> seq<string>, k: seq<string>)
    ensures WithKey(SortBy(s, key), key, k) == WithKey(s, key, k)
  {
    if s != [] {
      SortByStable(s[1..], key, k);
      InsertWithKey(s[0], SortBy(s[1..], key), key, k);
    }
  }

  /** A permutation of a duplicate-free sequence is duplicate-free. */
  lemma SortByKeepsDistinct<T>(s: seq<T>, key: T -> seq<string>)
    requires NoDup(s)
    ensures NoDup(SortBy(s, key))
  {
    var r := SortBy(s, key);
    forall i, j | 0 <= i < j < |r| ensures r[i] != r[j] {
      if r[i] == r[j] {
        MultisetTwice(r, i, j);
        DistinctMultiplicity(s, r[i]);
      }
    }
  }

  lemma MultisetTwice<T>(r: seq<T>, i: int, j: int)
    requires 0 <= i < j < |r| && r[i] == r[j]
    ensures multiset(r)[r[i]] >= 2
  {
    assert r == r[..i] + [r[i]] + r[i + 1..j] + [r[j]] + r[j + 1..];
  }

  lemma {:induction false} DistinctMultiplicity<T>(s: seq<T>, x: T)
    requires NoDup(s)
    ensures multiset(s)[x] <= 1
  {
    if s != [] {
      assert s == [s[0]] + s[1..];
      DistinctMultiplicity(s[1..], x);
      if x == s[0] {
        assert x !in s[1..];
      }
    }
  }

  /** A key function that tells every two values apart. */
  ghost predicate Injective<T(!new)>(key: T -> seq<string>) {
    forall a, b :: key(a) == key(b) ==> a == b
  }

  /**
   * Sorting the distinct elements of `s` by an injective key lists every element
   * of `s` once, in strictly increasing key order.
   */
  lemma SortUniqueFacts<T(!new)>(s: seq<T>, key: T -> seq<string>)
    requires Injective(key)
    ensures var r := SortBy(Dedup(s), key);
      && NoDup(r)
      && (forall x :: x in r <==> x in s)
      && (forall i, j :: 0 <= i < j < |r| ==> KeyLess(key(r[i]), key(r[j])))
  {
    var d := Dedup(s);
    var r := SortBy(d, key);
    SortByKeepsDistinct(d, key);
    SortBySorted(d, key);
    forall x ensures x in r <==> x in s {
      assert x in r <==> x in multiset(r);
      assert x in d <==> x in multiset(d);
    }
    forall i, j | 0 <= i < j < |r| ensures KeyLess(key(r[i]), key(r[j])) {
      assert !KeyLess(key(r[j]), key(r[i]));
      assert r[i] != r[j];
      KeyLessTotal(key(r[i]), key(r[j]));
    }
  }

  /** A string as a one-component sort key. */
  function Single(x: string): seq<string> {
    [x]
  }

  /** `sorted(set(xs))` */
  function SortedUnique(xs: seq<string>): (r: seq<string>)
    ensures |r| == |Dedup(xs)|
  {
    SortBy(Dedup(xs), Single)
  }

  /** `sorted(set(xs))` lists every string of `xs` once, in strictly increasing order. */
  lemma SortedUniqueFacts(xs: seq<string>)
    ensures var r := SortedUnique(xs);
      && (forall x :: x in r <==> x in xs)
      && (forall i, j :: 0 <= i < j < |r| ==> StrLess(r[i], r[j]))
  {
    assert Injective(Single) by {
      forall a, b | Single(a) == Single(b) ensures a == b {
        assert Single(a)[0] == a;
      }
    }
    SortUniqueFacts(xs, Single);
  }

  /** The sorted de-duplicated list holds no element twice. */
  lemma SortedUniqueNoDup(xs: seq<string>)
    ensures NoDup(SortedUnique(xs))
  {
    var r := SortedUnique(xs);
    SortedUniqueFacts(xs);
    forall i, j | 0 <= i < j < |r| ensures r[i] != r[j] {
      StrLessIrreflexive(r[i]);
    }
  }
}

=== FILE: strings.dfy ===
/**
 * Python string primitives the scanner relies on, over `seq<char>` (code points):
 * `str.strip`, `str.splitlines`, `str.split(sep)`, `sep.join`, `str.replace` of a
 * single character, slicing, ASCII `str.lower`, `str.isdigit` and `int`/`str` on
 * non-negative integers.
 */
module Strings {

  /** The code points Python's `str.isspace()` accepts, which `str.strip()` removes. */
  predicate IsSpace(c: char) {
    || ('\t' <= c <= '\r')
    || ('\U{1C}' <= c <= '\U{1F}')
    || c == ' '
    || c == '\U{85}'
    || c == '\U{A0}'
    || c == '\U{1680}'
    || ('\U{2000}' <= c <= '\U{200A}')
    || c == '\U{2028}'
    || c == '\U{2029}'
    || c == '\U{202F}'
    || c == '\U{205F}'
    || c == '\U{3000}'
  }

  /** The boundaries Python's `str.splitlines()` splits on (`\r\n` counts as one). */
  predicate IsLineBreak(c: char) {
    || ('\n' <= c <= '\r')
    || ('\U{1C}' <= c <= '\U{1E}')
    || c == '\U{85}'
    || c == '\U{2028}'
    || c == '\U{2029}'
  }

  ghost predicate AllSpace(s: string) {
    forall i :: 0 <= i < |s| ==> IsSpace(s[i])
  }

  /** `s.lstrip()` */
  function TrimLeft(s: string): string {
    if |s| > 0 && IsSpace(s[0]) then TrimLeft(s[1..]) else s
  }

  lemma {:induction false} TrimLeftFacts(s: string)
    ensures var r := TrimLeft(s); |r| <= |s| && r == s[|s| - |r|..]
    ensures var r := TrimLeft(s); AllSpace(s[..|s| - |r|])
    ensures var r := TrimLeft(s); |r| > 0 ==> !IsSpace(r[0])
  {
    if |s| > 0 && IsSpace(s[0]) {
      TrimLeftFacts(s[1..]);
      var r := TrimLeft(s);
      assert s[1..][|s| - 1 - |r|..] == s[|s| - |r|..];
      forall i | 0 <= i < |s| - |r| ensures IsSpace(s[i]) {
        if i > 0 {
          assert s[1..][..|s| - 1 - |r|][i - 1] == s[i];
        }
      }
    }
  }

  /** `s.rstrip()` */
  function TrimRight(s: string): string {
    if |s| > 0 && IsSpace(s[|s| - 1]) then TrimRight(s[..|s| - 1]) else s
  }

  lemma {:induction false} TrimRightFacts(s: string)
    ensures var r := TrimRight(s); |r| <= |s| && r == s[..|r|]
    ensures var r := TrimRight(s); AllSpace(s[|r|..])
    ensures var r := TrimRight(s); |r| > 0 ==> !IsSpace(r[|r| - 1])
  {
    if |s| > 0 && IsSpace(s[|s| - 1]) {
      var p := s[..|s| - 1];
      TrimRightFacts(p);
      var r := TrimRight(s);
      assert p[..|r|] == s[..|r|];
      forall i | |r| <= i < |s| ensures IsSpace(s[i]) {
        if i < |s| - 1 {
          assert p[|r|..][i - |r|] == s[i];
        }
      }
    }
  }

  /** `r` is `s` with the whitespace before index `a` and after `a + |r|` removed. */
  ghost predicate IsStripAt(s: string, r: string, a: int) {
    0 <= a <= |s| - |r| && r == s[a..a + |r|] && AllSpace(s[..a]) && AllSpace(s[a + |r|..])
  }

  /** `s.strip()`: the slice left after removing leading and trailing whitespace. */
  function Strip(s: string): string {
    TrimRight(TrimLeft(s))
  }

  /** What `Strip` removes: whitespace only, and all of it at both ends. */
  lemma StripFacts(s: string)
    ensures exists a :: IsStripAt(s, Strip(s), a)
    ensures var r := Strip(s); |r| > 0 ==> !IsSpace(r[0]) && !IsSpace(r[|r| - 1])
  {
    var l := TrimLeft(s);
    assert Strip(s) == TrimRight(l);
    TrimLeftFacts(s);
    TrimRightFacts(l);
    StripWitness(s, l, TrimRight(l));
  }

  lemma StripWitness(s: string, l: string, r: string)
    requires |l| <= |s| && l == s[|s| - |l|..] && AllSpace(s[..|s| - |l|])
    requires |l| > 0 ==> !IsSpace(l[0])
    requires |r| <= |l| && r == l[..|r|] && AllSpace(l[|r|..])
    requires |r| > 0 ==> !IsSpace(r[|r| - 1])
    ensures IsStripAt(s, r, |s| - |l|)
    ensures |r| > 0 ==> !IsSpace(r[0]) && !IsSpace(r[|r| - 1])
  {
    var a := |s| - |l|;
    assert l == s[a..];
    assert r == l[..|r|];
    assert r == s[a..a + |r|];
    assert AllSpace(s[..a]);
    var tail := s[a + |r|..];
    assert tail == l[|r|..];
    assert AllSpace(l[|r|..]);
  }

  /** Stripping a string without surrounding whitespace leaves it unchanged. */
  lemma StripStripped(s: string)
    requires |s| > 0 ==> !IsSpace(s[0]) && !IsSpace(s[|s| - 1])
    ensures Strip(s) == s
  {
  }

  /** Stripping is idempotent. */
  lemma StripIdempotent(s: string)
    ensures Strip(Strip(s)) == Strip(s)
  {
    StripFacts(s);
    StripStripped(Strip(s));
  }

  /** Python's `not s.strip()`: nothing but whitespace. */
  predicate IsBlank(s: string) {
    forall i :: 0 <= i < |s| ==> IsSpace(s[i])
  }

  /** A string is blank exactly when stripping it leaves nothing. */
  lemma BlankIffStripEmpty(s: string)
    ensures IsBlank(s) <==> Strip(s) == []
  {
    var r := Strip(s);
    StripFacts(s);
    var a :| IsStripAt(s, r, a);
    if r == [] {
      forall i | 0 <= i < |s| ensures IsSpace(s[i]) {
        if i < a {
          assert s[..a][i] == s[i];
        } else {
          assert s[a..][i - a] == s[i];
        }
      }
    } else {
      assert s[a] == r[0];
    }
  }

  /** Stripping does not change whether a string is blank. */
  lemma StripKeepsBlank(s: string)
    ensures IsBlank(Strip(s)) <==> IsBlank(s)
  {
    BlankIffStripEmpty(s);
    StripFacts(s);
    var r := Strip(s);
    if r != [] {
      assert !IsSpace(r[0]);
    }
  }

  /** `s[:n]` for a non-negative `n`. */
  function Take(s: string, n: nat): (r: string)
    ensures |r| == if n < |s| then n else |s|
    ensures r == s[..|r|]
  {
    if n < |s| then s[..n] else s
  }

  /** `s.replace(a, b)` where `a` and `b` are single characters. */
  function ReplaceChar(s: string, a: char, b: char): (r: string)
    ensures |r| == |s|
    ensures forall i :: 0 <= i < |s| ==> r[i] == (if s[i] == a then b else s[i])
  {
    if s == [] then [] else [if s[0] == a then b else s[0]] + ReplaceChar(s[1..], a, b)
  }

  /** `s.replace(c, "")` where `c` is a single character. */
  function RemoveChar(s: string, c: char): (r: string)
    ensures c !in r
    ensures c !in s ==> r == s
    ensures c in s ==> |r| < |s|
  {
    if s == [] then []
    else
      assert s == [s[0]] + s[1..];
      (if s[0] == c then [] else [s[0]]) + RemoveChar(s[1..], c)
  }

  /** Removing `c` keeps every other character the same number of times. */
  lemma {:induction false} RemoveCharKeepsOthers(s: string, c: char, x: char)
    requires x != c
    ensures multiset(RemoveChar(s, c))[x] == multiset(s)[x]
  {
    if s != [] {
      assert s == [s[0]] + s[1..];
      RemoveCharKeepsOthers(s[1..], c, x);
    }
  }

  /** `sep.join(parts)` */
  function Join(parts: seq<string>, sep: string): string {
    if |parts| == 0 then []
    else if |parts| == 1 then parts[0]
    else parts[0] + sep + Join(parts[1..], sep)
  }

  /** A join starts with its first part. */
  lemma JoinStartsWith(parts: seq<string>, sep: string)
    requires |parts| >= 1
    ensures |Join(parts, sep)| >= |parts[0]| && Join(parts, sep)[..|parts[0]|] == parts[0]
  {
  }

  /** Joining parts that are each non-blank gives blank text exactly when there are no parts. */
  lemma JoinBlankIff(parts: seq<string>, sep: string)
    requires forall i :: 0 <= i < |parts| ==> !IsBlank(parts[i])
    ensures IsBlank(Join(parts, sep)) <==> parts == []
  {
    var j := Join(parts, sep);

    if parts != [] {
      JoinStartsWith(parts, sep);

      var k :| 0 <= k < |parts[0]| && !IsSpace(parts[0][k]);
      assert j[..|parts[0]|][k] == j[k];
    }
  }

  /** Joining two non-empty lists is joining each and putting the separator between them. */
  lemma {:induction false} JoinAppend(a: seq<string>, b: seq<string>, sep: string)
    requires a != [] && b != []
    ensures Join(a + b, sep) == Join(a, sep) + sep + Join(b, sep)
  {
    if |a| == 1 {
      assert (a + b)[1..] == b;
    } else {
      assert (a + b)[1..] == a[1..] + b;
      JoinAppend(a[1..], b, sep);
    }
  }

  /** Index of the first `c` in `s`, or `|s|` when there is none. */
  function IndexOfChar(s: string, c: char): (j: nat)
    ensures j <= |s|
    ensures j < |s| ==> s[j] == c
    ensures forall k :: 0 <= k < j ==> s[k] != c
  {
    if s == [] then 0 else if s[0] == c then 0 else 1 + IndexOfChar(s[1..], c)
  }

  /** `s.split(sep)` for a one-character separator: never empty, pieces never contain `sep`. */
  function Split(s: string, sep: char): (r: seq<string>)
    ensures |r| >= 1
    ensures forall i :: 0 <= i < |r| ==> sep !in r[i]
    decreases |s|
  {
    var j := IndexOfChar(s, sep);
    if j == |s| then [s] else [s[..j]] + Split(s[j + 1..], sep)
  }

  /** Every character of a piece of `Split(s, sep)` occurs in `s`. */
  lemma {:induction false} SplitPieceChars(s: string, sep: char, i: int, c: char)
    requires 0 <= i < |Split(s, sep)| && c in Split(s, sep)[i]
    ensures c in s
    decreases |s|
  {
    var j := IndexOfChar(s, sep);
    if j < |s| && i > 0 {
      SplitPieceChars(s[j + 1..], sep, i - 1, c);
    }
  }

  /** Splitting a join on the same separator gives the pieces back. */
  lemma {:induction false} SplitJoin(parts: seq<string>, sep: char)
    requires |parts| >= 1
    requires forall i :: 0 <= i < |parts| ==> sep !in parts[i]
    ensures Split(Join(parts, [sep]), sep) == parts
  {
    if |parts| == 1 {
      assert IndexOfChar(parts[0], sep) == |parts[0]|;
    } else {
      var s := Join(parts, [sep]);
      var rest := Join(parts[1..], [sep]);
      assert s == parts[0] + [sep] + rest;
      var j := IndexOfChar(s, sep);
      assert s[|parts[0]|] == sep;
      assert forall k :: 0 <= k < |parts[0]| ==> s[k] == parts[0][k];
      assert j == |parts[0]|;
      assert s[..j] == parts[0];
      assert s[j + 1..] == rest;
      SplitJoin(parts[1..], sep);
    }
  }

  /** Index of the first line break in `s`, or `|s|`. */
  function IndexOfLineBreak(s: string): (j: nat)
    ensures j <= |s|
    ensures j < |s| ==> IsLineBreak(s[j])
    ensures forall k :: 0 <= k < j ==> !IsLineBreak(s[k])
  {
    if s == [] then 0 else if IsLineBreak(s[0]) then 0 else 1 + IndexOfLineBreak(s[1..])
  }

  /** `s.splitlines()`: no line holds a break; a trailing break adds no empty line. */
  function SplitLines(s: string): (r: seq<string>)
    ensures forall i, k :: 0 <= i < |r| && 0 <= k < |r[i]| ==> !IsLineBreak(r[i][k])
    ensures s == [] <==> r == []
    decreases |s|
  {
    if s == [] then []
    else
      var j := IndexOfLineBreak(s);
      if j == |s| then [s]
      else
        var width := if s[j] == '\r' && j + 1 < |s| && s[j + 1] == '\n' then 2 else 1;
        [s[..j]] + SplitLines(s[j + width..])
  }

  function LowerChar(c: char): char {
    if 'A' <= c <= 'Z' then (c as int + 32) as char else c
  }

  /** `s.lower()` restricted to ASCII letters (see README on the non-ASCII case). */
  function LowerAscii(s: string): (r: string)
    ensures |r| == |s|
    ensures forall i :: 0 <= i < |s| ==> r[i] == LowerChar(s[i])
  {
    if s == [] then [] else [LowerChar(s[0])] + LowerAscii(s[1..])
  }

  predicate IsDigit(c: char) {
    '0' <= c <= '9'
  }

  /** `s.isdigit()` for ASCII digits: false on the empty string. */
  predicate IsDigits(s: string) {
    |s| > 0 && forall i :: 0 <= i < |s| ==> IsDigit(s[i])
  }

  /** `int(s)` for a string of ASCII digits (leading zeros allowed). */
  function DigitsValue(s: string): nat
    requires forall i :: 0 <= i < |s| ==> IsDigit(s[i])
  {
    if s == [] then 0
    else
      assert IsDigit(s[|s| - 1]);
      DigitsValue(s[..|s| - 1]) * 10 + (s[|s| - 1] as int - '0' as int)
  }

  /** `str(n)` for a non-negative integer. */
  function NatToString(n: nat): (r: string)
    ensures IsDigits(r)
    ensures |r| > 1 ==> r[0] != '0'
  {
    if n < 10 then ['0' + n as char] else NatToString(n / 10) + ['0' + (n % 10) as char]
  }

  /** `int(str(n)) == n`. */
  lemma {:induction false} NatToStringRoundTrip(n: nat)
    ensures DigitsValue(NatToString(n)) == n
  {
    var s := NatToString(n);
    if n >= 10 {
      assert s[..|s| - 1] == NatToString(n / 10);
      NatToStringRoundTrip(n / 10);
    }
  }

  /** Distinct numbers print as distinct strings. */
  lemma NatToStringInjective(m: nat, n: nat)
    requires NatToString(m) == NatToString(n)
    ensures m == n
  {
    NatToStringRoundTrip(m);
    NatToStringRoundTrip(n);
  }

  /** Python's `<` on strings: lexicographic by code point, a proper prefix first. */
  predicate StrLess(a: string, b: string) {
    if a == [] then b != []
    else b != [] && (a[0] < b[0] || (a[0] == b[0] && StrLess(a[1..], b[1..])))
  }

  lemma {:induction false} StrLessIrreflexive(a: string)
    ensures !StrLess(a, a)
  {
    if a != [] {
      StrLessIrreflexive(a[1..]);
    }
  }

  lemma {:induction false} StrLessTransitive(a: string, b: string, c: string)
    requires StrLess(a, b) && StrLess(b, c)
    ensures StrLess(a, c)
  {
    if a != [] && a[0] == b[0] && b[0] == c[0] {
      StrLessTransitive(a[1..], b[1..], c[1..]);
    }
  }

  lemma {:induction false} StrLessTotal(a: string, b: string)
    requires a != b
    ensures StrLess(a, b) || StrLess(b, a)
  {
    if a != [] && b != [] && a[0] == b[0] {
      assert a == [a[0]] + a[1..] && b == [b[0]] + b[1..];
      StrLessTotal(a[1..], b[1..]);
    }
  }
}

=== FILE: wrappers.dfy ===
/** Failure-compatible optional value, standing for Python's `None`-or-value results. */
module Wrappers {

  datatype Option<+T> = None | Some(value: T) {

    predicate IsFailure() {
      None?
    }

    function PropagateFailure<U>(): Option<U>
      requires None?
    {
      None
    }

    function Extract(): T
      requires Some?
    {
      value
    }

    /** `value or default`, the way the source writes `lookup(x) or ""`. */
    function GetOr(default: T): T {
      match this
      case Some(v) => v
      case None => default
    }
  }
}
